=== FILE: README.md ===
# Advent of Code 2024 solutions, modelled in Dafny

This project models the puzzle solvers of one Advent of Code 2024
repository and proves what they compute. The solvers are mostly Python,
with one C program (day 1) and one C++ program (day 6). Each solver is
modelled as pure functions over immutable data. Loops that matter are
modelled as methods with loop invariants. Each model is connected by
lemmas to an independent description of the answer it should produce.

The modules follow the repository's files:

| module | models |
|---|---|
| `Basics` | shared helpers: `Option`, `Result`, absolute difference, swap, sum, occurrence counts, sortedness |
| `Decimal` | Python's `str` and `int` on non-negative integers |
| `Plane` | grid positions and rectangles |
| `Patrol` | the guard's patrol as a state machine: a reference for both day-6 solvers |
| `CppGuard` | `c++/day06.c++`: string splitting, map parsing, the `Puzzle` class, `part1`, `has_loop`, `part2`, `main` |
| `PyGuard` | `python/day06.py`: `get_start`, `part1`, `get_visited_cells`, `has_loop`, `part2` |
| `Locations` | `python/day01.py` |
| `CLists` | `day1/day1.c`: bubble sort, the growable array list, `main` |
| `Reports` | `python/day02.py` |
| `PageOrder` | `day05/day05.py` |
| `XMas` | `python/day04.py`, `part2` |
| `Antennas` | `python/day08.py` |
| `DiskMap` | `python/day09.py` |
| `Trails` | `python/day10.py` |
| `Stones` | `python/day11.py` |

The day-6 patrol is the centre of the model. `Patrol` defines the guard's
walk once:
- leave when the cell ahead is off the floor;
- turn clockwise in place when that cell is walled;
- step otherwise.

On that walk it defines:
- "escapes" and "trapped";
- the set of cells an escaping guard stands on (`Route`);
- the cells on which one extra wall traps the guard (`Obstructions`).

The two day-6 solvers are then proved against this definition. For the
C++ program the proofs cover:
- every loop pass of `visited_position`/`has_loop` is one `Step`;
- `part1` counts `Route`;
- `has_loop` answers true exactly for a trapped guard;
- `part2` counts `Obstructions`.

The Python program differs from the reference in several places. Those
differences are modelled as written, and the corrected functions carry
the proofs (see Findings).

Loops that the source can run forever are modelled with a `fuel`
parameter:
- the guard walks, which never end on a boxed-in or looping guard;
- `fix_update` on cyclic rules.

Running out of fuel yields `None`. Every theorem about such a function
assumes the result is not `None`.

## Model

| member | source | states |
|---|---|---|
| `Basics.Gap` | python/day01.py:21 | `abs(b - a)`: the result is one of the two differences and non-negative |
| `Basics.Swap` | day1/day1.c:10-14 | the two entries are exchanged, every other entry is unchanged, and the multiset is kept |
| `Basics.SortedPermutationUnique` | python/day01.py:49-50 | two sorted rearrangements of the same multiset are equal, so the sorted lists do not depend on the sorting algorithm |
| `Decimal.Show` | python/day11.py:20-21 | `str(n)` is a non-empty string of digits with no leading zero |
| `Decimal.ParseShow` | python/day11.py:21-24 | `int(str(n)) == n` |
| `Decimal.ShowLength` | python/day11.py:20 | `n` has exactly `len(str(n))` digits: it lies between `10^(d-1)` and `10^d` |
| `Decimal.SplitDivMod` | python/day11.py:23-24 | the front half of a digit string reads as the quotient by `10^k` and the back half as the remainder, leading zeros included |
| `Plane.Cells` | python/day08.py:71 | the cells of a rectangle are exactly the positions inside it |
| `Plane.CellsCount` | python/day08.py:71 | an `h` by `w` rectangle has `h * w` cells |
| `Patrol.Clockwise` | c++/day06.c++:97-114 | a quarter turn is the next heading index modulo 4 |
| `Patrol.FourTurnsIdentity` | c++/day06.c++:97-114 | four quarter turns restore the heading |
| `Patrol.Ahead` | c++/day06.c++:64-69 | the cell ahead is a different cell at distance one |
| `Patrol.AddWall` | c++/day06.c++:279 | adding an obstacle keeps the floor's size and adds exactly that wall |
| `Patrol.Step` | c++/day06.c++:234-242 | one loop pass: the guard leaves only when the cell ahead is off the floor, turns in place only at a wall, and otherwise steps onto an open cell with the same heading |
| `Patrol.GoneStays` | c++/day06.c++:234-243 | once the guard has left it never returns |
| `Patrol.EscapeExcludesTrap` | c++/day06.c++:253-269 | no patrol both ends and runs forever |
| `Patrol.IterateSplit` | c++/day06.c++:234-242 | `a` passes then `b` passes is `a + b` passes |
| `Patrol.PeriodicFrom` | c++/day06.c++:257-259 | once a state recurs after `p` passes, every later state recurs with period `p` |
| `Patrol.RepeatTraps` | c++/day06.c++:257-259 | a state met twice traps the guard forever |
| `Patrol.RevisitTraps` | c++/day06.c++:257-259 | a current state already in the history means the guard is trapped; this is why `has_loop` may answer true |
| `Patrol.StaysOnOpenCells` | c++/day06.c++:234-242 | a guard that starts on an open cell only stands on open cells |
| `Patrol.TrailMembers` | c++/day06.c++:240-243 | the trail of the first `n` states holds exactly the cells stood on before step `n` |
| `Patrol.HistoryWitness` | c++/day06.c++:257-259 | a state in the history occurred at some earlier step |
| `Patrol.HistoryHolds` | c++/day06.c++:257-259 | every earlier state is in the history |
| `Patrol.TrailOfEscape` | c++/day06.c++:243-250 | once the guard has left, its trail is every cell it ever visits |
| `Patrol.Route` | c++/day06.c++:247-251 | the route of an escaping guard is exactly the set of cells it visits |
| `CppGuard.Find` | c++/day06.c++:21 | `find` returns the first occurrence: it holds the character and none comes before it |
| `CppGuard.Split` | c++/day06.c++:16-29 | no piece holds the delimiter, and the empty string splits into no pieces |
| `CppGuard.JoinSplit` | c++/day06.c++:16-29 | joining the pieces with the delimiter gives back the input, less one final delimiter |
| `CppGuard.JoinSplitFirst` | c++/day06.c++:21-24 | split then join, unfolded at the first delimiter |
| `CppGuard.DropFinalAt` | c++/day06.c++:25-27 | dropping a final delimiter, unfolded at any occurrence of the delimiter: only the piece after it can lose its end |
| `CppGuard.SplitJoin` | c++/day06.c++:16-29 | splitting a join gives back the pieces, when none holds the delimiter and the last is not empty |
| `CppGuard.GuardIffMarker` | c++/day06.c++:158-183 | a character parses as a guard cell exactly when it sets a heading |
| `CppGuard.ParseRow` | c++/day06.c++:155-185 | a line parses exactly when every character is one of `.^>v<#`; it then parses cell by cell, and otherwise fails with "Invalid character" |
| `CppGuard.ParseRows` | c++/day06.c++:153-188 | the map parses exactly when every line does, cell by cell, keeping each line's length |
| `CppGuard.LastHeadingInLine` | c++/day06.c++:157-177 | the heading after a line is set by its last guard marker, and none is set without a marker |
| `CppGuard.LastHeading` | c++/day06.c++:153-188 | the heading after the map is set by the last marker in reading order |
| `CppGuard.ParseMap` | c++/day06.c++:153-188 | the parse yields the cells and the last marker's heading, or fails with "Invalid character" |
| `CppGuard.ParsedGuardHasHeading` | c++/day06.c++:162-177 | a parsed map holding a guard cell has a heading set |
| `CppGuard.FirstGuard` | c++/day06.c++:139-147 | the first guard cell of a row, or none when the row has no guard |
| `CppGuard.StartFrom` | c++/day06.c++:135-151 | the first guard cell in row-major order from row `y`, or "Guard not found" exactly when there is none |
| `CppGuard.StartPosition` | c++/day06.c++:135-151 | the first guard cell of the map, or "Guard not found" exactly when there is none |
| `CppGuard.Load` | c++/day06.c++:87-95 | the constructor: parse the lines, take the first guard as start and current, and aim at the cell ahead; its errors are the two messages the parser and the search throw |
| `CppGuard.Write` | c++/day06.c++:117 | writing a cell sets that cell and keeps the map rectangular |
| `CppGuard.WriteCells` | c++/day06.c++:117 | writing a cell leaves every other cell as it was |
| `CppGuard.FloorOf` | c++/day06.c++:234-236 | the floor of a map has its height and width |
| `CppGuard.FloorOfCells` | c++/day06.c++:234-236 | the floor's cells are the map's bounds and its walls are exactly the obstacle cells |
| `CppGuard.InBoundsAsWritten` | c++/day06.c++:234-235 | the loop test on `uint16_t` coordinates, where `>= 0` always holds and -1 wraps to 65535, agrees with `InBounds` on every cell at most one step off a map of fewer than 65536 rows and columns |
| `CppGuard.Rotate` | c++/day06.c++:97-114 | `rotate` turns clockwise, changes nothing else, and re-aims `next` |
| `CppGuard.FourRotationsIdentity` | c++/day06.c++:97-114 | four rotations restore the puzzle |
| `CppGuard.Move` | c++/day06.c++:116-123 | `move` puts the guard on `next`, empties its old cell, keeps the heading and re-aims |
| `CppGuard.MoveCells` | c++/day06.c++:116-123 | `move` changes no cell except the old and the new guard cell |
| `CppGuard.Reset` | c++/day06.c++:222-229 | `reset` puts the guard back on its start, facing up, and empties the cell it left |
| `CppGuard.ResetCells` | c++/day06.c++:222-229 | `reset` changes no cell except the current one and the start |
| `CppGuard.Walk` | c++/day06.c++:234-244 | the `visited_position` loop ends with the guard facing off the map, on the same floor, having recorded its start cell and kept every earlier record |
| `CppGuard.VisitedPosition` | c++/day06.c++:232-245 | the visited map holds the starting cell, and the puzzle keeps its floor and start |
| `CppGuard.Part1` | c++/day06.c++:247-251 | `part1` counts at least the guard's own cell and at most every cell of the map |
| `CppGuard.LoopPassIsStep` | c++/day06.c++:234-242 | each loop pass is one `Step` of the patrol: leave, turn at an obstacle, or move |
| `CppGuard.WalkTracksPatrol` | c++/day06.c++:234-244 | the walk's recorded cells are the trail of the patrol up to the step at which the guard leaves |
| `CppGuard.WalkTurnPass` | c++/day06.c++:236-238 | a turning pass keeps the records in line with the patrol |
| `CppGuard.WalkMovePass` | c++/day06.c++:240-241 | a moving pass records the cell the guard leaves, in line with the patrol |
| `CppGuard.TurnPass` | c++/day06.c++:236-238 | a turn is the patrol's next state and adds no cell to the trail |
| `CppGuard.MovePass` | c++/day06.c++:240-241 | a move is the patrol's next state and adds the new cell to the trail |
| `CppGuard.VisitedPositionIsPatrol` | c++/day06.c++:232-245 | the visited cells are exactly the cells the patrol visits, and a finished walk means the guard escapes |
| `CppGuard.VisitedCellsOpen` | c++/day06.c++:232-245 | every visited cell is on the map and is no obstacle |
| `CppGuard.LoopSearch` | c++/day06.c++:253-269 | the `has_loop` loop keeps the floor and start, and answers false only with the guard facing off the map |
| `CppGuard.HasLoop` | c++/day06.c++:253-269 | the same for `has_loop` with an empty visited map |
| `CppGuard.LoopSearchSound` | c++/day06.c++:253-269 | a finished search stops at a step where the state was met before (true) or where the guard has gone (false) |
| `CppGuard.HasLoopSound` | c++/day06.c++:253-269 | `has_loop` answers true exactly when the guard is trapped and false exactly when it escapes |
| `CppGuard.Scan` | c++/day06.c++:274 | the visited cells in row-major order: each once, and exactly the keys inside the map |
| `CppGuard.Trials` | c++/day06.c++:274-284 | the trial loop counts at most one loop per candidate (none for the start) and hands back a puzzle on the same floor |
| `CppGuard.TrialsCount` | c++/day06.c++:274-284 | the trials count exactly the candidates on which one added obstacle traps a guard starting up from the start |
| `CppGuard.TrialStep` | c++/day06.c++:275-283 | one trial adds one exactly when its wall traps the guard, and restores the floor for the next |
| `CppGuard.ObstructionsCons` | c++/day06.c++:274-284 | the obstruction count of a candidate list grows by one for its head exactly when the head traps the guard |
| `CppGuard.Part2` | c++/day06.c++:271-286 | `part2` counts fewer loops than the map has cells, and keeps the floor and start |
| `CppGuard.Candidates` | c++/day06.c++:273-274 | the trial candidates are the visited cells: open floor cells including the start, at most one per map cell |
| `CppGuard.Part1Route` | c++/day06.c++:247-251 | `part1` is the number of cells on the escaping guard's route |
| `CppGuard.Part2Route` | c++/day06.c++:271-286 | `part2` is the number of route cells on which one obstacle traps a guard starting up from the start |
| `CppGuard.LoadValid` | c++/day06.c++:87-95 | a loaded rectangular puzzle is a valid state with its guard on the start cell |
| `CppGuard.Program` | c++/day06.c++:289-297 | `main` fails exactly when loading throws, with one of the two messages; a loaded map whose rows differ in length is where the model stops (`Ragged`), see Left out |
| `CppGuard.ProgramAnswers` | c++/day06.c++:289-297 | `main`'s answers are the route size of the guard with its parsed heading and, after `reset`, the obstruction count of the guard facing up |
| `PyGuard.Wrap` | python/day06.py:60-61 | a Python index in range `-n..n-1` reads entry `i` or `i + n` |
| `PyGuard.Next` | python/day06.py:50-55 | the cell ahead for any heading index, `-1` included, is a neighbour |
| `PyGuard.Turn` | python/day06.py:66 | a turn is the next index modulo 4 |
| `PyGuard.HeadingAgrees` | python/day06.py:50-55 | the Python direction table and turn agree with the patrol's headings and clockwise turn |
| `PyGuard.UnsetHeadingIsLeft` | python/day06.py:24 | heading `-1` reads the last table entry, so it moves and turns as left |
| `PyGuard.MarkerIndex` | python/day06.py:32-43 | only the four guard markers give a heading index, 0 to 3 |
| `PyGuard.ScanRow` | python/day06.py:27-43 | a row without special characters changes nothing; otherwise the start is a special cell of that row |
| `PyGuard.StartFrom` | python/day06.py:26-45 | the start is either unchanged or a special cell from row `y` on, and unchanged when there is none |
| `PyGuard.GetStart` | python/day06.py:23-46 | `get_start` returns `(-1, (-1, -1))` exactly on a map without special characters, and otherwise a special cell |
| `PyGuard.GetStartFindsGuard` | python/day06.py:23-46 | with a single special cell, a marker, `get_start` returns its heading and position wherever it is, in spite of the early-exit test |
| `PyGuard.Put` | python/day06.py:143-144 | writing a cell of the copy changes that cell only |
| `PyGuard.GetStartIgnoresWall` | python/day06.py:109 | a '#' written on a '.' leaves `get_start` unchanged on the copy |
| `PyGuard.GridFloorCells` | python/day06.py:113-117 | the floor's cells are the grid's bounds and its walls the '#' cells |
| `PyGuard.PutWallFloor` | python/day06.py:143-144 | writing '#' on a '.' adds exactly that wall to the floor |
| `PyGuard.Lookup` | python/day06.py:110 | the `defaultdict` reads -1 for a cell never stored |
| `PyGuard.LoopPassIsStep` | python/day06.py:113-126 | each `has_loop` pass is one `Step`: leave, turn at '#', or step |
| `PyGuard.LoopFromSound` | python/day06.py:113-127 | `LoopFrom`, the `has_loop` loop: a finished loop answers true only for a trapped guard and false only for an escaping one |
| `PyGuard.HasLoopSound` | python/day06.py:102-127 | `HasLoop`: with a heading set, `has_loop` answers true exactly when the guard is trapped and false exactly when it escapes |
| `PyGuard.UnsetHeadingReportsLoop` | python/day06.py:109-115 | with no heading found and the cell left of the start on the grid, the default -1 matches at once and `has_loop` reports a loop (on a map with no special cell `has_loop` answers False instead, see `PyGuard.NoSpecialCellNoLoop`) |
| `PyGuard.NoSpecialCellNoLoop` | python/day06.py:109-127 | with no special cell anywhere the start is `(-1, -1)`, the cell left of it is off the grid, and `has_loop` answers False at once |
| `PyGuard.Store` | python/day06.py:96 | storing in the dict updates the value and appends a new key at the end, in insertion order |
| `PyGuard.CellsOf` | python/day06.py:72 | the cells of the keys are exactly the cell keys |
| `PyGuard.CellsOfCount` | python/day06.py:72 | the number of keys is the number of cells plus one for 'default_factory' |
| `PyGuard.Advance` | python/day06.py:65-68 | one pass: turn at most once without looking again, then step in the new heading |
| `PyGuard.Path` | python/day06.py:63-71 | the cells the walker enters, each next to the one before |
| `PyGuard.Wander` | python/day06.py:90-98 | the loop finishes exactly when the walk does, and only adds cell keys |
| `PyGuard.GetVisitedCells` | python/day06.py:75-99 | the dict's first key is 'default_factory' and every other key is a cell |
| `PyGuard.Part1` | python/day06.py:49-72 | `part1` is never negative |
| `PyGuard.WanderTracksPath` | python/day06.py:90-98 | the stored cells are the earlier ones plus the walker's path |
| `PyGuard.VisitedCellsPath` | python/day06.py:75-99 | the visited cells are exactly the cells of the walker's path |
| `PyGuard.Part1Path` | python/day06.py:49-72 | `part1` counts the distinct cells the walker enters; the start counts only when re-entered |
| `PyGuard.PatrolFrom` | python/day06.py:63-71 | the corrected walk: its cells include the start and every earlier cell |
| `PyGuard.Part1Fixed` | python/day06.py:49-72 | the corrected count is at least one |
| `PyGuard.PatrolFromTracks` | python/day06.py:63-71 | the corrected walk's cells are the patrol's trail up to the step at which the guard leaves |
| `PyGuard.Part1FixedRoute` | python/day06.py:49-72 | the corrected `part1` is the size of the escaping guard's route |
| `PyGuard.TestedCell` | python/day06.py:136-142 | a key that passes the guards names a grid cell; with the corrected guard it is the key's own cell |
| `PyGuard.Trials` | python/day06.py:135-148 | `part2`'s loop counts at most one loop per key and none for 'default_factory' |
| `PyGuard.Part2` | python/day06.py:130-149 | `part2` counts fewer loops than the dict has keys |
| `PyGuard.Part2Fixed` | python/day06.py:130-149 | the corrected count too |
| `PyGuard.TrialsCount` | python/day06.py:135-148 | with the corrected guard, the trials count the obstructions among the keys' cells, in any key order |
| `PyGuard.TrialStep` | python/day06.py:136-146 | one key adds one exactly when its cell is an obstruction |
| `PyGuard.TrialVerdict` | python/day06.py:142-146 | `has_loop` on the copy walled at a '.' cell finds a loop exactly when that cell is an obstruction |
| `PyGuard.ObstructionsAdd` | python/day06.py:135-148 | the obstructions of a set grow by a cell exactly when that cell is one |
| `PyGuard.Part2FixedCount` | python/day06.py:130-149 | the corrected `part2` counts the cells of the walker's path on which one more '#' traps the guard |
| `PyGuard.TrialsAgreeOnGrid` | python/day06.py:140 | when every key is on the grid, the `and` guard and the corrected guard run the same trials |
| `PyGuard.Part2AgreesOnGrid` | python/day06.py:130-149 | when the walker's path stays on the grid, `part2` as written equals the corrected count |
| `PyGuard.AndGuardTestsOffPathCell` | python/day06.py:140 | on `["v.", "#."]` the walker stores `(0, -1)`, which the `and` guard lets through to wall `(0, 1)`; the corrected guard skips it |
| `PyGuard.Part1SkipsStart` | python/day06.py:62-72 | on `["^"]` `part1` answers 0, the corrected count 1 |
| `PyGuard.WalkerEntersWall` | python/day06.py:65-69 | on `["#.", "^#"]` the walker turns and steps onto a '#' without looking again |
| `Locations.DistanceUsesPrefix` | python/day01.py:18-22 | `part1` reads only as many right entries as there are left ones |
| `Locations.DistanceSymmetric` | python/day01.py:21 | the distance is the same with the lists exchanged |
| `Locations.Part1` | python/day01.py:18-22 | the loop sums `abs(right[i] - left[i])`, a non-negative total |
| `Locations.SimilarityAppend` | python/day01.py:33-35 | one more right value `y` adds `y` times its count in the left list |
| `Locations.SimilaritySymmetric` | python/day01.py:25-36 | the similarity reads the same from either side |
| `Locations.SimilarityOrderFree` | python/day01.py:25-36 | the similarity depends only on the two multisets |
| `Locations.SimilarityCountsOnly` | python/day01.py:26-31 | reordering the right list does not change the similarity |
| `Locations.Part2` | python/day01.py:25-36 | the counting table and the weighted sum give the similarity of the left list with the first `len(left)` right values |
| `Locations.Part2OrderFree` | python/day01.py:49-53 | sorting both lists first does not change `part2` |
| `Locations.SampleAnswers` | python/day01.py:59-60 | the sample lists give 11 and 31 |
| `CLists.BubbleSort` | day1/day1.c:16-24 | the sort returns a sorted rearrangement of its input |
| `CLists.Init` | day1/day1.c:38-46 | a new list is empty with the requested capacity |
| `CLists.GrownCap` | day1/day1.c:49-54 | the capacity doubles only when the list is full |
| `CLists.AppendWriteFits` | day1/day1.c:49-59 | with a positive capacity, the write after growing lands inside the buffer |
| `CLists.ZeroCapacityOverflows` | day1/day1.c:48-60 | with capacity 0, doubling leaves 0 and the first write is past the buffer |
| `CLists.AppendAsWritten` | day1/day1.c:48-60 | `append` as written stores the value after the old items, growing only a full list of positive capacity |
| `CLists.Append` | day1/day1.c:48-60 | the corrected `append` keeps the items in place, stores the value last, keeps it fitting its buffer, and equals the original when the capacity is positive |
| `CLists.Get` | day1/day1.c:62-67 | `get` returns the item at an index below the length and fails otherwise |
| `CLists.GetAfterAppend` | day1/day1.c:48-67 | after an append, the new index reads the value and older indices read as before |
| `CLists.ArrayListSample` | day1/day1.c:81-103 | five appends to a list of capacity 2 give length 5, capacity 8, and items 1 to 5 |
| `CLists.Collect` | day1/day1.c:149-156 | the reading loop builds the two lists in order and counts each right value in the table |
| `CLists.Totals` | day1/day1.c:162-170 | the final loop computes the distance and the table-weighted similarity |
| `CLists.Program` | day1/day1.c:139-178 | `main` prints the distance of the sorted lists and the order-free similarity |
| `Reports.SafeIffGentle` | python/day02.py:17-46 | a report is safe exactly when it has two levels or more and climbs or falls by 1 to 3 at every step |
| `Reports.IsSafe` | python/day02.py:17-46 | `is_safe` decides safety, and rejects short reports and equal first levels |
| `Reports.BadStep` | python/day02.py:30-43 | one bad step makes a report unsafe |
| `Reports.RemoveAt` | python/day02.py:62 | deleting one level shifts the later ones down by one |
| `Reports.CanMakeSafe` | python/day02.py:57-65 | `can_make_safe` holds exactly when some single deletion gives a safe report |
| `Reports.SafeIsRepairable` | python/day02.py:68-76 | a safe report of three levels or more stays safe without its last level, so `part2` counts it too |
| `Reports.Part1` | python/day02.py:49-54 | `part1` counts the safe reports |
| `Reports.Part2` | python/day02.py:68-76 | `part2` counts the reports that are safe or can be made safe |
| `Reports.CountsOrdered` | python/day02.py:49-76 | `part1 <= part2 <=` the number of reports |
| `Reports.SampleSafety` | python/day02.py:95 | the first and last sample reports are the only safe ones |
| `Reports.SampleRepairs` | python/day02.py:96 | the fourth and fifth sample reports can be repaired, the second and third cannot |
| `Reports.SampleCounts` | python/day02.py:95-96 | the sample answers are 2 and 4 |
| `PageOrder.AddRule` | day05/day05.py:19-20 | a rule `key|value` makes `key` a listed predecessor of `value` and changes nothing else |
| `PageOrder.RuleTable` | day05/day05.py:13-20 | `a` is listed before `b` exactly when a rule line says so |
| `PageOrder.IsValidUpdate` | day05/day05.py:28-33 | an update is valid exactly when no page has a listed predecessor at or after it |
| `PageOrder.FixFrom` | day05/day05.py:48-58 | the swap loop only rearranges the update, and leaves a valid update as it is |
| `PageOrder.FixUpdate` | day05/day05.py:45-58 | the same for the whole of `fix_update` |
| `PageOrder.Part1` | day05/day05.py:36-42 | `part1` sums the middle pages of the valid updates |
| `PageOrder.Part2` | day05/day05.py:61-69 | `part2` sums the middle pages of the fixed invalid updates |
| `PageOrder.NoneStays` | day05/day05.py:61-69 | once one fix runs out of fuel, the total does too |
| `PageOrder.PartsCoverAll` | day05/day05.py:36-69 | fixing every update sums the two parts, since valid updates come back unchanged |
| `PageOrder.FixMayLeaveViolation` | day05/day05.py:45-58 | with rules that do not order every pair, a fixed update can still break a rule |
| `XMas.Read` | python/day04.py:36-37 | reading `lines[y][x]` succeeds exactly inside the ragged grid |
| `XMas.PatternHit` | python/day04.py:36-37 | a pattern matches exactly when 'M' and 'S' sit at its two offsets, and the `and` reads the 'S' only after an 'M' |
| `XMas.Hits` | python/day04.py:35-40 | each of the first `k` patterns adds at most one |
| `XMas.AtCell` | python/day04.py:34-40 | a cell adds nothing unless it is an interior 'A', and then at most one per pattern |
| `XMas.HitsDefined` | python/day04.py:35-37 | on a rectangular grid no read around an interior 'A' raises |
| `XMas.GridDefined` | python/day04.py:32-40 | on a rectangular grid `part2` raises no IndexError |
| `XMas.GridBound` | python/day04.py:32-40 | the count is at most the number of patterns times the interior 'A's |
| `XMas.GridWithoutAs` | python/day04.py:32-34 | a grid without an interior 'A' counts 0, ragged or not |
| `XMas.Part2Bounds` | python/day04.py:18-41 | `part2` is defined on a rectangular grid, at most 8 per interior 'A', and 0 without one |
| `XMas.Part2CountsMatches` | python/day04.py:18-41 | `Part2` counts, and `Part2Fixed` likewise with the intended patterns, exactly the triples of an interior 'A' and a pattern whose 'M' and 'S' sit at its offsets |
| `XMas.PatternsAsWritten` | python/day04.py:20-30 | the listed patterns are straight, but one repeats and none reads 'M' below the 'A' |
| `XMas.IntendedPatternsCover` | python/day04.py:20-30 | the intended patterns read each of the eight directions once |
| `XMas.CentreOnly` | python/day04.py:32-40 | a 3 by 3 grid whose only 'A' is its centre counts what the centre adds |
| `XMas.LeftwardCountedTwice` | python/day04.py:23-25 | "SAM" across the middle row counts 2 as written |
| `XMas.LeftwardCountedOnce` | python/day04.py:23-25 | and 1 with the intended patterns |
| `XMas.UpwardMissed` | python/day04.py:25 | "MAS" read upwards counts 0 as written |
| `XMas.UpwardCounted` | python/day04.py:25 | and 1 with the intended patterns |
| `Antennas.SubAddInverse` | python/day08.py:29-35 | `Position` subtraction and addition undo each other |
| `Antennas.EqualityByCoordinates` | python/day08.py:26-27 | positions are equal exactly when both coordinates are |
| `Antennas.DoubleDistance` | python/day08.py:41-49 | the two points are the mirror images of each antenna in the other, each as far beyond one as the other is |
| `Antennas.CellsFrom` | python/day08.py:56-57 | the two `enumerate` loops visit every cell from `(y, x)` on, once each, with its character |
| `Antennas.Collect` | python/day08.py:56-61 | the tower table holds a position under a frequency exactly when that cell holds the frequency and is not '.' |
| `Antennas.CollectDistinct` | python/day08.py:56-61 | each frequency's antenna list has no repeats |
| `Antennas.TowersOf` | python/day08.py:53-61 | the table holds exactly the antennas of each frequency, each once |
| `Antennas.Pairs` | python/day08.py:66-67 | the pairs come from the list, are never a position with itself, and cover every two distinct antennas in one order |
| `Antennas.KeepPoints` | python/day08.py:71-74 | a point is kept exactly when it is on the map and not an antenna of the same frequency |
| `Antennas.FreqAntinodes` | python/day08.py:65-74 | every collected point is on the map |
| `Antennas.FreqAntinodesMembers` | python/day08.py:66-74 | a point is collected for a frequency exactly when it is kept and some pair mirrors onto it |
| `Antennas.AllAntinodesMembers` | python/day08.py:65-74 | a point is collected exactly when some frequency collects it |
| `Antennas.FrequencyPairs` | python/day08.py:66-70 | some pair mirrors onto a point exactly when two antennas of the frequency do |
| `Antennas.Part1` | python/day08.py:52-75 | `part1` is at most the number of cells |
| `Antennas.Part1Antinodes` | python/day08.py:52-75 | the collected points are exactly the antinodes: on the map, mirror images of two same-frequency antennas, not themselves one of that frequency |
| `Antennas.Part1Counts` | python/day08.py:52-75 | `part1` counts the antinodes among the map's cells |
| `Antennas.Ray` | python/day08.py:81-86 | each `while` loop collects only points on the map |
| `Antennas.RayAhead` | python/day08.py:81-86 | every point of a ray is a whole number of steps ahead of its start |
| `Antennas.AheadInRay` | python/day08.py:81-86 | every map point a whole number of steps ahead is on the ray, since the map is convex |
| `Antennas.RayMembers` | python/day08.py:81-86 | a ray holds exactly the map points some steps ahead of its start |
| `Antennas.AlongAllNodes` | python/day08.py:78-87 | the points collected for a pair are all on the map |
| `Antennas.AlongAllNodesMembers` | python/day08.py:78-87 | they are exactly the map points a whole number of steps beyond either antenna on their line |
| `Antennas.AlongAllNodesHoldsBoth` | python/day08.py:78-87 | both antennas are among them |
| `Antennas.FreqResonantMembers` | python/day08.py:104-110 | a point is collected for a frequency exactly when it is on the map and some pair reaches it |
| `Antennas.FrequencyLines` | python/day08.py:104-107 | some pair reaches a point exactly when two antennas of the frequency do |
| `Antennas.Part2` | python/day08.py:90-111 | `part2` is at most the number of cells |
| `Antennas.Part2Resonant` | python/day08.py:90-111 | on a rectangular map, the collected points are exactly the points on the line of two same-frequency antennas, whole steps beyond one |
| `Antennas.Part2Counts` | python/day08.py:90-111 | on a rectangular map, `part2` counts those points among the map's cells |
| `Antennas.AntennasResonate` | python/day08.py:90-111 | on a rectangular map, every antenna that shares its frequency with another is itself counted |
| `DiskMap.Repeat` | python/day09.py:19 | `[b] * d` has `d` entries, all `b` |
| `DiskMap.RepeatCount` | python/day09.py:19 | it holds `d` copies of `b` and nothing else |
| `DiskMap.UncompressMemory` | python/day09.py:13-25 | the loop succeeds exactly on a digit string and builds the expanded disk |
| `DiskMap.AppendRun` | python/day09.py:18-24 | one pass appends the run of the current digit and flips between file and free |
| `DiskMap.ExpandLength` | python/day09.py:13-25 | the disk has one block per unit of the digit sum |
| `DiskMap.ExpandFileBlocks` | python/day09.py:13-25 | file `k` has as many blocks as digit `2k` says |
| `DiskMap.JoinConcat` | python/day09.py:128-129 | `"".join` of two parts is the join of each |
| `DiskMap.FirstFree` | python/day09.py:30 | `index(".")` is the first free block |
| `DiskMap.Checksum` | python/day09.py:28-33 | the checksum fails exactly when no block is free |
| `DiskMap.WeightFreeTail` | python/day09.py:31-32 | free blocks at the end weigh nothing |
| `DiskMap.ChecksumOfCompacted` | python/day09.py:28-33 | on a compacted disk the checksum weighs every file block |
| `DiskMap.Part1` | python/day09.py:36-49 | the swaps leave exactly `Compact(memory)`, a compacted rearrangement of the disk; the result is its weight, and it fails exactly when no block is free or when, with two blocks or more, no block is a file |
| `DiskMap.Cursors` | python/day09.py:39-48 | from cursors with only files before `start` and only free blocks after `end`, the loop leaves `Compact(m)`, and raises IndexError exactly when the cursors have not met and no block is free or no block is a file |
| `DiskMap.Exchange` | python/day09.py:40-48 | one pass moves `start` to the leftmost free block and `end` to the rightmost file block and exchanges them when `start` is left of `end`, which keeps the compaction and the blocks; a cursor that runs off the list means no free block or no file block |
| `DiskMap.SkipFiles` | python/day09.py:40-41 | `start` stops at the first free block from where it was, passing only file blocks, or at the end of the list |
| `DiskMap.SkipFree` | python/day09.py:42-43 | `end` stops at the last file block at or before where it was, passing only free blocks, or at -1 |
| `DiskMap.CompactedAt` | python/day09.py:36-49 | a disk with files up to some position and free blocks after it is compacted and is its own compaction |
| `DiskMap.CompactOfCompacted` | python/day09.py:36-49 | every compacted disk is its own compaction, so `part1` leaves it unchanged |
| `DiskMap.SwapCount` | python/day09.py:45-48 | with files before the free block `s` and free blocks after the file block `e`, the disk has more than `s` and at most `e` file blocks, and the same number after the exchange |
| `DiskMap.SwapKeepsCompact` | python/day09.py:45-48 | exchanging the leftmost free block with the rightmost file block to its right does not change the compaction |
| `DiskMap.FilesBackwardsConcat` | python/day09.py:42-43 | the file blocks of two pieces, gathered from the back, are those of the second piece and then those of the first |
| `DiskMap.FillAfterFiles` | python/day09.py:40-41 | filling free blocks passes leading file blocks by untouched |
| `DiskMap.CompactSample` | python/day09.py:36-49 | file 0, two free blocks and two blocks of file 1 compact to file 0, file 1, file 1 and two free blocks, whose checksum is 3 |
| `DiskMap.GetMemorySectors` | python/day09.py:71-89 | the sectors are built exactly on a digit string |
| `DiskMap.SectorsFixed` | python/day09.py:71-89 | the corrected sectors too |
| `DiskMap.ScanContiguous` | python/day09.py:76-88 | `ScanSectors`, the loop of `get_memory_sectors`, as written or corrected: sectors lie end to end from 0 and cover the digit sum |
| `DiskMap.StepContiguous` | python/day09.py:79-88 | each pass appends a sector where the last one ends |
| `DiskMap.ScanAlternates` | python/day09.py:79-88 | as written, sectors alternate file and blank, and the `k`-th file sector is file `k` |
| `DiskMap.ScanFixedExpands` | python/day09.py:76-88 | the corrected sectors describe exactly the expanded disk |
| `DiskMap.StepExpands` | python/day09.py:79-88 | a corrected pass appends the run of its digit |
| `DiskMap.SectorsFixedExpand` | python/day09.py:71-89 | the corrected sectors flatten to the expanded disk |
| `DiskMap.NoZerosAgree` | python/day09.py:77-78 | without zero digits, the sectors as written equal the corrected ones and describe the disk |
| `DiskMap.ZeroDigitSkipped` | python/day09.py:77-78 | on "101", as written, file 1 becomes a blank sector and the sectors disagree with the disk |
| `DiskMap.ZeroDigitTakesTurn` | python/day09.py:77-78 | with the zero taking its turn, "101" gives files 0 and 1 |
| `DiskMap.ReprIsBlockText` | python/day09.py:64-68 | `Repr`, the corrected `__repr__`, is the text of the sector's blocks |
| `DiskMap.ReprAsWrittenAgrees` | python/day09.py:64-68 | `ReprAsWritten`, the `__repr__` as written, draws a sector as the corrected one does exactly unless it is a sector of file 0 with blocks |
| `DiskMap.RenderIsJoin` | python/day09.py:134-136 | printing the sectors prints the join of their blocks |
| `DiskMap.SectorsPrintDisk` | python/day09.py:133-136 | the corrected sectors print as the joined expanded disk |
| `DiskMap.FileZeroDrawnBlank` | python/day09.py:65 | file 0 is drawn as dots as written, and as "00" when testing `is not None` |
| `Trails.ParseMap` | python/day10.py:13-18 | `parse_map` succeeds exactly on lines of digits, giving each digit's value in place |
| `Trails.InsideOnMap` | python/day10.py:31-41 | on a rectangular map each bounds test holds exactly when the neighbour is on the map |
| `Trails.Climbs` | python/day10.py:31-41 | a passing check names a neighbour on the map |
| `Trails.Trail` | python/day10.py:21-41 | the list `traverse` builds holds only height-9 cells of the map |
| `Trails.Climb` | python/day10.py:30-41 | the first `k` checks add only height-9 cells |
| `Trails.ScoreAtMostRating` | python/day10.py:44-63 | a cell's score never exceeds its rating |
| `Trails.SummitStart` | python/day10.py:24-29 | from a height-9 cell, the search records that cell alone |
| `Trails.PrefixedCard` | python/day10.py:21-41 | prefixing a start cell loses no trail |
| `Trails.HikesAreHikes` | python/day10.py:21-41 | the trails the search follows are exactly the hiking trails from the start |
| `Trails.RatingCountsHikes` | python/day10.py:21-41 | the list has one entry per hiking trail |
| `Trails.TrailEnds` | python/day10.py:21-41 | the search records exactly the ends of the hiking trails |
| `Trails.ScoreCountsSummits` | python/day10.py:44-47 | `Score`, `get_score`, is the number of height-9 cells a hiking trail reaches |
| `Trails.RatingCountsTrails` | python/day10.py:60-63 | `Rating`, `get_rating`, is the number of hiking trails |
| `Trails.Part1CountsSummits` | python/day10.py:50-57 | `Part1` counts exactly the pairs of a height-0 cell and a height-9 cell a hiking trail from it reaches |
| `Trails.Part2CountsHikes` | python/day10.py:66-73 | `Part2` counts exactly the hiking trails that start at height 0 |
| `Trails.PartsOrdered` | python/day10.py:50-73 | the total score never exceeds the total rating |
| `Stones.HalvesValue` | python/day11.py:21-24 | the two halves are the high and low digits: front times `10^(d/2)` plus back is the stone |
| `Stones.Change` | python/day11.py:18-27 | a stone becomes one stone, or two exactly when its digit count is even |
| `Stones.ChangeRules` | python/day11.py:18-27 | the rules in the order tried: 0 becomes 1, an even digit count splits into the high and low halves of the digits, anything else is multiplied by 2024 |
| `Stones.ChangeSamples` | python/day11.py:18-27 | 0 becomes 1, 1 becomes 2024, 2024 splits into 20 and 24, 1000 into 10 and 0 |
| `Stones.BlinkLength` | python/day11.py:15-29 | a blink adds one stone per split and removes none |
| `Stones.BlinkConcat` | python/day11.py:15-29 | stones do not affect each other: blinking a line blinks its parts |
| `Stones.BlinkLoop` | python/day11.py:15-29 | the in-place loop changes each original stone once, in order, and skips the halves it inserts |
| `Stones.ChangeAt` | python/day11.py:17-28 | the loop body replaces the stone at `idx` by what it becomes and moves past it |
| `Stones.Part1` | python/day11.py:32-41 | `part1` is the stone count after the requested number of blinks, none for a negative count |
| `Stones.StonesNeverDecrease` | python/day11.py:32-35 | more blinks never leave fewer stones |
| `Stones.FirstSplit` | python/day11.py:17-25 | the index of the first stone with an even digit count, or the length when there is none |
| `Stones.BeforeFirstSplit` | python/day11.py:17-25 | no stone before the first split has an even digit count |
| `Stones.BlinkShared` | python/day11.py:15-29 | `blink` as written returns the blinked line, and leaves the caller's list with the stones before the first split changed in place and the rest as they were; the two are one list exactly when nothing splits |
| `Stones.BlinksShared` | python/day11.py:32-35 | the loop of `part1` counts the stones after its blinks, and leaves the caller's list as `CallerAfter` says: written by every blink up to and including the first that splits |
| `Stones.Part1Shared` | python/day11.py:32-35 | `part1` as written returns the same count as `Part1` and leaves the caller's list as `CallerAfter` says |
| `Stones.TestDriver` | python/day11.py:59-64 | the test driver as written: 25 blinks of the line read, then 6 blinks of the list the first call has written into |
| `Stones.TestDriverFixed` | python/day11.py:59-64 | the test driver with each call given the line read: 25 and 6 blinks of it |
| `Stones.InputDriver` | python/day11.py:50-56 | the input driver as written: `part2`'s 75 blinks start from the list `part1` has written into |
| `Stones.InputDriverFixed` | python/day11.py:50-56 | the input driver with both calls given the line read |
| `Stones.EvolveFront` | python/day11.py:32-35 | `count + 1` blinks are one blink followed by `count` more |
| `Stones.EvolveConcat` | python/day11.py:32-35 | the stones of a line evolve independently: blinking a joined line blinks each part |
| `Stones.CountsFromOne` | python/day11.py:32-35 | `[1]` has 14 stones after six blinks and 16 after seven |
| `Stones.SecondCallSeesBlinkedLine` | python/day11.py:52-63 | on `[1]` the first call leaves `[2024]` in the caller's list, so the second call counts 16 stones after six blinks where the line read gives 14 |

## Left out

- Input reading and printing:
  - the `read_data` functions;
  - the C++ `print`;
  - `print_arraylist_t` and `deinit_arraylist_t`;
  - the Python `if __name__` drivers.

  The models start from parsed lists and grids, except that the C++ program is modelled from the text after reading (`Load`, `Program`).
- The C++ `read_data` builds a string from a buffer that has no terminating zero. The model assumes the file's text is read exactly.
- CppGuard.InBounds: `uint16_t` positions are modelled as unbounded integers. A step above row 0 wraps to 65535 in the source and fails the upper-bound test. Here it becomes -1 and fails the lower-bound test, so maps of 65536 rows or columns or more are not modelled.
- CLists.Totals: `int64_t` sums and the `int32_t` counts of `dict` are unbounded here. Values outside the table's range `[0, 100000)` are excluded by the precondition, because the source indexes `dict` out of bounds on them.
- CLists.BubbleSort: the `int i`/`size_t len` comparison is modelled for lengths that fit in an `int`.
- Python `int()` accepts digits other than ASCII ones, which the models of `parse_map`, `uncompress_memory` and `int(char)` do not.
- CppGuard.Walk: bounded by `fuel`. A boxed-in or looping guard runs forever in the source; here it runs out of fuel and the result is `None`.
- CppGuard.LoopSearch: bounded by `fuel`.
- PyGuard.Wander: bounded by `fuel`.
- PyGuard.PatrolFrom: bounded by `fuel`.
- PageOrder.FixFrom: bounded by `fuel`, because `fix_update` never ends on cyclic rules.

  Each proof about these functions holds for any fuel that does not run out.
- The `assert`s in `part1` and `get_visited_cells` of `python/day06.py` (lines 57-59 and 83-85) pin the start to the author's inputs. The model leaves them out, so it covers any map.
- The iteration order of the C++ `unordered_map` and of the Python `defaultdict` is modelled as a fixed order (row-major, or insertion order). The counts are proved not to depend on it.
- The `deepcopy` of the Python grid is modelled by value semantics.
- Maps whose rows differ in length are excluded from the walks. The sources bound `x` by the length of row 0 only, and so run normally on a map whose rows are all at least as long as row 0; on a shorter row they fail or read out of bounds only when the walk reaches its end. The members below require rectangular maps, so these runs are not modelled:
- PyGuard.Wander: requires a rectangular grid; `python/day06.py` line 90 tests `x` against row 0 only.
- PyGuard.GetVisitedCells: requires a rectangular grid, for the same loop.
- PyGuard.Part1: requires a rectangular grid; its loop (line 63) tests `x` against row 0 only.
- PyGuard.LoopFrom: requires a rectangular grid; `has_loop` (line 113) tests `x` against row 0 only.
- PyGuard.HasLoop: requires a rectangular grid, as `LoopFrom` does.
- PyGuard.Trials: requires a rectangular grid; each trial runs `has_loop` on the walled copy.
- PyGuard.Part2: requires a rectangular grid, as `Trials` does.
- PyGuard.Part2Fixed: corrects only the `and` guard of line 140. Its candidates are still the cells of the as-written walker (lines 92-96), which can enter a '#' after a turn (lines 65-69).
- CppGuard.Program: stops with `Ragged` on a loaded map whose rows differ in length. The walks of `c++/day06.c++` (lines 234-235) test `x` against row 0 only and print answers when every row is at least as long as row 0.
- Antennas.Part1: requires every row to be at least as long as row 0 (`Wide`); `python/day08.py` lines 71-73 test `x` against row 0 only, and `part2` (line 109) does the same.
- Antennas.Part2Resonant: proved only on a rectangular map. On a ragged map `part2` misses the points reached only from antennas past row 0's width (in `["...", ".....aa"]` the point (1, 2) is resonant but not collected).
- Antennas.Part2Counts: proved only on a rectangular map, for the same reason as `Antennas.Part2Resonant`; `Antennas.AntennasResonate` likewise.
- Trails.Trail: requires a rectangular map. `traverse` tests `x` against the length of its own row (`python/day10.py` line 34) but reads the rows above and below at the same `x` (lines 31 and 37). It runs normally on ragged maps whose climbs never pass the end of a shorter row.
- Trails.Climb: requires a rectangular map, as `Trail` does.
- Trails.Score: requires a rectangular map, as `Trail` does.
- Trails.Rating: requires a rectangular map, as `Trail` does.
- Trails.Part1: requires a rectangular map, as `Trail` does.
- Trails.Part2: requires a rectangular map, as `Trail` does.
- The `try`/`except` of `python/day06.py` `part2` is modelled as skipping the key. Only the two errors that occur are covered: unpacking 'default_factory', and an index out of range.
- `part1` of `python/day04.py` is an empty stub (`pass`). It is not modelled.
- XMas.Part2: the `print` of each hit (`python/day04.py` lines 38-39) is an output effect and is not modelled; the count is.
- `part2` of `python/day09.py` (lines 92-105) is unfinished. It returns nothing and loops forever once it finds a file, so it is not modelled.
- Stones.Part1: models `part1` on a copy of its argument. The count is the same as written (`Part1Shared`), but the writes into the caller's list are modelled only by `BlinkShared`, `Part1Shared` and the drivers (see Findings).
- Stones.Change: stones are non-negative integers. Python's `int()` also reads a negative stone, whose `str` can have an even length; the split then calls `int("-")` and raises, which is not modelled.
- The answers the drivers assert for the authors' puzzle inputs cannot be checked without the inputs. Several sample answers are not proved for cost:
  - day 6: 41 and 6;
  - day 8: 14 and 34;
  - day 9: 1928 and the expanded text of the sample;
  - day 4: 9;
  - day 10: 36 and 81;
  - day 11: 55312.

  Smaller worked examples stand in for them.

## Findings

| source | as written | input that shows it | evidently intended | confidence | as-written member | corrected member |
|---|---|---|---|---|---|---|
| python/day06.py:140 | a key is skipped only when both coordinates are off the grid | `["v.", "#."]`: the walker stores `(0, -1)`, whose row is on the grid; `x = -1` reads the last column, and `(0, 1)` is walled though the guard never stood there | skip a key when either coordinate is off the grid | not executed | `PyGuard.AndGuardTestsOffPathCell` | `PyGuard.Part2FixedCount` |
| python/day06.py:62-72 | the start cell is never stored, so it counts only when the walk re-enters it | `["^"]`: the guard leaves at once, and `part1` answers 0 | count the start cell | not executed | `PyGuard.Part1SkipsStart` | `PyGuard.Part1FixedRoute` |
| python/day06.py:65-69 | after turning at '#', the walker steps without looking again; `part2` inherits this, because its candidates come from `get_visited_cells` (lines 92-96), which walks the same way | `["#.", "^#"]`: it turns right and steps onto the '#' at `(1, 1)` | turn until the cell ahead is open, then step | not executed | `PyGuard.WalkerEntersWall` | `PyGuard.Part1FixedRoute` |
| day1/day1.c:49-59 | growing doubles the capacity, which stays 0 for a list created with capacity 0 | `init_arraylist_t(&al, 0)` then `append_arraylist_t(&al, 1)` writes past a zero-sized buffer | grow a zero capacity to at least 1 | not executed | `CLists.ZeroCapacityOverflows` | `CLists.Append` |
| python/day04.py:25 | the pattern commented bottom-to-top repeats the right-to-left one | `["...", "SAM", "..."]` counts 2 | each direction once | not executed | `XMas.LeftwardCountedTwice` | `XMas.LeftwardCountedOnce` |
| python/day04.py:25 | no pattern reads 'M' below the 'A' and 'S' above it | `[".S.", ".A.", ".M."]` counts 0 | the upward pattern `(0, 1, 0, -1)` | not executed | `XMas.UpwardMissed` | `XMas.UpwardCounted` |
| python/day09.py:77-78 | a zero digit is skipped by `continue` without switching between file and blank | "101": the second `1` becomes a blank sector, and file 1 is lost | a zero digit still takes its turn and uses its file number | not executed | `DiskMap.ZeroDigitSkipped` | `DiskMap.SectorsFixedExpand` |
| python/day11.py:15-29 | `blink` writes `line[idx] = 1` and `line[idx] *= 2024` into the caller's list until the first split rebinds `line`, and each driver then passes the same `line` to its second call (lines 52-55 and 61-63) | the line `[1]`: the first call leaves `[2024]` behind, so the second call's six blinks give 16 stones where the line read gives 14 | give each call the line that was read, for instance by copying it in `blink` | not executed | `Stones.SecondCallSeesBlinkedLine` | `Stones.TestDriverFixed` |
| python/day09.py:65 | `if self.id` is false for file number 0 | the sector of file 0 with two blocks is drawn ".." | test `self.id is not None` and draw "00" | not executed | `DiskMap.FileZeroDrawnBlank` | `DiskMap.SectorsPrintDisk` |

=== FILE: antennas.dfy ===
/** Antinodes of python/day08.py. Every non-'.' cell of the map is an
    antenna whose character is its frequency. Part 1 marks, for every two
    antennas of one frequency, the two points that continue the line
    through them by the same distance again; part 2 marks every map point
    on that line at a whole multiple of the distance. */
module Antennas {
  import opened Basics
  import opened Plane

  type Grid = seq<string>

  /** Every row as long as the first. */
  predicate Rectangular(g: Grid)
  {
    forall i :: 0 <= i < |g| ==> |g[i]| == |g[0]|
  }

  /** Every row at least as long as the first: the rows `part1` reads
      through the bounds `len(map[0])` never end early. */
  predicate Wide(g: Grid)
  {
    forall i :: 0 <= i < |g| ==> |g[i]| >= |g[0]|
  }

  /** The width the source reads from `len(map[0])`. */
  function Width(g: Grid): nat
  {
    if |g| == 0 then 0 else |g[0]|
  }

  /** The bounds test `0 <= x < len(map[0]) and 0 <= y < len(map)`. */
  predicate OnMap(g: Grid, p: Pos)
  {
    InBox(|g|, Width(g), p)
  }

  /** `p` indexes a character of its own row. */
  predicate OnGrid(g: Grid, p: Pos)
  {
    0 <= p.y < |g| && 0 <= p.x < |g[p.y]|
  }

  /** A cell holding an antenna. */
  predicate Antenna(g: Grid, p: Pos)
  {
    OnGrid(g, p) && g[p.y][p.x] != '.'
  }

  // ---------------------------------------------------------------------
  // Position arithmetic

  /** `Position.__sub__` undone by `Position.__add__`, and the other way. */
  lemma {:induction false} SubAddInverse(a: Pos, b: Pos)
    ensures Plus(Minus(a, b), b) == a && Minus(Plus(a, b), b) == a
  {
  }

  /** `Position.__eq__`: both coordinates agree. */
  lemma {:induction false} EqualityByCoordinates(a: Pos, b: Pos)
    ensures a == b <==> a.y == b.y && a.x == b.x
  {
  }

  /** The point beyond `b` on the line from `a`, as far from `b` as `a` is. */
  function Mirror(a: Pos, b: Pos): Pos
  {
    Pos(2 * b.y - a.y, 2 * b.x - a.x)
  }

  /** `get_antinodes_double_distance`: with `diff = first - second`, the
      first test always holds and gives `(second - diff, first + diff)`;
      the second holds only when the two positions coincide, and then
      gives the same pair. Each result lies on the line through the two
      antennas, twice as far from one as from the other. */
  function DoubleDistance(first: Pos, second: Pos): (r: (Pos, Pos))
    ensures r.0 == Mirror(first, second) && r.1 == Mirror(second, first)
    ensures Minus(r.0, first) == Plus(Minus(second, first), Minus(second, first))
    ensures Minus(r.1, second) == Plus(Minus(first, second), Minus(first, second))
  {
    var diff := Minus(first, second);
    assert Minus(first, diff) == second;
    var (left, right) := (Minus(second, diff), Plus(first, diff));
    if Minus(second, diff) == first then (Minus(first, diff), Plus(second, diff)) else (left, right)
  }

  // ---------------------------------------------------------------------
  // The tower table

  /** `p` comes at or after `(y, x)` in row-major order. */
  predicate After(p: Pos, y: int, x: int)
  {
    p.y > y || (p.y == y && p.x >= x)
  }

  /** The cells of the map from `(y, x)` on, in the order the source's
      two `enumerate` loops visit them, each with its character. */
  function CellsFrom(g: Grid, y: nat, x: nat): (r: seq<(Pos, char)>)
    ensures forall k :: 0 <= k < |r| ==>
      After(r[k].0, y, x) && OnGrid(g, r[k].0) && r[k].1 == g[r[k].0.y][r[k].0.x]
    ensures forall p :: After(p, y, x) && OnGrid(g, p) ==> (p, g[p.y][p.x]) in r
    ensures forall i, j :: 0 <= i < j < |r| ==> r[i].0 != r[j].0
    decreases |g| - y, if y < |g| then |g[y]| - x else 0
  {
    if y >= |g| then []
    else if x >= |g[y]| then CellsFrom(g, y + 1, 0)
    else
      var rest := CellsFrom(g, y, x + 1);
      var r := [(Pos(y, x), g[y][x])] + rest;
      assert forall k :: 1 <= k < |r| ==> r[k] == rest[k - 1];
      r
  }

  /** `towers`: the frequencies in order of first appearance, and for each
      the positions of its antennas in visiting order. */
  datatype Towers = Towers(order: seq<char>, groups: map<char, seq<Pos>>)

  /** The tower table after the cells `cells`, appended one by one. */
  function Collect(cells: seq<(Pos, char)>): (t: Towers)
    ensures forall c :: c in t.groups <==> c in t.order
    ensures forall c, p :: c in t.groups && p in t.groups[c] <==> (p, c) in cells && c != '.'
  {
    if |cells| == 0 then Towers([], map[])
    else
      var front := cells[..|cells| - 1];
      var t := Collect(front);
      var (p, c) := cells[|cells| - 1];
      assert forall e :: e in cells <==> e in front || e == (p, c);
      if c == '.' then t
      else if c in t.groups then Towers(t.order, t.groups[c := t.groups[c] + [p]])
      else Towers(t.order + [c], t.groups[c := [p]])
  }

  /** Cells at distinct positions give each frequency distinct antennas. */
  lemma {:induction false} CollectDistinct(cells: seq<(Pos, char)>)
    requires forall i, j :: 0 <= i < j < |cells| ==> cells[i].0 != cells[j].0
    ensures forall c :: c in Collect(cells).groups ==> NoDuplicates(Collect(cells).groups[c])
  {
    if |cells| > 0 {
      var front := cells[..|cells| - 1];
      var t := Collect(front);
      var (p, c) := cells[|cells| - 1];
      CollectDistinct(front);
      forall k | 0 <= k < |front|
        ensures front[k].0 != p
      {
        assert cells[k].0 != cells[|cells| - 1].0;
      }
    }
  }

  /** The tower table of the whole map. */
  function TowersOf(g: Grid): (t: Towers)
    ensures forall c :: c in t.groups <==> c in t.order
    ensures forall c, p :: c in t.groups && p in t.groups[c] <==> Antenna(g, p) && g[p.y][p.x] == c
    ensures forall c :: c in t.groups ==> NoDuplicates(t.groups[c])
  {
    var cells := CellsFrom(g, 0, 0);
    CollectDistinct(cells);
    assert forall p, c :: (p, c) in cells <==> OnGrid(g, p) && g[p.y][p.x] == c by {
      forall p, c | (p, c) in cells
        ensures OnGrid(g, p) && g[p.y][p.x] == c
      {
        var k :| 0 <= k < |cells| && cells[k] == (p, c);
      }
    }
    Collect(cells)
  }

  /** The pairs `(nodes[y], nodes[x])` with `y < x`, in the order of the
      source's two `range` loops. */
  function Pairs(nodes: seq<Pos>): (r: seq<(Pos, Pos)>)
    ensures forall k :: 0 <= k < |r| ==> r[k].0 in nodes && r[k].1 in nodes
    ensures NoDuplicates(nodes) ==> forall k :: 0 <= k < |r| ==> r[k].0 != r[k].1
    ensures forall a, b :: a in nodes && b in nodes && a != b ==> (a, b) in r || (b, a) in r
  {
    if |nodes| == 0 then []
    else
      var head := seq(|nodes| - 1, k requires 0 <= k < |nodes| - 1 => (nodes[0], nodes[k + 1]));
      var rest := Pairs(nodes[1..]);
      var r := head + rest;
      PairsCover(nodes, head, rest);
      head + rest
  }

  lemma {:induction false} PairsCover(nodes: seq<Pos>, head: seq<(Pos, Pos)>, rest: seq<(Pos, Pos)>)
    requires |nodes| > 0 && |head| == |nodes| - 1
    requires forall k :: 0 <= k < |head| ==> head[k] == (nodes[0], nodes[k + 1])
    requires forall a, b :: a in nodes[1..] && b in nodes[1..] && a != b ==> (a, b) in rest || (b, a) in rest
    ensures forall a, b :: a in nodes && b in nodes && a != b ==> (a, b) in head + rest || (b, a) in head + rest
  {
    var r := head + rest;
    forall a, b | a in nodes && b in nodes && a != b
      ensures (a, b) in r || (b, a) in r
    {
      if a == nodes[0] {
        var j :| 0 <= j < |nodes| && nodes[j] == b;
        assert r[j - 1] == (a, b);
      } else if b == nodes[0] {
        var j :| 0 <= j < |nodes| && nodes[j] == a;
        assert r[j - 1] == (b, a);
      } else {
        var i :| 0 <= i < |nodes| && nodes[i] == a;
        var j :| 0 <= j < |nodes| && nodes[j] == b;
        assert a == nodes[1..][i - 1] && b == nodes[1..][j - 1];
        assert (a, b) in rest || (b, a) in rest;
      }
    }
  }

  // ---------------------------------------------------------------------
  // Part 1

  /** `q` is on the map and does not hold an antenna of frequency `c`. */
  predicate Kept(g: Grid, c: char, q: Pos)
    requires Wide(g)
  {
    OnMap(g, q) && g[q.y][q.x] != c
  }

  /** The points of `pts` that `part1` adds for frequency `c`. */
  function KeepPoints(g: Grid, c: char, pts: (Pos, Pos)): (r: set<Pos>)
    requires Wide(g)
    ensures forall q :: q in r <==> (q == pts.0 || q == pts.1) && Kept(g, c, q)
  {
    (if Kept(g, c, pts.0) then {pts.0} else {}) + (if Kept(g, c, pts.1) then {pts.1} else {})
  }

  /** The part-1 antinodes of one frequency's pairs. */
  function FreqAntinodes(g: Grid, c: char, pairs: seq<(Pos, Pos)>): (r: set<Pos>)
    requires Wide(g)
    ensures forall q :: q in r ==> OnMap(g, q)
  {
    if |pairs| == 0 then {}
    else
      var pr := pairs[|pairs| - 1];
      FreqAntinodes(g, c, pairs[..|pairs| - 1]) + KeepPoints(g, c, DoubleDistance(pr.0, pr.1))
  }

  /** The part-1 antinodes of the frequencies `order`. */
  function AllAntinodes(g: Grid, t: Towers, order: seq<char>): (r: set<Pos>)
    requires Wide(g)
    ensures forall q :: q in r ==> OnMap(g, q)
  {
    if |order| == 0 then {}
    else
      var c := order[|order| - 1];
      AllAntinodes(g, t, order[..|order| - 1]) +
      (if c in t.groups then FreqAntinodes(g, c, Pairs(t.groups[c])) else {})
  }

  /** `part1`: the number of distinct antinodes, at most the number of
      cells. A map with a row shorter than the first can make the source
      index past the end of that row. */
  function Part1(g: Grid): (r: nat)
    requires Wide(g)
    ensures r <= |g| * Width(g)
  {
    var t := TowersOf(g);
    var s := AllAntinodes(g, t, t.order);
    InBoxBound(|g|, Width(g), s);
    |s|
  }

  /** `q` is one of the two points the pair `pr` mirrors to. */
  predicate Yields(pr: (Pos, Pos), q: Pos)
  {
    q == Mirror(pr.0, pr.1) || q == Mirror(pr.1, pr.0)
  }

  /** `a` and `b` are two antennas of frequency `c`, and `q` is the mirror
      image of `a` in `b`. */
  ghost predicate MirrorPair(g: Grid, c: char, a: Pos, b: Pos, q: Pos)
  {
    Antenna(g, a) && Antenna(g, b) && a != b && g[a.y][a.x] == c && g[b.y][b.x] == c &&
    q == Mirror(a, b)
  }

  /** `p` is a part-1 antinode: on the map, the mirror image of an antenna
      in another antenna of the same frequency, and not itself an antenna
      of that frequency. */
  ghost predicate IsAntinode(g: Grid, p: Pos)
    requires Wide(g)
  {
    exists c, a, b :: MirrorPair(g, c, a, b, p) && Kept(g, c, p)
  }

  lemma {:induction false} FreqAntinodesMembers(g: Grid, c: char, pairs: seq<(Pos, Pos)>, q: Pos)
    requires Wide(g)
    ensures q in FreqAntinodes(g, c, pairs) <==> Kept(g, c, q) && exists pr :: pr in pairs && Yields(pr, q)
    decreases |pairs|
  {
    if |pairs| > 0 {
      var front, last := pairs[..|pairs| - 1], pairs[|pairs| - 1];
      assert pairs == front + [last];
      FreqAntinodesMembers(g, c, front, q);
      if Yields(last, q) {
        assert last in pairs;
      }
      if exists pr :: pr in pairs && Yields(pr, q) {
        var pr :| pr in pairs && Yields(pr, q);
        if pr != last {
          assert pr in front;
        }
      }
    }
  }

  lemma {:induction false} AllAntinodesMembers(g: Grid, t: Towers, order: seq<char>, q: Pos)
    requires Wide(g)
    ensures q in AllAntinodes(g, t, order) <==>
      exists c :: c in order && c in t.groups && q in FreqAntinodes(g, c, Pairs(t.groups[c]))
    decreases |order|
  {
    if |order| > 0 {
      var front, last := order[..|order| - 1], order[|order| - 1];
      assert order == front + [last];
      AllAntinodesMembers(g, t, front, q);
      if exists c :: c in order && c in t.groups && q in FreqAntinodes(g, c, Pairs(t.groups[c])) {
        var c :| c in order && c in t.groups && q in FreqAntinodes(g, c, Pairs(t.groups[c]));
        if c != last {
          assert c in front;
        }
      }
    }
  }

  /** A frequency's pairs mirror onto `q` exactly when two of its antennas
      do. */
  lemma {:induction false} FrequencyPairs(g: Grid, c: char, q: Pos)
    requires c in TowersOf(g).groups
    ensures (exists pr :: pr in Pairs(TowersOf(g).groups[c]) && Yields(pr, q)) <==>
      exists a, b :: MirrorPair(g, c, a, b, q)
  {
    var pairs := Pairs(TowersOf(g).groups[c]);
    if exists pr :: pr in pairs && Yields(pr, q) {
      var pr :| pr in pairs && Yields(pr, q);
      PairMirrors(g, c, pr, q);
    }
    if exists a, b :: MirrorPair(g, c, a, b, q) {
      var a, b :| MirrorPair(g, c, a, b, q);
      MirrorOfPair(g, c, a, b, q);
    }
  }

  lemma {:induction false} PairMirrors(g: Grid, c: char, pr: (Pos, Pos), q: Pos)
    requires c in TowersOf(g).groups && pr in Pairs(TowersOf(g).groups[c]) && Yields(pr, q)
    ensures exists a, b :: MirrorPair(g, c, a, b, q)
  {
    var nodes := TowersOf(g).groups[c];
    var pairs := Pairs(nodes);
    var k :| 0 <= k < |pairs| && pairs[k] == pr;
    assert pr.0 in nodes && pr.1 in nodes && pr.0 != pr.1;
    if q == Mirror(pr.0, pr.1) {
      assert MirrorPair(g, c, pr.0, pr.1, q);
    } else {
      assert MirrorPair(g, c, pr.1, pr.0, q);
    }
  }

  lemma {:induction false} MirrorOfPair(g: Grid, c: char, a: Pos, b: Pos, q: Pos)
    requires c in TowersOf(g).groups && MirrorPair(g, c, a, b, q)
    ensures exists pr :: pr in Pairs(TowersOf(g).groups[c]) && Yields(pr, q)
  {
    var nodes := TowersOf(g).groups[c];
    var pairs := Pairs(nodes);
    assert a in nodes && b in nodes;
    if (a, b) in pairs {
      assert Yields((a, b), q);
    } else {
      assert Yields((b, a), q);
    }
  }

  /** The points `part1` collects are exactly the antinodes. */
  lemma {:induction false} Part1Antinodes(g: Grid, q: Pos)
    requires Wide(g)
    ensures q in AllAntinodes(g, TowersOf(g), TowersOf(g).order) <==> IsAntinode(g, q)
  {
    if q in AllAntinodes(g, TowersOf(g), TowersOf(g).order) {
      CollectedIsAntinode(g, q);
    }
    if IsAntinode(g, q) {
      AntinodeIsCollected(g, q);
    }
  }

  lemma {:induction false} CollectedIsAntinode(g: Grid, q: Pos)
    requires Wide(g) && q in AllAntinodes(g, TowersOf(g), TowersOf(g).order)
    ensures IsAntinode(g, q)
  {
    var t := TowersOf(g);
    AllAntinodesMembers(g, t, t.order, q);
    var c :| c in t.order && c in t.groups && q in FreqAntinodes(g, c, Pairs(t.groups[c]));
    FreqAntinodesMembers(g, c, Pairs(t.groups[c]), q);
    FrequencyPairs(g, c, q);
    var a, b :| MirrorPair(g, c, a, b, q);
    assert MirrorPair(g, c, a, b, q) && Kept(g, c, q);
  }

  lemma {:induction false} AntinodeIsCollected(g: Grid, q: Pos)
    requires Wide(g) && IsAntinode(g, q)
    ensures q in AllAntinodes(g, TowersOf(g), TowersOf(g).order)
  {
    var t := TowersOf(g);
    var c, a, b :| MirrorPair(g, c, a, b, q) && Kept(g, c, q);
    assert c in t.groups;
    FrequencyPairs(g, c, q);
    FreqAntinodesMembers(g, c, Pairs(t.groups[c]), q);
    AllAntinodesMembers(g, t, t.order, q);
  }

  /** `part1` counts the antinodes among the cells of the map. */
  lemma {:induction false} Part1Counts(g: Grid)
    requires Wide(g)
    ensures Part1(g) == |set q | q in Cells(|g|, Width(g)) && IsAntinode(g, q)|
  {
    var t := TowersOf(g);
    var s := AllAntinodes(g, t, t.order);
    forall q ensures q in s <==> q in Cells(|g|, Width(g)) && IsAntinode(g, q) {
      Part1Antinodes(g, q);
    }
    assert s == set q | q in Cells(|g|, Width(g)) && IsAntinode(g, q);
  }

  // ---------------------------------------------------------------------
  // Part 2

  /** `k` steps of `d`. */
  function Scale(k: int, d: Pos): Pos
  {
    Pos(k * d.y, k * d.x)
  }

  /** How many more steps of `d` from `p` can stay on an `h` by `w` map: a
      bound that shrinks with every step the ray takes. */
  function Reach(h: int, w: int, p: Pos, d: Pos): nat
  {
    var n := if d.y > 0 then h - p.y else if d.y < 0 then p.y + 1
             else if d.x > 0 then w - p.x else p.x + 1;
    if n < 0 then 0 else n
  }

  /** One `while` loop of `get_antinodes_along_all_nodes`: the points
      `p + d`, `p + 2d`, ... for as long as they stay on the map. */
  function Ray(g: Grid, p: Pos, d: Pos): (r: set<Pos>)
    requires d != Pos(0, 0)
    ensures forall q :: q in r ==> OnMap(g, q)
    decreases Reach(|g|, Width(g), p, d)
  {
    var q := Plus(p, d);
    if !OnMap(g, q) then {} else {q} + Ray(g, q, d)
  }

  /** `q` is a whole number `k >= 1` of steps `d` ahead of `p`. */
  ghost predicate Ahead(p: Pos, d: Pos, q: Pos)
  {
    exists k: int :: k >= 1 && q == Plus(p, Scale(k, d))
  }

  /** Every point of the ray is some steps ahead of its start. */
  lemma {:induction false} RayAhead(g: Grid, p: Pos, d: Pos, q: Pos)
    requires d != Pos(0, 0) && q in Ray(g, p, d)
    ensures Ahead(p, d, q)
    decreases Reach(|g|, Width(g), p, d)
  {
    var q1 := Plus(p, d);
    if q == q1 {
      assert q == Plus(p, Scale(1, d));
    } else {
      RayAhead(g, q1, d, q);
      var k: int :| k >= 1 && q == Plus(q1, Scale(k, d));
      assert q == Plus(p, Scale(k + 1, d));
    }
  }

  /** From a point on the map, every point on the map some steps ahead is
      on the ray: the map is convex, so the loop stopping at the first
      point off it misses nothing. */
  lemma {:induction false} AheadInRay(g: Grid, p: Pos, d: Pos, q: Pos)
    requires d != Pos(0, 0) && OnMap(g, p) && OnMap(g, q) && Ahead(p, d, q)
    ensures q in Ray(g, p, d)
    decreases Reach(|g|, Width(g), p, d)
  {
    var q1 := Plus(p, d);
    var k: int :| k >= 1 && q == Plus(p, Scale(k, d));
    Between(p.y, d.y, k);
    Between(p.x, d.x, k);
    assert OnMap(g, q1);
    if k > 1 {
      assert q == Plus(q1, Scale(k - 1, d));
      AheadInRay(g, q1, d, q);
    }
  }

  /** The ray holds exactly the map points some steps ahead of its start. */
  lemma {:induction false} RayMembers(g: Grid, p: Pos, d: Pos, q: Pos)
    requires d != Pos(0, 0) && OnMap(g, p)
    ensures q in Ray(g, p, d) <==> OnMap(g, q) && Ahead(p, d, q)
  {
    if q in Ray(g, p, d) {
      RayAhead(g, p, d, q);
    }
    if OnMap(g, q) && Ahead(p, d, q) {
      AheadInRay(g, p, d, q);
    }
  }

  /** The first step lies between the start and the `k`-th step. */
  lemma {:induction false} Between(a: int, s: int, k: int)
    requires k >= 1
    ensures s >= 0 ==> a <= a + s <= a + k * s
    ensures s < 0 ==> a + k * s <= a + s < a
  {
    assert k * s == s + (k - 1) * s;
  }

  /** `get_antinodes_along_all_nodes`: with `diff = first - second`, the
      ray from `first` stepping by `-diff` and the ray from `second`
      stepping by `diff`. The source loops forever on two equal positions,
      which the tower table never pairs. */
  function AlongAllNodes(g: Grid, first: Pos, second: Pos): (r: set<Pos>)
    requires first != second
    ensures forall q :: q in r ==> OnMap(g, q)
  {
    var diff := Minus(first, second);
    Ray(g, first, Minus(Pos(0, 0), diff)) + Ray(g, second, diff)
  }

  /** `q` is a whole number `k >= 1` of steps from one end of `pr` towards
      the other, a step being the distance between the two. */
  ghost predicate Resonates(pr: (Pos, Pos), q: Pos)
  {
    Ahead(pr.0, Minus(pr.1, pr.0), q) || Ahead(pr.1, Minus(pr.0, pr.1), q)
  }

  /** From two distinct antennas on the map, the loops collect exactly the
      map points on their line a whole number of steps beyond either. */
  lemma {:induction false} AlongAllNodesMembers(g: Grid, first: Pos, second: Pos, q: Pos)
    requires first != second && OnMap(g, first) && OnMap(g, second)
    ensures q in AlongAllNodes(g, first, second) <==> OnMap(g, q) && Resonates((first, second), q)
  {
    var diff := Minus(first, second);
    assert Minus(Pos(0, 0), diff) == Minus(second, first);
    RayMembers(g, first, Minus(second, first), q);
    RayMembers(g, second, diff, q);
  }

  /** For two distinct antennas on the map, the collected points include
      both antennas: one step from each reaches the other. */
  lemma {:induction false} AlongAllNodesHoldsBoth(g: Grid, first: Pos, second: Pos)
    requires first != second && OnMap(g, first) && OnMap(g, second)
    ensures first in AlongAllNodes(g, first, second) && second in AlongAllNodes(g, first, second)
  {
    AlongAllNodesMembers(g, first, second, first);
    AlongAllNodesMembers(g, first, second, second);
    assert first == Plus(second, Scale(1, Minus(first, second)));
    assert second == Plus(first, Scale(1, Minus(second, first)));
    assert Ahead(second, Minus(first, second), first);
    assert Ahead(first, Minus(second, first), second);
  }

  /** The part-2 points of one frequency's pairs. The source re-checks
      that each point is on the map; every point of a ray already is. */
  function FreqResonant(g: Grid, pairs: seq<(Pos, Pos)>): (r: set<Pos>)
    requires forall k :: 0 <= k < |pairs| ==> pairs[k].0 != pairs[k].1
    ensures forall q :: q in r ==> OnMap(g, q)
  {
    if |pairs| == 0 then {}
    else
      var pr := pairs[|pairs| - 1];
      FreqResonant(g, pairs[..|pairs| - 1]) + AlongAllNodes(g, pr.0, pr.1)
  }

  /** The part-2 points of the frequencies `order`. */
  function AllResonant(g: Grid, t: Towers, order: seq<char>): (r: set<Pos>)
    requires forall c :: c in t.groups ==> NoDuplicates(t.groups[c])
    ensures forall q :: q in r ==> OnMap(g, q)
  {
    if |order| == 0 then {}
    else
      var c := order[|order| - 1];
      AllResonant(g, t, order[..|order| - 1]) +
      (if c in t.groups then FreqResonant(g, Pairs(t.groups[c])) else {})
  }

  /** `part2`: the number of distinct points on the lines, at most the
      number of cells. */
  function Part2(g: Grid): (r: nat)
    ensures r <= |g| * Width(g)
  {
    var t := TowersOf(g);
    var s := AllResonant(g, t, t.order);
    InBoxBound(|g|, Width(g), s);
    |s|
  }

  /** `a` and `b` are two antennas of frequency `c`, and `q` is `k >= 1`
      steps from `a` towards `b`. */
  ghost predicate LinePair(g: Grid, c: char, a: Pos, b: Pos, k: int, q: Pos)
  {
    Antenna(g, a) && Antenna(g, b) && a != b && g[a.y][a.x] == c && g[b.y][b.x] == c &&
    k >= 1 && q == Plus(a, Scale(k, Minus(b, a)))
  }

  /** `p` is a part-2 antinode: on the map and on the line of two antennas
      of one frequency, a whole number of steps beyond one towards the
      other. */
  ghost predicate IsResonant(g: Grid, p: Pos)
  {
    OnMap(g, p) && exists c, a, b, k :: LinePair(g, c, a, b, k, p)
  }

  lemma {:induction false} FreqResonantMembers(g: Grid, pairs: seq<(Pos, Pos)>, q: Pos)
    requires forall k :: 0 <= k < |pairs| ==> pairs[k].0 != pairs[k].1
    requires forall k :: 0 <= k < |pairs| ==> OnMap(g, pairs[k].0) && OnMap(g, pairs[k].1)
    ensures q in FreqResonant(g, pairs) <==> OnMap(g, q) && exists pr :: pr in pairs && Resonates(pr, q)
    decreases |pairs|
  {
    if |pairs| > 0 {
      var front, last := pairs[..|pairs| - 1], pairs[|pairs| - 1];
      assert pairs == front + [last];
      FreqResonantMembers(g, front, q);
      AlongAllNodesMembers(g, last.0, last.1, q);
      if Resonates(last, q) {
        assert last in pairs;
      }
      if exists pr :: pr in pairs && Resonates(pr, q) {
        var pr :| pr in pairs && Resonates(pr, q);
        if pr != last {
          assert pr in front;
        }
      }
    }
  }

  lemma {:induction false} AllResonantMembers(g: Grid, t: Towers, order: seq<char>, q: Pos)
    requires forall c :: c in t.groups ==> NoDuplicates(t.groups[c])
    ensures q in AllResonant(g, t, order) <==>
      exists c :: c in order && c in t.groups && q in FreqResonant(g, Pairs(t.groups[c]))
    decreases |order|
  {
    if |order| > 0 {
      var front, last := order[..|order| - 1], order[|order| - 1];
      assert order == front + [last];
      AllResonantMembers(g, t, front, q);
      if exists c :: c in order && c in t.groups && q in FreqResonant(g, Pairs(t.groups[c])) {
        var c :| c in order && c in t.groups && q in FreqResonant(g, Pairs(t.groups[c]));
        if c != last {
          assert c in front;
        }
      }
    }
  }

  /** A frequency's pairs reach `q` along their lines exactly when two of
      its antennas do. */
  lemma {:induction false} FrequencyLines(g: Grid, c: char, q: Pos)
    requires c in TowersOf(g).groups
    ensures (exists pr :: pr in Pairs(TowersOf(g).groups[c]) && Resonates(pr, q)) <==>
      exists a, b, k :: LinePair(g, c, a, b, k, q)
  {
    var pairs := Pairs(TowersOf(g).groups[c]);
    if exists pr :: pr in pairs && Resonates(pr, q) {
      var pr :| pr in pairs && Resonates(pr, q);
      PairOnLine(g, c, pr, q);
    }
    if exists a, b, k :: LinePair(g, c, a, b, k, q) {
      var a, b, k :| LinePair(g, c, a, b, k, q);
      LineOfPair(g, c, a, b, k, q);
    }
  }

  lemma {:induction false} PairOnLine(g: Grid, c: char, pr: (Pos, Pos), q: Pos)
    requires c in TowersOf(g).groups && pr in Pairs(TowersOf(g).groups[c]) && Resonates(pr, q)
    ensures exists a, b, k :: LinePair(g, c, a, b, k, q)
  {
    var nodes := TowersOf(g).groups[c];
    var pairs := Pairs(nodes);
    var i :| 0 <= i < |pairs| && pairs[i] == pr;
    assert pr.0 in nodes && pr.1 in nodes && pr.0 != pr.1;
    if Ahead(pr.0, Minus(pr.1, pr.0), q) {
      var k: int :| k >= 1 && q == Plus(pr.0, Scale(k, Minus(pr.1, pr.0)));
      assert LinePair(g, c, pr.0, pr.1, k, q);
    } else {
      var k: int :| k >= 1 && q == Plus(pr.1, Scale(k, Minus(pr.0, pr.1)));
      assert LinePair(g, c, pr.1, pr.0, k, q);
    }
  }

  lemma {:induction false} LineOfPair(g: Grid, c: char, a: Pos, b: Pos, k: int, q: Pos)
    requires c in TowersOf(g).groups && LinePair(g, c, a, b, k, q)
    ensures exists pr :: pr in Pairs(TowersOf(g).groups[c]) && Resonates(pr, q)
  {
    var nodes := TowersOf(g).groups[c];
    var pairs := Pairs(nodes);
    assert a in nodes && b in nodes;
    assert Ahead(a, Minus(b, a), q);
    if (a, b) in pairs {
      assert Resonates((a, b), q);
    } else {
      assert Resonates((b, a), q);
    }
  }

  /** A point `part2` collects is a part-2 antinode. */
  lemma {:induction false} CollectedResonant(g: Grid, q: Pos)
    requires Rectangular(g) && q in AllResonant(g, TowersOf(g), TowersOf(g).order)
    ensures IsResonant(g, q)
  {
    var t := TowersOf(g);
    AllResonantMembers(g, t, t.order, q);
    var c :| c in t.order && c in t.groups && q in FreqResonant(g, Pairs(t.groups[c]));
    var a, b, k := FrequencyLine(g, c, q);
    assert LinePair(g, c, a, b, k, q);
  }

  /** A point collected for frequency `c` is on the line of two of its
      antennas. */
  lemma {:induction false} FrequencyLine(g: Grid, c: char, q: Pos) returns (a: Pos, b: Pos, k: int)
    requires Rectangular(g) && c in TowersOf(g).groups
    requires q in FreqResonant(g, Pairs(TowersOf(g).groups[c]))
    ensures OnMap(g, q) && LinePair(g, c, a, b, k, q)
  {
    PairsOnMap(g, c);
    FreqResonantMembers(g, Pairs(TowersOf(g).groups[c]), q);
    FrequencyLines(g, c, q);
    a, b, k :| LinePair(g, c, a, b, k, q);
  }

  /** Every part-2 antinode is collected by `part2`. */
  lemma {:induction false} ResonantCollected(g: Grid, q: Pos)
    requires Rectangular(g) && IsResonant(g, q)
    ensures q in AllResonant(g, TowersOf(g), TowersOf(g).order)
  {
    var t := TowersOf(g);
    var c, a, b, k :| LinePair(g, c, a, b, k, q);
    assert c in t.groups;
    PairsOnMap(g, c);
    FrequencyLines(g, c, q);
    FreqResonantMembers(g, Pairs(t.groups[c]), q);
    AllResonantMembers(g, t, t.order, q);
  }

  /** On a rectangular map the points `part2` collects are exactly the
      part-2 antinodes. */
  lemma {:induction false} Part2Resonant(g: Grid, q: Pos)
    requires Rectangular(g)
    ensures q in AllResonant(g, TowersOf(g), TowersOf(g).order) <==> IsResonant(g, q)
  {
    if q in AllResonant(g, TowersOf(g), TowersOf(g).order) {
      CollectedResonant(g, q);
    }
    if IsResonant(g, q) {
      ResonantCollected(g, q);
    }
  }

  /** On a rectangular map every antenna is on the map. */
  lemma {:induction false} PairsOnMap(g: Grid, c: char)
    requires Rectangular(g) && c in TowersOf(g).groups
    ensures var pairs := Pairs(TowersOf(g).groups[c]);
      forall k :: 0 <= k < |pairs| ==> OnMap(g, pairs[k].0) && OnMap(g, pairs[k].1)
  {
  }

  /** `part2` counts the part-2 antinodes among the cells of the map. */
  lemma {:induction false} Part2Counts(g: Grid)
    requires Rectangular(g)
    ensures Part2(g) == |set q | q in Cells(|g|, Width(g)) && IsResonant(g, q)|
  {
    var t := TowersOf(g);
    var s := AllResonant(g, t, t.order);
    forall q ensures q in s <==> q in Cells(|g|, Width(g)) && IsResonant(g, q) {
      Part2Resonant(g, q);
    }
    assert s == set q | q in Cells(|g|, Width(g)) && IsResonant(g, q);
  }

  /** Every antenna that shares its frequency with another is itself a
      part-2 antinode. */
  lemma {:induction false} AntennasResonate(g: Grid, a: Pos, b: Pos)
    requires Rectangular(g) && Antenna(g, a) && Antenna(g, b) && a != b
    requires g[a.y][a.x] == g[b.y][b.x]
    ensures IsResonant(g, a) && IsResonant(g, b)
  {
    assert LinePair(g, g[a.y][a.x], b, a, 1, a);
    assert LinePair(g, g[a.y][a.x], a, b, 1, b);
  }
}

=== FILE: basics.dfy ===
/** Failure-carrying results shared by every puzzle model. */
module Basics {

  /** A value that may be missing. In the guard walks `None` also stands
      for a walk that ran out of its step budget before it finished. */
  datatype Option<+T> = None | Some(value: T)

  /** The outcome of an operation that can raise an error in the source:
      `Err` carries the error message the source throws or exits with. */
  datatype Result<+T> = Ok(value: T) | Err(message: string)

  /** Absolute difference of two integers, `abs(b - a)`. */
  function Gap(a: int, b: int): (r: nat)
    ensures r == a - b || r == b - a
  {
    if a <= b then b - a else a - b
  }

  /** The sequence with the values at `i` and `j` exchanged. */
  function Swap<T>(s: seq<T>, i: nat, j: nat): (r: seq<T>)
    requires i < |s| && j < |s|
    ensures |r| == |s|
    ensures r[i] == s[j] && r[j] == s[i]
    ensures forall k :: 0 <= k < |s| && k != i && k != j ==> r[k] == s[k]
    ensures multiset(r) == multiset(s)
  {
    s[i := s[j]][j := s[i]]
  }

  /** Sum of a sequence of integers, folded from the back. */
  function Sum(s: seq<int>): int
  {
    if |s| == 0 then 0 else Sum(s[..|s| - 1]) + s[|s| - 1]
  }

  /** Number of positions of `s` holding `v`. */
  function Occurrences<T(==)>(s: seq<T>, v: T): nat
  {
    multiset(s)[v]
  }

  /** No value appears twice in `s`. */
  predicate NoDuplicates<T(==)>(s: seq<T>)
  {
    forall i, j :: 0 <= i < j < |s| ==> s[i] != s[j]
  }

  /** A duplicate-free sequence has as many elements as its set. */
  lemma {:induction false} NoDuplicatesCard<T>(s: seq<T>)
    requires NoDuplicates(s)
    ensures |set x | x in s| == |s|
  {
    if s != [] {
      var tail := s[1..];
      NoDuplicatesCard(tail);
      assert (set x | x in s) == (set x | x in tail) + {s[0]};
      assert s[0] !in tail;
    } else {
      assert (set x | x in s) == {};
    }
  }

  /** A sequence has at least as many elements as its set. */
  lemma {:induction false} SetCardAtMostLength<T>(s: seq<T>)
    ensures |set x | x in s| <= |s|
    decreases |s|
  {
    if s != [] {
      var tail := s[1..];
      SetCardAtMostLength(tail);
      assert (set x | x in s) == (set x | x in tail) + {s[0]};
    } else {
      assert (set x | x in s) == {};
    }
  }

  /** Two sets with no element in common: the union's size is the sum. */
  lemma {:induction false} DisjointCard<T>(a: set<T>, b: set<T>)
    requires forall e :: e in a ==> e !in b
    ensures |a + b| == |a| + |b|
  {
    assert a * b == {};
  }

  /** `s` is non-decreasing. */
  predicate Sorted(s: seq<int>)
  {
    forall i, j :: 0 <= i < j < |s| ==> s[i] <= s[j]
  }

  /** An index at which `v` occurs, for a value of the multiset of `s`. */
  ghost function IndexOf<T>(s: seq<T>, v: T): (i: nat)
    requires v in multiset(s)
    ensures i < |s| && s[i] == v
  {
    assert v in s;
    var i :| 0 <= i < |s| && s[i] == v; i
  }

  /** Two sorted arrangements of the same multiset are the same sequence:
      this is why a sorted copy is determined by its input alone. */
  lemma {:induction false} SortedPermutationUnique(a: seq<int>, b: seq<int>)
    requires Sorted(a) && Sorted(b)
    requires multiset(a) == multiset(b)
    ensures a == b
    decreases |a|
  {
    if |a| == 0 {
      assert |b| == |multiset(b)| == 0;
    } else {
      assert |b| == |multiset(b)| == |multiset(a)| == |a|;
      SortedHeads(a, b);
      TailMultiset(a);
      TailMultiset(b);
      SortedTail(a);
      SortedTail(b);
      SortedPermutationUnique(a[1..], b[1..]);
      SameHeadAndTail(a, b);
    }
  }

  lemma {:induction false} SortedTail(a: seq<int>)
    requires Sorted(a) && |a| > 0
    ensures Sorted(a[1..])
  {
  }

  lemma {:induction false} SameHeadAndTail<T>(a: seq<T>, b: seq<T>)
    requires |a| > 0 && |b| > 0 && a[0] == b[0] && a[1..] == b[1..]
    ensures a == b
  {
    assert a == [a[0]] + a[1..];
    assert b == [b[0]] + b[1..];
  }

  /** Both first elements are the minimum of the common multiset. */
  lemma {:induction false} SortedHeads(a: seq<int>, b: seq<int>)
    requires Sorted(a) && Sorted(b) && |a| > 0 && |b| > 0
    requires multiset(a) == multiset(b)
    ensures a[0] == b[0]
  {
    var k := IndexOf(b, a[0]);
    var m := IndexOf(a, b[0]);
    assert a[0] <= a[m] == b[0] <= b[k] == a[0];
  }

  /** Dropping the first element removes one copy of it. */
  lemma {:induction false} TailMultiset<T>(a: seq<T>)
    requires |a| > 0
    ensures multiset(a[1..]) == multiset(a) - multiset{a[0]}
  {
    assert a == [a[0]] + a[1..];
  }

}

=== FILE: clists.dfy ===
/** The C version of the location-list puzzle, day1/day1.c: an exchange
    sort, a growable array list, and the two totals `main` prints. Arrays
    are values here: a sort returns the sorted copy, and a list is its
    items plus the capacity of its buffer. */
module CLists {
  import opened Basics
  import Locations

  /** Every entry before `i` is at most every entry at or after its own
      position: the part of the array a sort has already settled. */
  ghost predicate SettledBelow(s: seq<int>, i: nat)
  {
    forall p, q :: 0 <= p < i && p <= q < |s| ==> s[p] <= s[q]
  }

  /** `bubble_sort`: for each `i`, every later entry smaller than the one
      at `i` is swapped into place, which leaves the minimum of the rest
      at `i`. */
  method BubbleSort(a: seq<int>) returns (r: seq<int>)
    ensures Sorted(r)
    ensures multiset(r) == multiset(a)
  {
    r := a;
    var i := 0;
    while i < |r|
      invariant i <= |r| == |a|
      invariant multiset(r) == multiset(a)
      invariant SettledBelow(r, i)
    {
      var j := i;
      while j < |r|
        invariant i <= j <= |r| == |a|
        invariant multiset(r) == multiset(a)
        invariant SettledBelow(r, i)
        invariant forall q :: i <= q < j ==> r[i] <= r[q]
      {
        if r[i] > r[j] {
          r := Swap(r, i, j);
        }
        j := j + 1;
      }
      i := i + 1;
    }
  }

  /** An `arraylist_t`: `len` is the length of `items`, `cap` the number of
      entries its buffer was allocated for. */
  datatype ArrayList = ArrayList(items: seq<int>, cap: nat)

  /** The items fit in the allocated buffer. */
  predicate Fits(al: ArrayList)
  {
    |al.items| <= al.cap
  }

  /** `init_arraylist_t`: an empty list with the requested capacity. */
  function Init(cap: nat): (al: ArrayList)
    ensures al.items == [] && al.cap == cap && Fits(al)
  {
    ArrayList([], cap)
  }

  /** The capacity `append_arraylist_t` allocates before it writes:
      doubled when the list is full. */
  function GrownCap(al: ArrayList): (c: nat)
    ensures c == al.cap || c == 2 * al.cap
    ensures c != al.cap ==> |al.items| >= al.cap
  {
    if |al.items| >= al.cap then al.cap * 2 else al.cap
  }

  /** The write `items[len] = value` lands inside the buffer. */
  predicate WriteFits(al: ArrayList)
  {
    |al.items| < GrownCap(al)
  }

  /** A list whose items fit and whose capacity is positive always has room
      for one more item after the doubling. */
  lemma {:induction false} AppendWriteFits(al: ArrayList)
    requires Fits(al) && al.cap > 0
    ensures WriteFits(al)
  {
  }

  /** A list created with capacity 0 stays at capacity 0 when doubled, so
      the first append writes past its buffer. */
  lemma {:induction false} ZeroCapacityOverflows()
    ensures !WriteFits(Init(0))
  {
  }

  /** `append_arraylist_t` as written: the buffer is doubled when full and
      the value stored after the old items. */
  function AppendAsWritten(al: ArrayList, v: int): (r: ArrayList)
    ensures |r.items| == |al.items| + 1 && r.items[|al.items|] == v
    ensures r.items[..|al.items|] == al.items
    ensures r.cap >= al.cap
    ensures (r.cap != al.cap) <==> (|al.items| >= al.cap && al.cap > 0)
  {
    ArrayList(al.items + [v], GrownCap(al))
  }

  /** `append_arraylist_t` with the growth it evidently intends: a full
      buffer of capacity 0 grows to 1 instead of staying empty. */
  function Append(al: ArrayList, v: int): (r: ArrayList)
    ensures |r.items| == |al.items| + 1 && r.items[|al.items|] == v
    ensures r.items[..|al.items|] == al.items
    ensures Fits(al) ==> Fits(r)
    ensures al.cap > 0 ==> r == AppendAsWritten(al, v)
  {
    var cap := if |al.items| < al.cap then al.cap else if al.cap == 0 then 1 else 2 * al.cap;
    ArrayList(al.items + [v], cap)
  }

  /** `get_arraylist_t`: the item at `index`, or `None` where the source
      exits with failure because `index` is not below `len`. */
  function Get(al: ArrayList, index: nat): (r: Option<int>)
    ensures r.Some? <==> index < |al.items|
    ensures r.Some? ==> r.value == al.items[index]
  {
    if index >= |al.items| then None else Some(al.items[index])
  }

  /** An appended value is read back at the old length, and every earlier
      item reads as before. */
  lemma {:induction false} GetAfterAppend(al: ArrayList, v: int, index: nat)
    ensures Get(Append(al, v), |al.items|) == Some(v)
    ensures index < |al.items| ==> Get(Append(al, v), index) == Get(al, index)
    ensures index > |al.items| ==> Get(Append(al, v), index).None?
  {
    var r := Append(al, v);
    if index < |al.items| {
      assert r.items[index] == r.items[..|al.items|][index];
    }
  }

  /** The array-list self-test: five appends from capacity 2 hold 1 to 5,
      with length 5 and capacity 8. */
  lemma {:induction false} ArrayListSample()
    ensures var al := Append(Append(Append(Append(Append(Init(2), 1), 2), 3), 4), 5);
      al.items == [1, 2, 3, 4, 5] && al.cap == 8 && Get(al, 4) == Some(5) && Get(al, 5).None?
  {
    var a2 := Append(Append(Init(2), 1), 2);
    assert a2 == ArrayList([1, 2], 2);
    var a3 := Append(a2, 3);
    assert a3 == ArrayList([1, 2, 3], 4);
    var a5 := Append(Append(a3, 4), 5);
    assert a5 == ArrayList([1, 2, 3, 4, 5], 8);
  }

  /** Size of the count table `main` indexes by value. */
  const TableSize := 100000

  predicate InTable(v: int)
  {
    0 <= v < TableSize
  }

  function Lefts(pairs: seq<(int, int)>): (r: seq<int>)
    ensures |r| == |pairs| && forall k :: 0 <= k < |pairs| ==> r[k] == pairs[k].0
  {
    seq(|pairs|, k requires 0 <= k < |pairs| => pairs[k].0)
  }

  function Rights(pairs: seq<(int, int)>): (r: seq<int>)
    ensures |r| == |pairs| && forall k :: 0 <= k < |pairs| ==> r[k] == pairs[k].1
  {
    seq(|pairs|, k requires 0 <= k < |pairs| => pairs[k].1)
  }

  /** Every entry of a rearrangement of `s` satisfies what every entry of
      `s` satisfies. */
  lemma {:induction false} RearrangedInTable(s: seq<int>, t: seq<int>)
    requires multiset(s) == multiset(t)
    requires forall k :: 0 <= k < |s| ==> InTable(s[k])
    ensures forall k :: 0 <= k < |t| ==> InTable(t[k])
  {
    forall k | 0 <= k < |t| ensures InTable(t[k]) {
      assert t[k] in multiset(s);
      var m := IndexOf(s, t[k]);
    }
  }

  /** The reading loop of `main`: each input pair is appended to the two
      lists, and its right value counted in the table. */
  method Collect(pairs: seq<(int, int)>) returns (left: ArrayList, right: ArrayList, dict: seq<int>)
    requires forall k :: 0 <= k < |pairs| ==> InTable(pairs[k].1)
    ensures left.items == Lefts(pairs) && right.items == Rights(pairs)
    ensures |dict| == TableSize
    ensures forall v :: 0 <= v < TableSize ==> dict[v] == Occurrences(Rights(pairs), v)
  {
    left := Init(1000);
    right := Init(1000);
    dict := seq(TableSize, v => 0);
    var k := 0;
    while k < |pairs|
      invariant k <= |pairs|
      invariant left.items == Lefts(pairs[..k]) && right.items == Rights(pairs[..k])
      invariant |dict| == TableSize
      invariant forall v :: 0 <= v < TableSize ==> dict[v] == Occurrences(Rights(pairs[..k]), v)
    {
      var (ln, rn) := pairs[k];
      assert Rights(pairs[..k + 1]) == Rights(pairs[..k]) + [rn];
      assert Lefts(pairs[..k + 1]) == Lefts(pairs[..k]) + [ln];
      left := Append(left, ln);
      right := Append(right, rn);
      dict := dict[rn := dict[rn] + 1];
      k := k + 1;
    }
    assert pairs[..k] == pairs;
  }

  /** The summing loop of `main` over the sorted lists: `labs(rn - ln)`
      and `labs(ln * dict[ln])` at every index. */
  method Totals(left: ArrayList, right: ArrayList, dict: seq<int>, rights: seq<int>)
    returns (distance: int, similarity: int)
    requires |left.items| == |right.items|
    requires forall k :: 0 <= k < |left.items| ==> InTable(left.items[k])
    requires |dict| == TableSize
    requires forall v :: 0 <= v < TableSize ==> dict[v] == Occurrences(rights, v)
    ensures distance == Locations.Distance(left.items, right.items)
    ensures similarity == Locations.Similarity(left.items, rights)
  {
    var sl := left.items;
    distance, similarity := 0, 0;
    var i := 0;
    while i < |sl|
      invariant i <= |sl|
      invariant distance == Locations.Distance(sl[..i], right.items)
      invariant similarity == Locations.Similarity(sl[..i], rights)
    {
      var ln := Get(left, i).value;
      var rn := Get(right, i).value;
      assert sl[..i + 1][..i] == sl[..i];
      assert ln >= 0 && dict[ln] >= 0;
      distance := distance + Gap(rn, ln);
      similarity := similarity + Gap(0, ln * dict[ln]);
      i := i + 1;
    }
    assert sl[..i] == sl;
  }

  /** `main`: reads the pairs, sorts both lists, and sums. The table is
      indexed correctly only for values in `[0, 100000)`. The distance is
      the distance of the two lists in sorted order, and the similarity
      the order-free similarity score. */
  method Program(pairs: seq<(int, int)>) returns (distance: int, similarity: int)
    requires forall k :: 0 <= k < |pairs| ==> InTable(pairs[k].0) && InTable(pairs[k].1)
    ensures forall a, b ::
      |a| == |b| == |pairs| && Sorted(a) && multiset(a) == multiset(Lefts(pairs)) &&
      Sorted(b) && multiset(b) == multiset(Rights(pairs)) ==>
      distance == Locations.Distance(a, b)
    ensures similarity == Locations.Similarity(Lefts(pairs), Rights(pairs))
  {
    var left, right, dict := Collect(pairs);
    var lefts := left.items;
    var rights := right.items;
    var sl := BubbleSort(lefts);
    var sr := BubbleSort(rights);
    assert |sl| == |multiset(sl)| == |pairs|;
    assert |sr| == |multiset(sr)| == |pairs|;
    RearrangedInTable(lefts, sl);
    distance, similarity := Totals(left.(items := sl), right.(items := sr), dict, rights);
    forall a, b |
      |a| == |b| == |pairs| && Sorted(a) && multiset(a) == multiset(lefts) &&
      Sorted(b) && multiset(b) == multiset(rights)
      ensures distance == Locations.Distance(a, b)
    {
      SortedPermutationUnique(a, sl);
      SortedPermutationUnique(b, sr);
    }
    Locations.SimilarityOrderFree(sl, lefts, rights, rights);
  }
}

=== FILE: cpp_guard.dfy ===
/** The C++ guard-patrol solver (c++/day06.c++): a `Puzzle` object holding
    the cell map, the guard's heading, its start, its current cell and the
    cell ahead of it. Every member function that mutates the object is a
    function here from the old `Puzzle` to the new one. */
module CppGuard {
  import opened Basics
  import opened Plane
  import opened Patrol

  // ---------------------------------------------------------------------
  // splitStringView

  /** Index of the first `c` in `s`, as `std::string::find` reports it. */
  function Find(s: string, c: char): (i: nat)
    requires c in s
    ensures i < |s| && s[i] == c && c !in s[..i]
  {
    if s[0] == c then 0 else 1 + Find(s[1..], c)
  }

  /** Cuts `s` at every `sep`; a trailing piece is kept only when it is not
      empty, so a final separator does not produce an empty last line. */
  function Split(s: string, sep: char): (pieces: seq<string>)
    ensures forall k :: 0 <= k < |pieces| ==> sep !in pieces[k]
    ensures pieces == [] <==> s == []
    decreases |s|
  {
    if sep !in s then
      (if |s| == 0 then [] else [s])
    else
      var i := Find(s, sep);
      [s[..i]] + Split(s[i + 1..], sep)
  }

  /** The pieces glued back together with `sep` between neighbours. */
  function Join(pieces: seq<string>, sep: char): string
  {
    if |pieces| == 0 then []
    else if |pieces| == 1 then pieces[0]
    else pieces[0] + [sep] + Join(pieces[1..], sep)
  }

  /** `s` without its last character when that character is `sep`. */
  function DropFinal(s: string, sep: char): string
  {
    if |s| > 0 && s[|s| - 1] == sep then s[..|s| - 1] else s
  }

  /** Joining the pieces restores the input, less one final separator. */
  lemma {:induction false} JoinSplit(s: string, sep: char)
    ensures Join(Split(s, sep), sep) == DropFinal(s, sep)
    decreases |s|
  {
    if sep in s {
      var i := Find(s, sep);
      var rest := s[i + 1..];
      JoinSplit(rest, sep);
      JoinSplitFirst(s, sep);
      DropFinalAt(s, sep, i);
    }
  }

  /** Split and join of a string holding `sep`, in terms of what follows
      its first `sep`. */
  lemma {:induction false} JoinSplitFirst(s: string, sep: char)
    requires sep in s
    ensures var i := Find(s, sep);
      Join(Split(s, sep), sep) ==
        if i + 1 == |s| then s[..i] else s[..i] + [sep] + Join(Split(s[i + 1..], sep), sep)
  {
    var i := Find(s, sep);
    var rest := Split(s[i + 1..], sep);
    var pieces := Split(s, sep);
    assert pieces == [s[..i]] + rest;
    if i + 1 == |s| {
      assert rest == [];
      assert pieces == [s[..i]];
    } else {
      assert rest != [];
      assert pieces[0] == s[..i] && pieces[1..] == rest;
    }
  }

  /** Dropping a final delimiter, cut at any occurrence `i` of it. */
  lemma {:induction false} DropFinalAt(s: string, sep: char, i: nat)
    requires i < |s| && s[i] == sep
    ensures DropFinal(s, sep) ==
      if i + 1 == |s| then s[..i] else s[..i] + [sep] + DropFinal(s[i + 1..], sep)
  {
    var head, pre, rest := s[..i], s[..i + 1], s[i + 1..];
    assert pre == head + [sep];
    assert s == pre + rest;
    if rest == [] {
      LastOf(head, sep, s);
    } else {
      DropFinalAppend(pre, rest, sep);
    }
  }

  /** The last character of `a + [c]` and what comes before it. */
  lemma {:induction false} LastOf(a: string, c: char, s: string)
    requires s == a + [c]
    ensures |s| > 0 && s[|s| - 1] == c && s[..|s| - 1] == a
  {
  }

  /** Only the end of a string decides what `DropFinal` removes. */
  lemma {:induction false} DropFinalAppend(a: string, b: string, sep: char)
    requires |b| > 0
    ensures DropFinal(a + b, sep) == a + DropFinal(b, sep)
  {
    var s := a + b;
    assert s[|s| - 1] == b[|b| - 1];
    if b[|b| - 1] == sep {
      assert s[..|s| - 1] == a + b[..|b| - 1];
    }
  }

  /** Splitting a join gives back the pieces, provided none holds the
      separator and the last one is not empty. */
  lemma {:induction false} SplitJoin(pieces: seq<string>, sep: char)
    requires forall k :: 0 <= k < |pieces| ==> sep !in pieces[k]
    requires |pieces| > 0 ==> pieces[|pieces| - 1] != []
    ensures Split(Join(pieces, sep), sep) == pieces
    decreases |pieces|
  {
    if |pieces| >= 2 {
      var s := Join(pieces, sep);
      var tail := Join(pieces[1..], sep);
      assert s == pieces[0] + [sep] + tail;
      assert s[|pieces[0]|] == sep;
      assert s[..|pieces[0]|] == pieces[0];
      assert Find(s, sep) == |pieces[0]|;
      assert s[|pieces[0]| + 1..] == tail;
      SplitJoin(pieces[1..], sep);
    }
  }

  // ---------------------------------------------------------------------
  // parse_map

  datatype Cell = Guard | Empty | Obstacle

  type Map = seq<seq<Cell>>

  /** The cell a character stands for; `None` for a character the parser
      rejects. */
  function CellOf(c: char): Option<Cell>
  {
    match c
    case '.' => Some(Empty)
    case '#' => Some(Obstacle)
    case '^' => Some(Guard)
    case '>' => Some(Guard)
    case 'v' => Some(Guard)
    case '<' => Some(Guard)
    case _ => None
  }

  /** The heading a guard marker sets. */
  function HeadingOf(c: char): Option<Direction>
  {
    match c
    case '^' => Some(Up)
    case '>' => Some(Right)
    case 'v' => Some(Down)
    case '<' => Some(Left)
    case _ => None
  }

  /** Exactly the guard markers parse to a guard cell. */
  lemma {:induction false} GuardIffMarker(c: char)
    ensures CellOf(c) == Some(Guard) <==> HeadingOf(c).Some?
  {
  }

  const InvalidCharacter := "Invalid character\n"
  const GuardNotFound := "Guard not found\n"

  /** One line of the map, or the parser's error on its first bad
      character. */
  function ParseRow(line: string): (r: Result<seq<Cell>>)
    ensures r.Ok? <==> forall j :: 0 <= j < |line| ==> CellOf(line[j]).Some?
    ensures r.Err? ==> r.message == InvalidCharacter
    ensures r.Ok? ==> (|r.value| == |line| &&
      forall j :: 0 <= j < |line| ==> CellOf(line[j]) == Some(r.value[j]))
  {
    if |line| == 0 then Ok([])
    else
      match CellOf(line[0])
      case None => Err(InvalidCharacter)
      case Some(c) =>
        match ParseRow(line[1..])
        case Err(e) => Err(e)
        case Ok(rest) =>
          assert forall j :: 1 <= j < |line| ==> line[j] == line[1..][j - 1];
          Ok([c] + rest)
  }

  /** Every line in turn; each row has its line's length. */
  function ParseRows(lines: seq<string>): (r: Result<Map>)
    ensures r.Ok? <==> forall i, j :: 0 <= i < |lines| && 0 <= j < |lines[i]| ==> CellOf(lines[i][j]).Some?
    ensures r.Err? ==> r.message == InvalidCharacter
    ensures r.Ok? ==> (|r.value| == |lines| &&
      forall i :: 0 <= i < |lines| ==> (|r.value[i]| == |lines[i]| &&
        forall j :: 0 <= j < |lines[i]| ==> CellOf(lines[i][j]) == Some(r.value[i][j])))
  {
    if |lines| == 0 then Ok([])
    else
      match ParseRow(lines[0])
      case Err(e) => Err(e)
      case Ok(row) =>
        match ParseRows(lines[1..])
        case Err(e) =>
          assert exists i, j :: 1 <= i < |lines| && 0 <= j < |lines[i]| && CellOf(lines[i][j]).None? by {
            var i, j :| 0 <= i < |lines[1..]| && 0 <= j < |lines[1..][i]| && CellOf(lines[1..][i][j]).None?;
            assert lines[1..][i] == lines[i + 1];
          }
          Err(e)
        case Ok(rest) =>
          assert forall i :: 1 <= i < |lines| ==> lines[i] == lines[1..][i - 1];
          Ok([row] + rest)
  }

  /** No guard marker at index `j` or later in `line`. */
  predicate NoMarkerFrom(line: string, j: int)
  {
    forall k :: j <= k < |line| && 0 <= k ==> HeadingOf(line[k]).None?
  }

  /** The heading of the last marker in a line, if any. */
  function LastHeadingInLine(line: string): (h: Option<Direction>)
    ensures h.None? <==> NoMarkerFrom(line, 0)
    ensures h.Some? ==> exists j :: 0 <= j < |line| && HeadingOf(line[j]) == h && NoMarkerFrom(line, j + 1)
    decreases |line|
  {
    if |line| == 0 then None
    else
      var last := line[|line| - 1];
      if HeadingOf(last).Some? then
        assert NoMarkerFrom(line, |line|);
        HeadingOf(last)
      else
        var h := LastHeadingInLine(line[..|line| - 1]);
        assert forall k :: 0 <= k < |line| - 1 ==> line[..|line| - 1][k] == line[k];
        if h.Some? then
          var j :| 0 <= j < |line| - 1 && HeadingOf(line[..|line| - 1][j]) == h && NoMarkerFrom(line[..|line| - 1], j + 1);
          assert HeadingOf(line[j]) == h && NoMarkerFrom(line, j + 1);
          h
        else
          h
  }

  /** No marker on row `i` at or after column `j`, nor on any later row. */
  predicate NoMarkerAfter(lines: seq<string>, i: int, j: int)
  {
    && (0 <= i < |lines| ==> NoMarkerFrom(lines[i], j))
    && forall i2 :: i < i2 < |lines| && 0 <= i2 ==> NoMarkerFrom(lines[i2], 0)
  }

  /** The heading the parser leaves behind: it sets the heading at every
      marker it meets, so the last marker in reading order wins. */
  function LastHeading(lines: seq<string>): (h: Option<Direction>)
    ensures h.None? <==> NoMarkerAfter(lines, -1, 0)
    ensures h.Some? ==> exists i, j :: (0 <= i < |lines| && 0 <= j < |lines[i]| &&
      HeadingOf(lines[i][j]) == h && NoMarkerAfter(lines, i, j + 1))
    decreases |lines|
  {
    if |lines| == 0 then None
    else
      var n := |lines| - 1;
      var inLast := LastHeadingInLine(lines[n]);
      if inLast.Some? then
        var j :| 0 <= j < |lines[n]| && HeadingOf(lines[n][j]) == inLast && NoMarkerFrom(lines[n], j + 1);
        assert NoMarkerAfter(lines, n, j + 1);
        inLast
      else
        var front := lines[..n];
        var h := LastHeading(front);
        assert forall i :: 0 <= i < n ==> front[i] == lines[i];
        if h.Some? then
          var i, j :| 0 <= i < |front| && 0 <= j < |front[i]| &&
            HeadingOf(front[i][j]) == h && NoMarkerAfter(front, i, j + 1);
          assert NoMarkerAfter(lines, i, j + 1);
          h
        else
          assert NoMarkerAfter(lines, -1, 0) by {
            forall i2 | 0 <= i2 < |lines| ensures NoMarkerFrom(lines[i2], 0) {
              if i2 < n {
                assert NoMarkerFrom(front[i2], 0);
              }
            }
          }
          h
  }

  /** What `parse_map` produces: the map and the heading it set. */
  datatype Parsed = Parsed(cells: Map, heading: Option<Direction>)

  function ParseMap(lines: seq<string>): (r: Result<Parsed>)
    ensures r.Ok? <==> ParseRows(lines).Ok?
    ensures r.Ok? ==> r.value.cells == ParseRows(lines).value && r.value.heading == LastHeading(lines)
    ensures r.Err? ==> r.message == InvalidCharacter
  {
    match ParseRows(lines)
    case Err(e) => Err(e)
    case Ok(cells) => Ok(Parsed(cells, LastHeading(lines)))
  }

  /** A parsed map has a guard cell exactly when its text has a marker,
      and then the parser has set a heading. */
  lemma {:induction false} ParsedGuardHasHeading(lines: seq<string>, i: nat, j: nat)
    requires ParseRows(lines).Ok?
    requires i < |lines| && j < |lines[i]|
    requires ParseRows(lines).value[i][j] == Guard
    ensures LastHeading(lines).Some?
  {
    GuardIffMarker(lines[i][j]);
    assert !NoMarkerFrom(lines[i], 0);
  }

  // ---------------------------------------------------------------------
  // get_start_position

  /** The first guard cell of a row. */
  function FirstGuard(row: seq<Cell>): (r: Option<nat>)
    ensures r.None? <==> Guard !in row
    ensures r.Some? ==> r.value < |row| && row[r.value] == Guard && Guard !in row[..r.value]
  {
    if |row| == 0 then None
    else if row[0] == Guard then Some(0)
    else
      match FirstGuard(row[1..])
      case None => None
      case Some(k) =>
        assert row[..k + 1] == [row[0]] + row[1..][..k];
        Some(k + 1)
  }

  /** Scan from row `y` downwards. */
  function StartFrom(m: Map, y: nat): (r: Result<Pos>)
    requires y <= |m|
    ensures r.Err? <==> forall i :: y <= i < |m| ==> Guard !in m[i]
    ensures r.Err? ==> r.message == GuardNotFound
    ensures r.Ok? ==> (y <= r.value.y < |m| && 0 <= r.value.x < |m[r.value.y]| &&
      m[r.value.y][r.value.x] == Guard &&
      (forall i :: y <= i < r.value.y ==> Guard !in m[i]) &&
      Guard !in m[r.value.y][..r.value.x])
    decreases |m| - y
  {
    if y == |m| then Err(GuardNotFound)
    else
      match FirstGuard(m[y])
      case Some(x) => Ok(Pos(y, x))
      case None => StartFrom(m, y + 1)
  }

  /** The first guard cell in row-major order, or "Guard not found". */
  function StartPosition(m: Map): (r: Result<Pos>)
    ensures r.Err? <==> forall i :: 0 <= i < |m| ==> Guard !in m[i]
    ensures r.Err? ==> r.message == GuardNotFound
    ensures r.Ok? ==> (0 <= r.value.y < |m| && 0 <= r.value.x < |m[r.value.y]| &&
      m[r.value.y][r.value.x] == Guard &&
      (forall i :: 0 <= i < r.value.y ==> Guard !in m[i]) &&
      Guard !in m[r.value.y][..r.value.x])
  {
    StartFrom(m, 0)
  }

  // ---------------------------------------------------------------------
  // The Puzzle object

  datatype Puzzle = Puzzle(cells: Map, direction: Direction, start: Pos, current: Pos, next: Pos)

  /** The constructor: split the text into lines, parse them, find the
      guard, and aim at the cell ahead of it. */
  function Load(input: string): (r: Result<Puzzle>)
    ensures r.Err? ==> r.message == InvalidCharacter || r.message == GuardNotFound
    ensures r.Ok? ==> ParseMap(Split(input, '\n')) == Ok(Parsed(r.value.cells, Some(r.value.direction)))
    ensures r.Ok? ==> StartPosition(r.value.cells) == Ok(r.value.start)
    ensures r.Ok? ==> r.value.current == r.value.start && r.value.next == Ahead(r.value.start, r.value.direction)
  {
    var lines := Split(input, '\n');
    match ParseMap(lines)
    case Err(e) => Err(e)
    case Ok(parsed) =>
      match StartPosition(parsed.cells)
      case Err(e) => Err(e)
      case Ok(s) =>
        ParsedGuardHasHeading(lines, s.y, s.x);
        var d := parsed.heading.value;
        Ok(Puzzle(parsed.cells, d, s, s, Ahead(s, d)))
  }

  /** All rows as long as the first; the walk reads the width off row 0. */
  predicate Rectangular(m: Map)
  {
    |m| > 0 && forall i :: 0 <= i < |m| ==> |m[i]| == |m[0]|
  }

  /** The walk's loop condition. Coordinates are 16-bit unsigned in the
      source, so a step above row 0 or left of column 0 wraps to a huge
      value and fails the upper-bound test; here it is a negative value
      failing the lower-bound test. */
  predicate InBounds(m: Map, p: Pos)
  {
    |m| > 0 && 0 <= p.y < |m| && 0 <= p.x < |m[0]|
  }

  /** A coordinate stored in a `uint16_t`. */
  function Unsigned16(v: int): int
  {
    v % 0x1_0000
  }

  /** The loop condition as the source evaluates it: `>= 0` holds for any
      unsigned value, so only the upper bounds test. On maps of fewer than
      65536 rows and columns it agrees with `InBounds` for every cell at
      most one step off the map, which is all the walks ever aim at. */
  lemma {:induction false} InBoundsAsWritten(m: Map, p: Pos)
    requires 0 < |m| < 0x1_0000 && |m[0]| < 0x1_0000
    requires -1 <= p.y <= |m| && -1 <= p.x <= |m[0]|
    ensures InBounds(m, p) <==> Unsigned16(p.y) < |m| && Unsigned16(p.x) < |m[0]|
  {
    assert Unsigned16(-1) == 0xFFFF;
  }

  function CellAt(m: Map, p: Pos): Cell
    requires Rectangular(m) && InBounds(m, p)
  {
    m[p.y][p.x]
  }

  /** The map with cell `p` overwritten by `c`. */
  function Write(m: Map, p: Pos, c: Cell): (r: Map)
    requires Rectangular(m) && InBounds(m, p)
    ensures Rectangular(r) && |r| == |m| && |r[0]| == |m[0]|
    ensures CellAt(r, p) == c
  {
    m[p.y := m[p.y][p.x := c]]
  }

  /** Writing one cell leaves every other cell as it was. */
  lemma {:induction false} WriteCells(m: Map, p: Pos, c: Cell)
    requires Rectangular(m) && InBounds(m, p)
    ensures forall q :: InBounds(m, q) && q != p ==> CellAt(Write(m, p, c), q) == CellAt(m, q)
  {
  }

  /** What the walking members rely on: a rectangular map, the guard and
      its start inside it, the guard not on an obstacle, and `next` the
      cell ahead of the guard. */
  predicate Valid(p: Puzzle)
  {
    && Rectangular(p.cells)
    && InBounds(p.cells, p.current)
    && InBounds(p.cells, p.start)
    && CellAt(p.cells, p.current) != Obstacle
    && p.next == Ahead(p.current, p.direction)
  }

  /** The walls and size of a map, as the patrol sees them. */
  function FloorOf(m: Map): (f: Floor)
    requires Rectangular(m)
    ensures f.height == |m| && f.width == |m[0]|
  {
    Floor(|m|, |m[0]|, WallsFrom(m, 0))
  }

  /** The obstacles of rows `y` onwards. */
  function WallsFrom(m: Map, y: nat): set<Pos>
    requires Rectangular(m)
    decreases |m| - y
  {
    if y >= |m| then {} else RowWalls(m, y, 0) + WallsFrom(m, y + 1)
  }

  /** The obstacles of row `y` from column `x` on. */
  function RowWalls(m: Map, y: nat, x: nat): set<Pos>
    requires Rectangular(m) && y < |m|
    decreases |m[0]| - x
  {
    if x >= |m[0]| then {}
    else (if m[y][x] == Obstacle then {Pos(y, x)} else {}) + RowWalls(m, y, x + 1)
  }

  lemma {:induction false} RowWallsCells(m: Map, y: nat, x: nat, q: Pos)
    requires Rectangular(m) && y < |m|
    ensures q in RowWalls(m, y, x) <==> q.y == y && x <= q.x && InBounds(m, q) && CellAt(m, q) == Obstacle
    decreases |m[0]| - x
  {
    if x < |m[0]| {
      RowWallsCells(m, y, x + 1, q);
    }
  }

  lemma {:induction false} WallsFromCells(m: Map, y: nat, q: Pos)
    requires Rectangular(m)
    ensures q in WallsFrom(m, y) <==> y <= q.y && InBounds(m, q) && CellAt(m, q) == Obstacle
    decreases |m| - y
  {
    if y < |m| {
      WallsFromCells(m, y + 1, q);
      RowWallsCells(m, y, 0, q);
    }
  }

  /** The floor's cells are the map's cells and its walls the map's
      obstacles. */
  lemma {:induction false} FloorOfCells(m: Map)
    requires Rectangular(m)
    ensures forall q :: Inside(FloorOf(m), q) <==> InBounds(m, q)
    ensures forall q :: q in FloorOf(m).walls <==> InBounds(m, q) && CellAt(m, q) == Obstacle
  {
    forall q ensures q in FloorOf(m).walls <==> InBounds(m, q) && CellAt(m, q) == Obstacle {
      WallsFromCells(m, 0, q);
    }
  }

  /** Two maps of one size with the same obstacles look the same to the
      patrol, whatever they say about guard and empty cells. */
  lemma {:induction false} SameFloor(m1: Map, m2: Map)
    requires Rectangular(m1) && Rectangular(m2)
    requires |m1| == |m2| && |m1[0]| == |m2[0]|
    requires forall q :: InBounds(m1, q) ==> (CellAt(m1, q) == Obstacle <==> CellAt(m2, q) == Obstacle)
    ensures FloorOf(m1) == FloorOf(m2)
  {
    FloorOfCells(m1);
    FloorOfCells(m2);
    assert FloorOf(m1).walls == FloorOf(m2).walls;
  }

  /** Writing an obstacle adds exactly that wall. */
  lemma {:induction false} WriteObstacleFloor(m: Map, q: Pos)
    requires Rectangular(m) && InBounds(m, q)
    ensures FloorOf(Write(m, q, Obstacle)) == AddWall(FloorOf(m), q)
  {
    FloorOfCells(m);
    WriteCells(m, q, Obstacle);
    FloorOfCells(Write(m, q, Obstacle));
    assert FloorOf(Write(m, q, Obstacle)).walls == AddWall(FloorOf(m), q).walls;
  }

  /** Writing a non-obstacle over a wall removes exactly that wall. */
  lemma {:induction false} WriteOpenFloor(m: Map, q: Pos, c: Cell, f: Floor)
    requires Rectangular(m) && InBounds(m, q) && c != Obstacle
    requires FloorOf(m) == AddWall(f, q) && q !in f.walls
    ensures FloorOf(Write(m, q, c)) == f
  {
    FloorOfCells(m);
    WriteCells(m, q, c);
    FloorOfCells(Write(m, q, c));
    assert FloorOf(Write(m, q, c)).walls == f.walls;
  }

  /** `rotate`: turn clockwise in place and re-aim. */
  function Rotate(p: Puzzle): (r: Puzzle)
    ensures r.direction == Clockwise(p.direction)
    ensures r.cells == p.cells && r.start == p.start && r.current == p.current
    ensures r.next == Ahead(r.current, r.direction)
  {
    var d := Clockwise(p.direction);
    p.(direction := d, next := Ahead(p.current, d))
  }

  /** Four rotations undo themselves on an aimed puzzle. */
  lemma {:induction false} FourRotationsIdentity(p: Puzzle)
    requires p.next == Ahead(p.current, p.direction)
    ensures Rotate(Rotate(Rotate(Rotate(p)))) == p
  {
    FourTurnsIdentity(p.direction);
  }

  /** `move`: clear the guard's cell, step onto `next`, mark it as the
      guard and re-aim. */
  function Move(p: Puzzle): (r: Puzzle)
    requires Rectangular(p.cells) && InBounds(p.cells, p.current) && InBounds(p.cells, p.next)
    requires p.next != p.current
    ensures r.current == p.next && r.direction == p.direction && r.start == p.start
    ensures r.next == Ahead(r.current, r.direction)
    ensures Rectangular(r.cells) && |r.cells| == |p.cells| && |r.cells[0]| == |p.cells[0]|
    ensures CellAt(r.cells, p.next) == Guard && CellAt(r.cells, p.current) == Empty
  {
    var cleared := Write(p.cells, p.current, Empty);
    WriteCells(cleared, p.next, Guard);
    p.(cells := Write(cleared, p.next, Guard), current := p.next, next := Ahead(p.next, p.direction))
  }

  /** `reset`: clear the guard's cell, put the guard back on its start,
      mark it, and face Up whatever the parsed heading was. */
  function Reset(p: Puzzle): (r: Puzzle)
    requires Rectangular(p.cells) && InBounds(p.cells, p.current) && InBounds(p.cells, p.start)
    ensures r.current == p.start && r.start == p.start && r.direction == Up
    ensures r.next == Ahead(p.start, Up)
    ensures Rectangular(r.cells) && |r.cells| == |p.cells| && |r.cells[0]| == |p.cells[0]|
    ensures CellAt(r.cells, p.start) == Guard
    ensures p.current != p.start ==> CellAt(r.cells, p.current) == Empty
  {
    var cleared := Write(p.cells, p.current, Empty);
    WriteCells(cleared, p.start, Guard);
    p.(cells := Write(cleared, p.start, Guard), current := p.start, direction := Up, next := Ahead(p.start, Up))
  }

  /** A move changes only the cell left and the cell entered. */
  lemma {:induction false} MoveCells(p: Puzzle)
    requires Rectangular(p.cells) && InBounds(p.cells, p.current) && InBounds(p.cells, p.next)
    requires p.next != p.current
    ensures forall q :: InBounds(p.cells, q) && q != p.current && q != p.next ==> CellAt(Move(p).cells, q) == CellAt(p.cells, q)
  {
    var cleared := Write(p.cells, p.current, Empty);
    WriteCells(p.cells, p.current, Empty);
    WriteCells(cleared, p.next, Guard);
  }

  /** A reset changes only the guard's cell and the start. */
  lemma {:induction false} ResetCells(p: Puzzle)
    requires Rectangular(p.cells) && InBounds(p.cells, p.current) && InBounds(p.cells, p.start)
    ensures forall q :: InBounds(p.cells, q) && q != p.current && q != p.start ==> CellAt(Reset(p).cells, q) == CellAt(p.cells, q)
  {
    var cleared := Write(p.cells, p.current, Empty);
    WriteCells(p.cells, p.current, Empty);
    WriteCells(cleared, p.start, Guard);
  }

  /** Rotating and moving keep a puzzle valid on the same floor. */
  lemma {:induction false} RotateKeepsFloor(p: Puzzle)
    requires Valid(p)
    ensures Valid(Rotate(p)) && FloorOf(Rotate(p).cells) == FloorOf(p.cells)
  {
  }

  lemma {:induction false} MoveKeepsFloor(p: Puzzle)
    requires Valid(p) && InBounds(p.cells, p.next) && CellAt(p.cells, p.next) != Obstacle
    ensures Valid(Move(p)) && FloorOf(Move(p).cells) == FloorOf(p.cells)
  {
    MoveCells(p);
    SameFloor(p.cells, Move(p).cells);
  }

  lemma {:induction false} ResetKeepsFloor(p: Puzzle)
    requires Valid(p) && CellAt(p.cells, p.start) != Obstacle
    ensures Valid(Reset(p)) && FloorOf(Reset(p).cells) == FloorOf(p.cells)
  {
    ResetCells(p);
    SameFloor(p.cells, Reset(p).cells);
  }

  // ---------------------------------------------------------------------
  // visited_position and part1

  /** The floor and the guard state the walk from `p` starts in. */
  function FloorOfPuzzle(p: Puzzle): Floor
    requires Rectangular(p.cells)
  {
    FloorOf(p.cells)
  }

  function GuardOf(p: Puzzle): Guard
  {
    At(p.current, p.direction)
  }

  /** The loop of `visited_position`. While the cell ahead is on the map it
      turns when that cell is an obstacle and otherwise records the
      heading it leaves its cell with and moves; when the cell ahead is off
      the map it records the last cell and stops. Each loop iteration costs
      one unit of `fuel`; `None` means the budget ran out (a boxed-in or
      looping guard runs forever in the source). */
  function Walk(p: Puzzle, visited: map<Pos, Direction>, fuel: nat): (r: Option<(map<Pos, Direction>, Puzzle)>)
    requires Valid(p)
    ensures r.Some? ==> Valid(r.value.1) && FloorOf(r.value.1.cells) == FloorOf(p.cells)
    ensures r.Some? ==> r.value.1.start == p.start && !InBounds(r.value.1.cells, r.value.1.next)
    ensures r.Some? ==> p.current in r.value.0 && visited.Keys <= r.value.0.Keys
    decreases fuel
  {
    if !InBounds(p.cells, p.next) then
      Some((visited[p.current := p.direction], p))
    else if fuel == 0 then
      None
    else if CellAt(p.cells, p.next) == Obstacle then
      RotateKeepsFloor(p);
      Walk(Rotate(p), visited, fuel - 1)
    else
      MoveKeepsFloor(p);
      Walk(Move(p), visited[p.current := p.direction], fuel - 1)
  }

  /** `visited_position`: every cell the guard stands on, mapped to the
      heading it last left the cell with. */
  function VisitedPosition(p: Puzzle, fuel: nat): (r: Option<(map<Pos, Direction>, Puzzle)>)
    requires Valid(p)
    ensures r.Some? ==> p.current in r.value.0
    ensures r.Some? ==> Valid(r.value.1) && FloorOf(r.value.1.cells) == FloorOf(p.cells) && r.value.1.start == p.start
  {
    Walk(p, map[], fuel)
  }

  /** `part1`: the number of distinct cells visited, with the puzzle as
      the walk leaves it; at least the guard's own cell and at most the
      whole map. */
  function Part1(p: Puzzle, fuel: nat): (r: Option<(nat, Puzzle)>)
    requires Valid(p)
    ensures r.Some? ==> 1 <= r.value.0 <= |p.cells| * |p.cells[0]|
    ensures r.Some? ==> Valid(r.value.1) && FloorOf(r.value.1.cells) == FloorOf(p.cells) && r.value.1.start == p.start
  {
    match VisitedPosition(p, fuel)
    case None => None
    case Some((visited, walked)) =>
      VisitedCellsOpen(p, fuel);
      InBoxBound(|p.cells|, |p.cells[0]|, visited.Keys);
      Some((|visited.Keys|, walked))
  }

  /** One pass of the walking loop is one patrol step: leaving when the
      cell ahead is off the map, turning at an obstacle, moving otherwise. */
  lemma {:induction false} LoopPassIsStep(p: Puzzle)
    requires Valid(p)
    ensures !InBounds(p.cells, p.next) ==> Step(FloorOf(p.cells), GuardOf(p)) == Gone
    ensures InBounds(p.cells, p.next) && CellAt(p.cells, p.next) == Obstacle ==>
      Step(FloorOf(p.cells), GuardOf(p)) == GuardOf(Rotate(p))
    ensures InBounds(p.cells, p.next) && CellAt(p.cells, p.next) != Obstacle ==>
      Step(FloorOf(p.cells), GuardOf(p)) == GuardOf(Move(p))
  {
    FloorOfCells(p.cells);
  }

  /** The walk is the patrol: after `t` iterations the recorded cells and
      the guard's cell are the trail of states 0 to `t`, and the walk
      stops with the trail of a patrol that has left the floor. */
  lemma {:induction false} WalkTracksPatrol(f: Floor, g: Guard, p: Puzzle, visited: map<Pos, Direction>, fuel: nat, t: nat) returns (n: nat)
    requires Valid(p) && FloorOf(p.cells) == f
    requires Iterate(f, g, t) == GuardOf(p)
    requires visited.Keys + {p.current} == Trail(f, g, t + 1)
    requires Walk(p, visited, fuel).Some?
    ensures Iterate(f, g, n).Gone? && Walk(p, visited, fuel).value.0.Keys == Trail(f, g, n)
    decreases fuel, 1
  {
    LoopPassIsStep(p);
    if !InBounds(p.cells, p.next) {
      n := t + 1;
      assert Iterate(f, g, t + 1).Gone?;
      assert Walk(p, visited, fuel).value.0.Keys == Trail(f, g, t + 1);
    } else if CellAt(p.cells, p.next) == Obstacle {
      n := WalkTurnPass(f, g, p, visited, fuel, t);
    } else {
      n := WalkMovePass(f, g, p, visited, fuel, t);
    }
  }

  lemma {:induction false} WalkTurnPass(f: Floor, g: Guard, p: Puzzle, visited: map<Pos, Direction>, fuel: nat, t: nat) returns (n: nat)
    requires Valid(p) && FloorOf(p.cells) == f
    requires Iterate(f, g, t) == GuardOf(p)
    requires visited.Keys + {p.current} == Trail(f, g, t + 1)
    requires InBounds(p.cells, p.next) && CellAt(p.cells, p.next) == Obstacle
    requires Walk(p, visited, fuel).Some?
    ensures Iterate(f, g, n).Gone? && Walk(p, visited, fuel).value.0.Keys == Trail(f, g, n)
    decreases fuel, 0
  {
    TurnPass(f, g, p, t);
    var k := WalkTurnUnfold(p, visited, fuel);
    var r := Rotate(p);
    var w := Walk(r, visited, k);
    assert w.Some?;
    n := WalkTracksPatrol(f, g, r, visited, k, t + 1);
  }

  lemma {:induction false} WalkMovePass(f: Floor, g: Guard, p: Puzzle, visited: map<Pos, Direction>, fuel: nat, t: nat) returns (n: nat)
    requires Valid(p) && FloorOf(p.cells) == f
    requires Iterate(f, g, t) == GuardOf(p)
    requires visited.Keys + {p.current} == Trail(f, g, t + 1)
    requires InBounds(p.cells, p.next) && CellAt(p.cells, p.next) != Obstacle
    requires Walk(p, visited, fuel).Some?
    ensures Iterate(f, g, n).Gone? && Walk(p, visited, fuel).value.0.Keys == Trail(f, g, n)
    decreases fuel, 0
  {
    MovePass(f, g, p, t);
    var k := WalkMoveUnfold(p, visited, fuel);
    var r, v := Move(p), visited[p.current := p.direction];
    assert v.Keys + {r.current} == Trail(f, g, t + 2);
    var w := Walk(r, v, k);
    assert w.Some?;
    n := WalkTracksPatrol(f, g, r, v, k, t + 1);
  }

  /** A turning pass: the puzzle stays valid on the floor and is the
      patrol's next state. */
  lemma {:induction false} TurnPass(f: Floor, g: Guard, p: Puzzle, t: nat)
    requires Valid(p) && FloorOf(p.cells) == f
    requires Iterate(f, g, t) == GuardOf(p)
    requires InBounds(p.cells, p.next) && CellAt(p.cells, p.next) == Obstacle
    ensures Valid(Rotate(p)) && FloorOf(Rotate(p).cells) == f
    ensures Iterate(f, g, t + 1) == GuardOf(Rotate(p))
    ensures Trail(f, g, t + 2) == Trail(f, g, t + 1)
  {
    LoopPassIsStep(p);
    RotateKeepsFloor(p);
    assert Trail(f, g, t + 2) == Trail(f, g, t + 1) + {p.current};
  }

  /** A moving pass, likewise. */
  lemma {:induction false} MovePass(f: Floor, g: Guard, p: Puzzle, t: nat)
    requires Valid(p) && FloorOf(p.cells) == f
    requires Iterate(f, g, t) == GuardOf(p)
    requires InBounds(p.cells, p.next) && CellAt(p.cells, p.next) != Obstacle
    ensures Valid(Move(p)) && FloorOf(Move(p).cells) == f
    ensures Iterate(f, g, t + 1) == GuardOf(Move(p))
    ensures Trail(f, g, t + 2) == Trail(f, g, t + 1) + {p.next}
  {
    LoopPassIsStep(p);
    MoveKeepsFloor(p);
  }

  lemma {:induction false} WalkTurnUnfold(p: Puzzle, visited: map<Pos, Direction>, fuel: nat) returns (k: nat)
    requires Valid(p) && InBounds(p.cells, p.next) && CellAt(p.cells, p.next) == Obstacle
    requires Walk(p, visited, fuel).Some?
    ensures k + 1 == fuel && Valid(Rotate(p))
    ensures Walk(p, visited, fuel) == Walk(Rotate(p), visited, k)
  {
    RotateKeepsFloor(p);
    k := fuel - 1;
  }

  lemma {:induction false} WalkMoveUnfold(p: Puzzle, visited: map<Pos, Direction>, fuel: nat) returns (k: nat)
    requires Valid(p) && InBounds(p.cells, p.next) && CellAt(p.cells, p.next) != Obstacle
    requires Walk(p, visited, fuel).Some?
    ensures k + 1 == fuel && Valid(Move(p))
    ensures Walk(p, visited, fuel) == Walk(Move(p), visited[p.current := p.direction], k)
  {
    MoveKeepsFloor(p);
    k := fuel - 1;
  }

  /** `visited_position` records exactly the cells the patrol stands on,
      and it only returns when the guard has left the map. */
  lemma {:induction false} VisitedPositionIsPatrol(p: Puzzle, fuel: nat)
    requires Valid(p) && VisitedPosition(p, fuel).Some?
    ensures forall q :: q in VisitedPosition(p, fuel).value.0 <==> Visits(FloorOf(p.cells), GuardOf(p), q)
    ensures Escapes(FloorOf(p.cells), GuardOf(p))
  {
    var f, g := FloorOf(p.cells), GuardOf(p);
    var none: map<Pos, Direction> := map[];
    assert Trail(f, g, 1) == {p.current};
    var n := WalkTracksPatrol(f, g, p, none, fuel, 0);
    TrailOfEscape(f, g, n);
  }

  /** Every recorded cell is an open cell of the map. */
  lemma {:induction false} VisitedCellsOpen(p: Puzzle, fuel: nat)
    requires Valid(p) && VisitedPosition(p, fuel).Some?
    ensures forall q :: q in VisitedPosition(p, fuel).value.0 ==> InBounds(p.cells, q) && CellAt(p.cells, q) != Obstacle
  {
    var f, g := FloorOf(p.cells), GuardOf(p);
    FloorOfCells(p.cells);
    VisitedPositionIsPatrol(p, fuel);
    forall q | q in VisitedPosition(p, fuel).value.0 ensures InBounds(p.cells, q) && CellAt(p.cells, q) != Obstacle {
      var n: nat :| StandsAt(f, g, n, q);
      StaysOnOpenCells(f, g, n);
    }
  }

  // ---------------------------------------------------------------------
  // has_loop

  /** The loop of `has_loop`: while the cell ahead is on the map, report a
      loop when the guard's cell was last left with the current heading,
      turn in place at an obstacle, otherwise record the heading and move.
      The map keeps one heading per cell, the last one it was left with. */
  function LoopSearch(p: Puzzle, visited: map<Pos, Direction>, fuel: nat): (r: Option<(bool, Puzzle)>)
    requires Valid(p)
    ensures r.Some? ==> Valid(r.value.1) && FloorOf(r.value.1.cells) == FloorOf(p.cells) && r.value.1.start == p.start
    ensures r.Some? && !r.value.0 ==> !InBounds(r.value.1.cells, r.value.1.next)
    decreases fuel
  {
    if !InBounds(p.cells, p.next) then
      Some((false, p))
    else if p.current in visited && visited[p.current] == p.direction then
      Some((true, p))
    else if fuel == 0 then
      None
    else if CellAt(p.cells, p.next) == Obstacle then
      RotateKeepsFloor(p);
      LoopSearch(Rotate(p), visited, fuel - 1)
    else
      MoveKeepsFloor(p);
      LoopSearch(Move(p), visited[p.current := p.direction], fuel - 1)
  }

  /** `has_loop`, from the puzzle's current state and an empty map. */
  function HasLoop(p: Puzzle, fuel: nat): (r: Option<(bool, Puzzle)>)
    requires Valid(p)
    ensures r.Some? ==> Valid(r.value.1) && FloorOf(r.value.1.cells) == FloorOf(p.cells) && r.value.1.start == p.start
    ensures r.Some? && !r.value.0 ==> !InBounds(r.value.1.cells, r.value.1.next)
  {
    LoopSearch(p, map[], fuel)
  }

  /** Every recorded cell and heading is a state the guard was in before
      step `t`. */
  ghost predicate Seen(f: Floor, g: Guard, visited: map<Pos, Direction>, t: nat)
  {
    forall q :: q in visited ==> At(q, visited[q]) in History(f, g, t)
  }

  lemma {:induction false} SeenLater(f: Floor, g: Guard, visited: map<Pos, Direction>, t: nat)
    requires Seen(f, g, visited, t)
    ensures Seen(f, g, visited, t + 1)
  {
    assert History(f, g, t) <= History(f, g, t + 1);
  }

  lemma {:induction false} SeenRecord(f: Floor, g: Guard, visited: map<Pos, Direction>, current: Pos, d: Direction, t: nat)
    requires Seen(f, g, visited, t) && Iterate(f, g, t) == At(current, d)
    ensures Seen(f, g, visited[current := d], t + 1)
  {
    assert History(f, g, t + 1) == History(f, g, t) + {At(current, d)};
  }

  /** A finished search decided at step `n` of the patrol from `g`: a
      loop when state `n` is one met before, no loop when the guard is
      gone by then. */
  ghost predicate DecidedAt(f: Floor, g: Guard, r: Option<(bool, Puzzle)>, n: nat)
  {
    r.Some? ==>
      && (r.value.0 ==> Iterate(f, g, n).At? && Iterate(f, g, n) in History(f, g, n))
      && (!r.value.0 ==> Iterate(f, g, n).Gone?)
  }

  /** The search state `p`, `visited` is the patrol's state at step `t`. */
  ghost predicate SearchAt(f: Floor, g: Guard, p: Puzzle, visited: map<Pos, Direction>, t: nat)
  {
    Valid(p) && FloorOf(p.cells) == f && Iterate(f, g, t) == GuardOf(p) && Seen(f, g, visited, t)
  }

  /** The search follows the patrol and stops at the step that decides
      it. */
  lemma {:induction false} LoopSearchSound(f: Floor, g: Guard, p: Puzzle, visited: map<Pos, Direction>, fuel: nat, t: nat) returns (n: nat)
    requires SearchAt(f, g, p, visited, t)
    requires LoopSearch(p, visited, fuel).Some?
    ensures DecidedAt(f, g, LoopSearch(p, visited, fuel), n)
    decreases fuel, 1
  {
    LoopPassIsStep(p);
    if !InBounds(p.cells, p.next) {
      n := t + 1;
      assert Iterate(f, g, n).Gone?;
    } else if p.current in visited && visited[p.current] == p.direction {
      n := t;
      assert Iterate(f, g, n) in History(f, g, n);
    } else if CellAt(p.cells, p.next) == Obstacle {
      n := LoopTurnPass(f, g, p, visited, fuel, t);
    } else {
      n := LoopMovePass(f, g, p, visited, fuel, t);
    }
  }

  lemma {:induction false} LoopTurnPass(f: Floor, g: Guard, p: Puzzle, visited: map<Pos, Direction>, fuel: nat, t: nat) returns (n: nat)
    requires SearchAt(f, g, p, visited, t)
    requires InBounds(p.cells, p.next) && !(p.current in visited && visited[p.current] == p.direction)
    requires CellAt(p.cells, p.next) == Obstacle
    requires LoopSearch(p, visited, fuel).Some?
    ensures DecidedAt(f, g, LoopSearch(p, visited, fuel), n)
    decreases fuel, 0
  {
    var q, k, s := LoopTurnStep(f, g, p, visited, fuel, t);
    n := LoopSearchSound(f, g, q, visited, k, s);
  }

  lemma {:induction false} LoopMovePass(f: Floor, g: Guard, p: Puzzle, visited: map<Pos, Direction>, fuel: nat, t: nat) returns (n: nat)
    requires SearchAt(f, g, p, visited, t)
    requires InBounds(p.cells, p.next) && !(p.current in visited && visited[p.current] == p.direction)
    requires CellAt(p.cells, p.next) != Obstacle
    requires LoopSearch(p, visited, fuel).Some?
    ensures DecidedAt(f, g, LoopSearch(p, visited, fuel), n)
    decreases fuel, 0
  {
    var q, v, k, s := LoopMoveStep(f, g, p, visited, fuel, t);
    n := LoopSearchSound(f, g, q, v, k, s);
  }

  /** A turning pass of the search is the patrol's next step. */
  lemma {:induction false} LoopTurnStep(f: Floor, g: Guard, p: Puzzle, visited: map<Pos, Direction>, fuel: nat, t: nat)
    returns (q: Puzzle, k: nat, s: nat)
    requires SearchAt(f, g, p, visited, t)
    requires InBounds(p.cells, p.next) && !(p.current in visited && visited[p.current] == p.direction)
    requires CellAt(p.cells, p.next) == Obstacle
    requires LoopSearch(p, visited, fuel).Some?
    ensures k + 1 == fuel && s == t + 1 && SearchAt(f, g, q, visited, s)
    ensures LoopSearch(p, visited, fuel) == LoopSearch(q, visited, k)
  {
    k := LoopTurnUnfold(p, visited, fuel);
    q, s := Rotate(p), t + 1;
    TurnPass(f, g, p, t);
    SeenLater(f, g, visited, t);
  }

  /** A moving pass of the search is the patrol's next step. */
  lemma {:induction false} LoopMoveStep(f: Floor, g: Guard, p: Puzzle, visited: map<Pos, Direction>, fuel: nat, t: nat)
    returns (q: Puzzle, v: map<Pos, Direction>, k: nat, s: nat)
    requires SearchAt(f, g, p, visited, t)
    requires InBounds(p.cells, p.next) && !(p.current in visited && visited[p.current] == p.direction)
    requires CellAt(p.cells, p.next) != Obstacle
    requires LoopSearch(p, visited, fuel).Some?
    ensures k + 1 == fuel && s == t + 1 && SearchAt(f, g, q, v, s)
    ensures LoopSearch(p, visited, fuel) == LoopSearch(q, v, k)
  {
    k := LoopMoveUnfold(p, visited, fuel);
    q, v, s := Move(p), visited[p.current := p.direction], t + 1;
    MovePass(f, g, p, t);
    SeenRecord(f, g, visited, p.current, p.direction, t);
  }

  lemma {:induction false} LoopTurnUnfold(p: Puzzle, visited: map<Pos, Direction>, fuel: nat) returns (k: nat)
    requires Valid(p) && InBounds(p.cells, p.next) && CellAt(p.cells, p.next) == Obstacle
    requires !(p.current in visited && visited[p.current] == p.direction)
    requires LoopSearch(p, visited, fuel).Some?
    ensures k + 1 == fuel && Valid(Rotate(p))
    ensures LoopSearch(p, visited, fuel) == LoopSearch(Rotate(p), visited, k)
  {
    RotateKeepsFloor(p);
    k := fuel - 1;
  }

  lemma {:induction false} LoopMoveUnfold(p: Puzzle, visited: map<Pos, Direction>, fuel: nat) returns (k: nat)
    requires Valid(p) && InBounds(p.cells, p.next) && CellAt(p.cells, p.next) != Obstacle
    requires !(p.current in visited && visited[p.current] == p.direction)
    requires LoopSearch(p, visited, fuel).Some?
    ensures k + 1 == fuel && Valid(Move(p))
    ensures LoopSearch(p, visited, fuel) == LoopSearch(Move(p), visited[p.current := p.direction], k)
  {
    MoveKeepsFloor(p);
    k := fuel - 1;
  }

  /** `has_loop` answers true only for a guard that patrols forever, and
      false only for one that leaves the map. */
  lemma {:induction false} HasLoopSound(p: Puzzle, fuel: nat)
    requires Valid(p) && HasLoop(p, fuel).Some?
    ensures HasLoop(p, fuel).value.0 <==> Trapped(FloorOf(p.cells), GuardOf(p))
    ensures !HasLoop(p, fuel).value.0 <==> Escapes(FloorOf(p.cells), GuardOf(p))
  {
    var f, g := FloorOf(p.cells), GuardOf(p);
    var n := LoopSearchSound(f, g, p, map[], fuel, 0);
    EscapeExcludesTrap(f, g);
    if HasLoop(p, fuel).value.0 {
      RevisitTraps(f, g, n);
    } else {
      assert Iterate(f, g, n).Gone?;
    }
  }

  // ---------------------------------------------------------------------
  // part2 and the program

  /** The cells of `keys` in rows `y` onwards (from column `x` in row
      `y`), in row-major order. Iterating the hash map of visited cells
      has no specified order; this model fixes one, and the count below
      does not depend on it. */
  function Scan(keys: set<Pos>, height: int, width: int, y: int, x: nat): (s: seq<Pos>)
    ensures NoDuplicates(s)
    ensures forall q :: q in s <==> q in keys && q.y < height && 0 <= q.x < width && (q.y > y || (q.y == y && q.x >= x))
    decreases height - y, width - x
  {
    if y >= height then []
    else if x >= width then Scan(keys, height, width, y + 1, 0)
    else
      var rest := Scan(keys, height, width, y, x + 1);
      if Pos(y, x) in keys then [Pos(y, x)] + rest else rest
  }

  /** The obstacle cells among `cands` that trap a guard starting on
      `start` facing up. */
  ghost function Obstructions(f: Floor, start: Pos, cands: set<Pos>): set<Pos>
  {
    set q | q in cands && q != start && Trapped(AddWall(f, q), At(start, Up))
  }

  /** The body of the `part2` loop for each candidate in turn: reset the
      guard, skip its start, put an obstacle on the candidate, count a
      loop, and clear the candidate again. The result is the count and the
      puzzle after the last candidate. */
  function Trials(p: Puzzle, cands: seq<Pos>, fuel: nat): (r: Option<(nat, Puzzle)>)
    requires Valid(p) && CellAt(p.cells, p.start) != Obstacle
    requires forall q :: q in cands ==> Inside(FloorOf(p.cells), q) && q !in FloorOf(p.cells).walls
    ensures r.Some? ==> r.value.0 + (if p.start in cands then 1 else 0) <= |cands|
    ensures r.Some? ==> Valid(r.value.1) && FloorOf(r.value.1.cells) == FloorOf(p.cells)
    ensures r.Some? ==> r.value.1.start == p.start && CellAt(r.value.1.cells, r.value.1.start) != Obstacle
    decreases |cands|
  {
    if cands == [] then Some((0, p))
    else
      var q := cands[0];
      ResetKeepsFloor(p);
      var reset := Reset(p);
      if q == reset.start then
        Trials(reset, cands[1..], fuel)
      else
        TrialKeepsValid(reset, q);
        var blocked := reset.(cells := Write(reset.cells, q, Obstacle));
        match HasLoop(blocked, fuel)
        case None => None
        case Some((loop, after)) =>
          RestoreKeepsFloor(reset, q, after);
          var restored := after.(cells := Write(after.cells, q, Empty));
          match Trials(restored, cands[1..], fuel)
          case None => None
          case Some((n, last)) => Some(((if loop then 1 else 0) + n, last))
  }

  /** Blocking a candidate other than the start leaves a valid puzzle on
      the floor with that wall added. */
  lemma {:induction false} TrialKeepsValid(p: Puzzle, q: Pos)
    requires Valid(p) && p.current == p.start
    requires Inside(FloorOf(p.cells), q) && q !in FloorOf(p.cells).walls && q != p.start
    ensures InBounds(p.cells, q)
    ensures Valid(p.(cells := Write(p.cells, q, Obstacle)))
    ensures FloorOf(Write(p.cells, q, Obstacle)) == AddWall(FloorOf(p.cells), q)
  {
    FloorOfCells(p.cells);
    WriteCells(p.cells, q, Obstacle);
    WriteObstacleFloor(p.cells, q);
  }

  /** Clearing the candidate after the search restores the floor. */
  lemma {:induction false} RestoreKeepsFloor(p: Puzzle, q: Pos, after: Puzzle)
    requires Valid(p) && CellAt(p.cells, p.start) != Obstacle
    requires Inside(FloorOf(p.cells), q) && q !in FloorOf(p.cells).walls
    requires Valid(after) && FloorOf(after.cells) == AddWall(FloorOf(p.cells), q) && after.start == p.start
    ensures InBounds(after.cells, q)
    ensures Valid(after.(cells := Write(after.cells, q, Empty)))
    ensures FloorOf(Write(after.cells, q, Empty)) == FloorOf(p.cells)
    ensures CellAt(Write(after.cells, q, Empty), p.start) != Obstacle
  {
    FloorOfCells(p.cells);
    FloorOfCells(after.cells);
    WriteCells(after.cells, q, Empty);
    WriteOpenFloor(after.cells, q, Empty, FloorOf(p.cells));
    FloorOfCells(Write(after.cells, q, Empty));
  }

  /** The trials count exactly the candidates whose obstacle traps the
      guard, whatever order the candidates come in. */
  lemma {:induction false} TrialsCount(p: Puzzle, cands: seq<Pos>, fuel: nat)
    requires Valid(p) && CellAt(p.cells, p.start) != Obstacle
    requires forall q :: q in cands ==> Inside(FloorOf(p.cells), q) && q !in FloorOf(p.cells).walls
    requires NoDuplicates(cands)
    requires Trials(p, cands, fuel).Some?
    ensures Trials(p, cands, fuel).value.0 == |Obstructions(FloorOf(p.cells), p.start, set q | q in cands)|
    decreases |cands|, 1
  {
    if cands == [] {
      assert Obstructions(FloorOf(p.cells), p.start, set q | q in cands) == {};
    } else {
      TrialCount(p, cands, fuel);
    }
  }

  /** One trial: the first candidate counts exactly when it is an
      obstruction. */
  lemma {:induction false} TrialCount(p: Puzzle, cands: seq<Pos>, fuel: nat)
    requires Valid(p) && CellAt(p.cells, p.start) != Obstacle
    requires forall q :: q in cands ==> Inside(FloorOf(p.cells), q) && q !in FloorOf(p.cells).walls
    requires NoDuplicates(cands) && cands != []
    requires Trials(p, cands, fuel).Some?
    ensures Trials(p, cands, fuel).value.0 == |Obstructions(FloorOf(p.cells), p.start, set q | q in cands)|
    decreases |cands|, 0
  {
    var f, q, rest := FloorOf(p.cells), cands[0], cands[1..];
    ObstructionsCons(f, p.start, cands);
    ResetKeepsFloor(p);
    if q == Reset(p).start {
      TrialsCount(Reset(p), rest, fuel);
    } else {
      var restored := TrialStep(p, cands, fuel);
      TrialsCount(restored, rest, fuel);
    }
  }

  /** A trial of a candidate other than the start adds one exactly when
      the wall there traps the guard, and hands on a puzzle of the same
      floor. */
  lemma {:induction false} TrialStep(p: Puzzle, cands: seq<Pos>, fuel: nat) returns (restored: Puzzle)
    requires Valid(p) && CellAt(p.cells, p.start) != Obstacle
    requires forall q :: q in cands ==> Inside(FloorOf(p.cells), q) && q !in FloorOf(p.cells).walls
    requires cands != [] && cands[0] != p.start
    requires Trials(p, cands, fuel).Some?
    ensures Valid(restored) && FloorOf(restored.cells) == FloorOf(p.cells)
    ensures restored.start == p.start && CellAt(restored.cells, restored.start) != Obstacle
    ensures Trials(restored, cands[1..], fuel).Some?
    ensures Trials(p, cands, fuel).value.0 ==
      (if Trapped(AddWall(FloorOf(p.cells), cands[0]), At(p.start, Up)) then 1 else 0) +
      Trials(restored, cands[1..], fuel).value.0
  {
    var q := cands[0];
    ResetKeepsFloor(p);
    var reset := Reset(p);
    TrialKeepsValid(reset, q);
    var blocked := reset.(cells := Write(reset.cells, q, Obstacle));
    var (loop, after) := HasLoop(blocked, fuel).value;
    HasLoopSound(blocked, fuel);
    assert GuardOf(blocked) == At(p.start, Up);
    RestoreKeepsFloor(reset, q, after);
    restored := after.(cells := Write(after.cells, q, Empty));
  }

  /** The obstructions among a list are those of its tail, plus its head
      when that traps the guard. */
  lemma {:induction false} ObstructionsCons(f: Floor, start: Pos, cands: seq<Pos>)
    requires NoDuplicates(cands) && cands != []
    ensures cands[0] !in Obstructions(f, start, set c | c in cands[1..])
    ensures |Obstructions(f, start, set c | c in cands)| ==
      |Obstructions(f, start, set c | c in cands[1..])| +
      (if cands[0] != start && Trapped(AddWall(f, cands[0]), At(start, Up)) then 1 else 0)
  {
    var q := cands[0];
    var rest := Obstructions(f, start, set c | c in cands[1..]);
    assert q !in cands[1..];
    if q != start && Trapped(AddWall(f, q), At(start, Up)) {
      assert Obstructions(f, start, set c | c in cands) == rest + {q};
    } else {
      assert Obstructions(f, start, set c | c in cands) == rest;
    }
  }

  /** `part2`: walk from the current state to collect the visited cells,
      then run one trial per visited cell. At most every cell but the
      start can trap the guard. */
  function Part2(p: Puzzle, fuel: nat): (r: Option<(nat, Puzzle)>)
    requires Valid(p) && CellAt(p.cells, p.start) != Obstacle
    ensures r.Some? ==> r.value.0 <= |p.cells| * |p.cells[0]|
    ensures r.Some? && p.current == p.start ==> r.value.0 < |p.cells| * |p.cells[0]|
    ensures r.Some? ==> Valid(r.value.1) && FloorOf(r.value.1.cells) == FloorOf(p.cells) && r.value.1.start == p.start
  {
    match VisitedPosition(p, fuel)
    case None => None
    case Some((visited, walked)) =>
      var order := Scan(visited.Keys, |p.cells|, |p.cells[0]|, 0, 0);
      Candidates(p, fuel, visited, walked);
      Trials(walked, order, fuel)
  }

  /** The row-major listing of the visited cells is a list of open cells
      of the floor, holding the guard's cell, and no longer than the map
      has cells. */
  lemma {:induction false} Candidates(p: Puzzle, fuel: nat, visited: map<Pos, Direction>, walked: Puzzle)
    requires Valid(p) && CellAt(p.cells, p.start) != Obstacle
    requires VisitedPosition(p, fuel) == Some((visited, walked))
    ensures Valid(walked) && CellAt(walked.cells, walked.start) != Obstacle && walked.start == p.start
    ensures FloorOf(walked.cells) == FloorOf(p.cells)
    ensures forall q :: q in Scan(visited.Keys, |p.cells|, |p.cells[0]|, 0, 0) <==> q in visited
    ensures forall q :: q in Scan(visited.Keys, |p.cells|, |p.cells[0]|, 0, 0) ==>
      Inside(FloorOf(walked.cells), q) && q !in FloorOf(walked.cells).walls
    ensures p.current in Scan(visited.Keys, |p.cells|, |p.cells[0]|, 0, 0)
    ensures |Scan(visited.Keys, |p.cells|, |p.cells[0]|, 0, 0)| <= |p.cells| * |p.cells[0]|
  {
    var order := Scan(visited.Keys, |p.cells|, |p.cells[0]|, 0, 0);
    VisitedCellsOpen(p, fuel);
    FloorOfCells(p.cells);
    FloorOfCells(walked.cells);
    NoDuplicatesCard(order);
    assert (set q | q in order) == visited.Keys;
    InBoxBound(|p.cells|, |p.cells[0]|, visited.Keys);
  }

  /** `part1` counts the cells of the guard's route. */
  lemma {:induction false} Part1Route(p: Puzzle, fuel: nat)
    requires Valid(p) && Part1(p, fuel).Some?
    ensures Escapes(FloorOf(p.cells), GuardOf(p))
    ensures Part1(p, fuel).value.0 == |Route(FloorOf(p.cells), GuardOf(p))|
  {
    VisitedPositionIsPatrol(p, fuel);
    assert VisitedPosition(p, fuel).value.0.Keys == Route(FloorOf(p.cells), GuardOf(p));
  }

  /** `part2` counts the cells of the guard's route, other than its start,
      on which one extra obstacle traps a guard that starts there facing
      up. */
  lemma {:induction false} Part2Route(p: Puzzle, fuel: nat)
    requires Valid(p) && CellAt(p.cells, p.start) != Obstacle && Part2(p, fuel).Some?
    ensures Escapes(FloorOf(p.cells), GuardOf(p))
    ensures Part2(p, fuel).value.0 == |Obstructions(FloorOf(p.cells), p.start, Route(FloorOf(p.cells), GuardOf(p)))|
  {
    var (visited, walked) := VisitedPosition(p, fuel).value;
    var order := Scan(visited.Keys, |p.cells|, |p.cells[0]|, 0, 0);
    Candidates(p, fuel, visited, walked);
    VisitedPositionIsPatrol(p, fuel);
    TrialsCount(walked, order, fuel);
    assert (set q | q in order) == Route(FloorOf(p.cells), GuardOf(p));
  }

  /** What the program prints, or why the model stops: the message of a
      thrown exception, a walk longer than the step budget, or `Ragged`,
      a map whose rows differ in length. `Ragged` is where this model ends,
      not the program: the walks bound `x` by the length of row 0 only, so
      the program runs on when every row is at least as long as row 0, and
      reads past the end of a shorter row when the guard reaches it. */
  datatype Outcome = Failed(message: string) | Ragged | OutOfFuel | Answers(first: nat, second: nat)

  /** A loaded puzzle is valid once its rows line up: the guard stands on
      its start, which is no obstacle. */
  lemma {:induction false} LoadValid(input: string)
    requires Load(input).Ok? && Rectangular(Load(input).value.cells)
    ensures Valid(Load(input).value) && CellAt(Load(input).value.cells, Load(input).value.start) == Guard
  {
    var p := Load(input).value;
    var s := StartPosition(p.cells).value;
    assert s == p.start && p.current == s;
    assert |p.cells[s.y]| == |p.cells[0]|;
  }

  /** `main`: load the puzzle, print `part1`, reset the guard, print
      `part2`. */
  function Program(input: string, fuel: nat): (r: Outcome)
    ensures r.Failed? <==> Load(input).Err?
    ensures r.Failed? ==> r.message == InvalidCharacter || r.message == GuardNotFound
    ensures r.Ragged? <==> Load(input).Ok? && !Rectangular(Load(input).value.cells)
  {
    match Load(input)
    case Err(e) => Failed(e)
    case Ok(p) =>
      if !Rectangular(p.cells) then Ragged
      else
        LoadValid(input);
        match Part1(p, fuel)
        case None => OutOfFuel
        case Some((first, walked)) =>
          FloorOfCells(p.cells);
          FloorOfCells(walked.cells);
          ResetKeepsFloor(walked);
          match Part2(Reset(walked), fuel)
          case None => OutOfFuel
          case Some((second, _)) => Answers(first, second)
  }

  /** The two answers: the size of the route the guard takes with its
      parsed heading, and the number of cells of the route it takes from
      the same start facing up on which one obstacle traps it. */
  lemma {:induction false} ProgramAnswers(input: string, fuel: nat)
    requires Program(input, fuel).Answers?
    ensures Load(input).Ok? && Rectangular(Load(input).value.cells)
    ensures var p := Load(input).value;
      var f := FloorOf(p.cells);
      && Escapes(f, At(p.start, p.direction))
      && Program(input, fuel).first == |Route(f, At(p.start, p.direction))|
      && Escapes(f, At(p.start, Up))
      && Program(input, fuel).second == |Obstructions(f, p.start, Route(f, At(p.start, Up)))|
  {
    var p := Load(input).value;
    LoadValid(input);
    Part1Route(p, fuel);
    var walked := Part1(p, fuel).value.1;
    FloorOfCells(p.cells);
    FloorOfCells(walked.cells);
    ResetKeepsFloor(walked);
    Part2Route(Reset(walked), fuel);
  }
}

=== FILE: decimal.dfy ===
/** Decimal text of natural numbers, as Python's `str` and `int` produce
    and read it for non-negative integers. */
module Decimal {
  /** `10^k`. */
  function Pow10(k: nat): (r: nat)
    ensures r >= 1
  {
    if k == 0 then 1 else 10 * Pow10(k - 1)
  }

  predicate IsDigit(c: char)
  {
    '0' <= c <= '9'
  }

  predicate AllDigits(s: string)
  {
    forall i :: 0 <= i < |s| ==> IsDigit(s[i])
  }

  /** The value of one digit character. */
  function DigitValue(c: char): (d: nat)
    requires IsDigit(c)
    ensures d < 10
  {
    (c - '0') as nat
  }

  /** The digit character of a value below 10. */
  function DigitChar(d: nat): (c: char)
    requires d < 10
    ensures IsDigit(c) && DigitValue(c) == d
  {
    ('0' as int + d) as char
  }

  /** `str(n)`: the digits of `n`, most significant first, without
      leading zeros. */
  function Show(n: nat): (r: string)
    ensures |r| >= 1 && AllDigits(r)
    ensures |r| > 1 ==> r[0] != '0'
  {
    if n < 10 then [DigitChar(n)] else Show(n / 10) + [DigitChar(n % 10)]
  }

  /** `int(s)` for a string of digits; leading zeros are allowed, as in
      Python. */
  function Parse(s: string): nat
    requires AllDigits(s)
  {
    if |s| == 0 then 0 else Parse(s[..|s| - 1]) * 10 + DigitValue(s[|s| - 1])
  }

  /** Reading the text of `n` gives `n` back. */
  lemma {:induction false} ParseShow(n: nat)
    ensures Parse(Show(n)) == n
    decreases n
  {
    if n >= 10 {
      ParseShow(n / 10);
      var s := Show(n);
      assert s[..|s| - 1] == Show(n / 10);
    }
  }

  /** `n` has exactly `|Show(n)|` digits: it lies between `10^(d-1)` and
      `10^d`, and 0 is the only one-digit number written "0". */
  lemma {:induction false} ShowLength(n: nat)
    ensures n < Pow10(|Show(n)|)
    ensures n >= 1 ==> Pow10(|Show(n)| - 1) <= n
    decreases n
  {
    if n >= 10 {
      ShowLength(n / 10);
    }
  }

  /** A string of `k` digits reads as less than `10^k`. */
  lemma {:induction false} ParseBound(s: string)
    requires AllDigits(s)
    ensures Parse(s) < Pow10(|s|)
    decreases |s|
  {
    if |s| > 0 {
      ParseBound(s[..|s| - 1]);
    }
  }

  /** Cutting a digit string after `k` digits: the front is worth
      `10^(|s|-k)` times its own value. */
  lemma {:induction false} ParseSplit(s: string, k: nat)
    requires AllDigits(s) && k <= |s|
    ensures Parse(s) == Parse(s[..k]) * Pow10(|s| - k) + Parse(s[k..])
    decreases |s|
  {
    if k < |s| {
      var n := |s| - 1;
      ParseSplit(s[..n], k);
      assert s[..n][..k] == s[..k];
      assert s[k..][..|s[k..]| - 1] == s[..n][k..];
      var a, b := Parse(s[..k]), Parse(s[..n][k..]);
      assert Parse(s[..n]) == a * Pow10(n - k) + b;
      assert Pow10(|s| - k) == 10 * Pow10(n - k);
      ShiftDigit(a, Pow10(n - k), b);
    } else {
      assert s[..k] == s;
    }
  }

  /** The remainder of the split is the lower digits: `Parse(s[..k])` is
      `Parse(s) / 10^(|s|-k)` and `Parse(s[k..])` the remainder. */
  lemma {:induction false} SplitDivMod(s: string, k: nat)
    requires AllDigits(s) && k <= |s|
    ensures Parse(s[..k]) == Parse(s) / Pow10(|s| - k)
    ensures Parse(s[k..]) == Parse(s) % Pow10(|s| - k)
  {
    ParseSplit(s, k);
    ParseBound(s[k..]);
    var p := Pow10(|s| - k);
    DivModUnique(Parse(s), p, Parse(s[..k]), Parse(s[k..]));
  }

  lemma {:induction false} DivModUnique(n: nat, p: nat, q: nat, r: nat)
    requires p > 0 && r < p && n == q * p + r
    ensures q == n / p && r == n % p
  {
    var q0, r0 := n / p, n % p;
    assert n == q0 * p + r0;
    if q > q0 {
      assert (q0 + 1) * p == q0 * p + p;
      MulMono(q0 + 1, q, p);
    } else if q < q0 {
      assert (q + 1) * p == q * p + p;
      MulMono(q + 1, q0, p);
    }
  }

  lemma {:induction false} ShiftDigit(a: int, p: int, b: int)
    ensures (a * p + b) * 10 == a * (10 * p) + b * 10
  {
  }

  lemma {:induction false} MulMono(a: int, b: int, p: nat)
    requires a <= b
    ensures a * p <= b * p
  {
    assert b * p - a * p == (b - a) * p;
  }
}

=== FILE: disk_map.dfy ===
/** The disk map of python/day09.py. The digits of the map alternately give
    the length of a file and of the free space after it. The map is
    expanded block by block; `part1` moves file blocks one at a time from
    the back into the leftmost free blocks; the checksum weighs every file
    block by its position. */
module DiskMap {
  import opened Basics
  import opened Decimal

  /** One block of the expanded disk: part of the file numbered `id`, or
      free (the source's "."). */
  datatype Block = File(id: nat) | Free

  /** `[b] * d`. */
  function Repeat<T>(b: T, d: nat): (r: seq<T>)
    ensures |r| == d
    ensures forall i :: 0 <= i < d ==> r[i] == b
  {
    if d == 0 then [] else Repeat(b, d - 1) + [b]
  }

  /** `[b] * d` holds `d` copies of `b` and nothing else. */
  lemma {:induction false} RepeatCount<T>(b: T, d: nat, c: T)
    ensures multiset(Repeat(b, d))[c] == if c == b then d else 0
    decreases d
  {
    if d > 0 {
      RepeatCount(b, d - 1, c);
    }
  }

  /** Sum of the digits of the map. */
  function DigitSum(data: string): nat
    requires AllDigits(data)
  {
    if |data| == 0 then 0 else DigitSum(data[..|data| - 1]) + DigitValue(data[|data| - 1])
  }

  // ---------------------------------------------------------------------
  // Expansion

  /** The blocks that digit number `i` of the map stands for: a run of the
      file numbered `i / 2` at an even position, free blocks at an odd
      one. */
  function Run(i: nat, d: nat): seq<Block>
  {
    if i % 2 == 0 then Repeat(File(i / 2), d) else Repeat(Free, d)
  }

  /** The expanded disk, digit by digit. */
  function Expand(data: string): seq<Block>
    requires AllDigits(data)
  {
    if |data| == 0 then []
    else
      var n := |data| - 1;
      Expand(data[..n]) + Run(n, DigitValue(data[n]))
  }

  /** `uncompress_memory`: the loop keeps `isFile` and `file_id` and
      appends a run per character; `int(char)` raises ValueError, here
      `None`, on a character that is not a digit. */
  method UncompressMemory(data: string) returns (r: Option<seq<Block>>)
    ensures r.Some? <==> AllDigits(data)
    ensures r.Some? ==> r.value == Expand(data)
  {
    var memory: seq<Block> := [];
    var fileId: nat := 0;
    var isFile := true;
    var k := 0;
    while k < |data|
      invariant k <= |data| && AllDigits(data[..k])
      invariant memory == Expand(data[..k])
      invariant isFile <==> k % 2 == 0
      invariant fileId == (k + 1) / 2
    {
      var c := data[k];
      if !IsDigit(c) {
        return None;
      }
      ExpandStep(data, k);
      memory, isFile, fileId := AppendRun(memory, isFile, fileId, k, DigitValue(c));
      k := k + 1;
    }
    assert data[..k] == data;
    return Some(memory);
  }

  /** The body of the loop of `uncompress_memory` for digit number `k`,
      of value `d`: the run of the current file or of free blocks. */
  method AppendRun(memory: seq<Block>, isFile: bool, fileId: nat, ghost k: nat, d: nat)
    returns (memory': seq<Block>, isFile': bool, fileId': nat)
    requires isFile <==> k % 2 == 0
    requires fileId == (k + 1) / 2
    ensures memory' == memory + Run(k, d)
    ensures (isFile' <==> (k + 1) % 2 == 0) && fileId' == (k + 2) / 2
  {
    if isFile {
      memory' := memory + Repeat(File(fileId), d);
      isFile' := false;
      fileId' := fileId + 1;
    } else {
      memory' := memory + Repeat(Free, d);
      isFile' := true;
      fileId' := fileId;
    }
  }

  /** Expanding one more digit appends its run. */
  lemma {:induction false} ExpandStep(data: string, k: nat)
    requires k < |data| && AllDigits(data[..k]) && IsDigit(data[k])
    ensures AllDigits(data[..k + 1])
    ensures Expand(data[..k + 1]) == Expand(data[..k]) + Run(k, DigitValue(data[k]))
  {
    assert data[..k + 1][..k] == data[..k];
  }

  /** The expanded disk has one block per unit of the digit sum. */
  lemma {:induction false} ExpandLength(data: string)
    requires AllDigits(data)
    ensures |Expand(data)| == DigitSum(data)
    decreases |data|
  {
    if |data| > 0 {
      ExpandLength(data[..|data| - 1]);
    }
  }

  /** File `k` has as many blocks as digit `2k` says, and none when the
      map has no digit `2k`. */
  lemma {:induction false} ExpandFileBlocks(data: string, k: nat)
    requires AllDigits(data)
    ensures multiset(Expand(data))[File(k)] == if 2 * k < |data| then DigitValue(data[2 * k]) else 0
    decreases |data|
  {
    if |data| > 0 {
      var n := |data| - 1;
      var front := data[..n];
      assert AllDigits(front);
      var a, r := Expand(front), Run(n, DigitValue(data[n]));
      assert Expand(data) == a + r;
      assert multiset(a + r) == multiset(a) + multiset(r);
      ExpandFileBlocks(front, k);
      RunFileBlocks(n, DigitValue(data[n]), k);
      if 2 * k < n {
        assert front[2 * k] == data[2 * k];
        assert multiset(r)[File(k)] == 0;
      } else if 2 * k == n {
        assert multiset(a)[File(k)] == 0;
      } else {
        assert multiset(a)[File(k)] == 0 && multiset(r)[File(k)] == 0;
      }
    }
  }

  /** The run of digit `n` holds blocks of file `k` only when `n` is `2k`. */
  lemma {:induction false} RunFileBlocks(n: nat, d: nat, k: nat)
    ensures multiset(Run(n, d))[File(k)] == if n == 2 * k then d else 0
  {
    if n % 2 == 0 {
      RepeatCount(File(n / 2), d, File(k));
    } else {
      RepeatCount(Free, d, File(k));
    }
  }

  /** The text of one block in the source's list: the file number, or ".". */
  function BlockText(b: Block): string
  {
    if b.File? then Show(b.id) else "."
  }

  /** `"".join(memory)`. */
  function Join(m: seq<Block>): string
  {
    if |m| == 0 then "" else Join(m[..|m| - 1]) + BlockText(m[|m| - 1])
  }

  /** Joining two parts of a disk joins their texts. */
  lemma {:induction false} JoinConcat(a: seq<Block>, b: seq<Block>)
    ensures Join(a + b) == Join(a) + Join(b)
    decreases |b|
  {
    if |b| > 0 {
      var n := |b| - 1;
      assert (a + b)[..|a + b| - 1] == a + b[..n];
      JoinConcat(a, b[..n]);
    } else {
      assert a + b == a;
    }
  }

  // ---------------------------------------------------------------------
  // Checksum

  /** Sum of position times file number over the file blocks of `m`. */
  function Weight(m: seq<Block>): nat
  {
    if |m| == 0 then 0
    else Weight(m[..|m| - 1]) + if m[|m| - 1].File? then (|m| - 1) * m[|m| - 1].id else 0
  }

  /** Position of the first free block: `memory.index(".")`. */
  function FirstFree(m: seq<Block>): (i: nat)
    requires Free in m
    ensures i < |m| && m[i] == Free
    ensures forall j :: 0 <= j < i ==> m[j].File?
  {
    if m[0] == Free then 0 else assert Free in m[1..]; 1 + FirstFree(m[1..])
  }

  /** `calculate_checksum`: the weight of the blocks before the first free
      one, each file block read back by `int` as its number. `index`
      raises ValueError, here `None`, when no block is free. */
  function Checksum(m: seq<Block>): (r: Option<nat>)
    ensures r.None? <==> Free !in m
  {
    if Free !in m then None else Some(Weight(m[..FirstFree(m)]))
  }

  /** No file block follows a free one. */
  predicate Compacted(m: seq<Block>)
  {
    forall i, j :: 0 <= i < j < |m| && m[i].Free? ==> m[j].Free?
  }

  /** Free blocks at the end weigh nothing. */
  lemma {:induction false} WeightFreeTail(m: seq<Block>, k: nat)
    requires k <= |m|
    requires forall j :: k <= j < |m| ==> m[j].Free?
    ensures Weight(m) == Weight(m[..k])
    decreases |m|
  {
    if |m| > k {
      WeightFreeTail(m[..|m| - 1], k);
      assert m[..|m| - 1][..k] == m[..k];
    } else {
      assert m[..k] == m;
    }
  }

  /** On a compacted disk with a free block, the checksum weighs every
      file block. */
  lemma {:induction false} ChecksumOfCompacted(m: seq<Block>)
    requires Compacted(m) && Free in m
    ensures Checksum(m) == Some(Weight(m))
  {
    WeightFreeTail(m, FirstFree(m));
  }

  // ---------------------------------------------------------------------
  // Compaction

  /** Some block of `m` belongs to a file. */
  predicate HasFile(m: seq<Block>)
  {
    exists b :: b in m && b.File?
  }

  /** The `while start < end` loop of `part1`, one pass per call, from
      cursors with only files before `start` and only free blocks after
      `end`. `after` is the list as the loop leaves it. `raised` tells that
      the loop raised IndexError: in its first pass `start` runs off the
      end when no block is free, and `end` walks on through negative
      positions, which Python reads from the back, and then off the list
      when no block holds a file. */
  method Cursors(m: seq<Block>, start: nat, end: int) returns (after: seq<Block>, raised: bool)
    requires start <= |m| && -1 <= end < |m|
    requires forall i :: 0 <= i < start ==> m[i].File?
    requires forall i :: end < i < |m| ==> m[i].Free?
    ensures multiset(after) == multiset(m)
    ensures Compacted(after) && after == Compact(m)
    ensures raised <==> start < end && (Free !in m || !HasFile(m))
    decreases end - start + if start < |m| && m[start].Free? then 1 else 0
  {
    if start >= end {
      CompactedAt(m, if start < |m| && m[start].File? then start + 1 else start);
      return m, false;
    }
    var n, s, e := Exchange(m, start, end);
    if s == |m| || e < 0 {
      return m, true;
    }
    if s >= e {
      return m, false;
    }
    after, raised := Cursors(n, s, e);
  }

  /** One pass of the cursor loop: `start` moves to the leftmost free
      block and `end` to the rightmost file block, and the two blocks are
      exchanged unless they have met. `s == |m|` tells that `start` ran
      off the end and `e < 0` that `end` did; in these cases and when the
      cursors have met the list is left as it was, already compacted. */
  method Exchange(m: seq<Block>, start: nat, end: nat) returns (n: seq<Block>, s: nat, e: int)
    requires start < end < |m|
    requires forall i :: 0 <= i < start ==> m[i].File?
    requires forall i :: end < i < |m| ==> m[i].Free?
    ensures start <= s <= |m| && -1 <= e <= end
    ensures s == |m| ==> n == m && Free !in m && Compacted(m) && Compact(m) == m
    ensures s < |m| && e < 0 ==> n == m && !HasFile(m) && Compacted(m) && Compact(m) == m
    ensures s < |m| && e >= 0 ==> Free in m && HasFile(m)
    ensures s < |m| && 0 <= e <= s ==> n == m && Compacted(m) && Compact(m) == m
    ensures s < |m| && 0 <= e && s < e ==> m[s].Free? && n == Swap(m, s, e) && n[s].File?
    ensures s < |m| && 0 <= e && s < e ==> Compact(n) == Compact(m) && multiset(n) == multiset(m)
    ensures s < |m| && 0 <= e && s < e ==> forall i :: 0 <= i < s ==> n[i].File?
    ensures s < |m| && 0 <= e && s < e ==> forall i :: e < i < |n| ==> n[i].Free?
  {
    n, e := m, end;
    s := SkipFiles(m, start);
    if s == |m| {
      assert Free !in m;
      CompactedAt(m, |m|);
      return;
    }
    e := SkipFree(m, end);
    if e < 0 {
      assert !HasFile(m) by {
        forall b | b in m ensures b.Free? {
          var i :| 0 <= i < |m| && m[i] == b;
        }
      }
      CompactedAt(m, 0);
      return;
    }
    assert m[s] in m && m[e] in m;
    if s < e {
      SwapKeepsCompact(m, s, e);
      n := Swap(m, s, e);
    } else {
      CompactedAt(m, s);
    }
  }

  /** `part1`: `start` looks for the leftmost free block, `end` for the
      rightmost file block, and the two are exchanged until they meet;
      then the checksum of the list the loop leaves, which is `after`.
      IndexError from the loop and ValueError from the checksum, raised
      when no block is free, are both `None`. */
  method Part1(memory: seq<Block>) returns (r: Option<nat>, after: seq<Block>)
    ensures multiset(after) == multiset(memory)
    ensures Compacted(after)
    ensures r.None? <==> Free !in memory || (|memory| >= 2 && !HasFile(memory))
    ensures r.Some? ==> r == Some(Weight(after))
    ensures after == Compact(memory)
  {
    var raised;
    after, raised := Cursors(memory, 0, |memory| - 1);
    if raised {
      return None, after;
    }
    r := Checksum(after);
    if Free in after {
      ChecksumOfCompacted(after);
    } else {
      assert Free !in multiset(memory);
    }
  }

  /** `while memory[start] != "."`: the first free block from `start` on,
      or the length when there is none (where the source raises
      IndexError). */
  method SkipFiles(m: seq<Block>, start: nat) returns (i: nat)
    requires start <= |m|
    ensures start <= i <= |m|
    ensures forall k :: start <= k < i ==> m[k].File?
    ensures i < |m| ==> m[i].Free?
  {
    i := start;
    while i < |m| && m[i].File?
      invariant start <= i <= |m|
      invariant forall k :: start <= k < i ==> m[k].File?
    {
      i := i + 1;
    }
  }

  /** `while not memory[end].isdigit()`: the last file block at or before
      `end`, or -1 when there is none. */
  method SkipFree(m: seq<Block>, end: int) returns (j: int)
    requires -1 <= end < |m|
    ensures -1 <= j <= end
    ensures forall k :: j < k <= end ==> m[k].Free?
    ensures j >= 0 ==> m[j].File?
  {
    j := end;
    while j >= 0 && m[j].Free?
      invariant -1 <= j <= end
      invariant forall k :: j < k <= end ==> m[k].Free?
    {
      j := j - 1;
    }
  }

  // ---------------------------------------------------------------------
  // The compacted disk, stated without the two cursors

  /** The file blocks of `m`, from the last to the first. */
  function FilesBackwards(m: seq<Block>): (r: seq<Block>)
    ensures |r| <= |m|
  {
    if |m| == 0 then []
    else (if m[|m| - 1].File? then [m[|m| - 1]] else []) + FilesBackwards(m[..|m| - 1])
  }

  /** `m` with its free blocks, from the left, replaced one by one by the
      blocks of `r` for as long as these last. */
  function Fill(m: seq<Block>, r: seq<Block>): (f: seq<Block>)
    ensures |f| == |m|
  {
    if |m| == 0 then []
    else if m[0].Free? && |r| > 0 then [r[0]] + Fill(m[1..], r[1..])
    else [m[0]] + Fill(m[1..], r)
  }

  /** The disk once every file block has been moved as far left as it
      goes, the rightmost first. With `f` file blocks in all, a file block
      among the first `f` positions stays where it is, the free blocks
      among them receive the file blocks found from position `f` on, the
      last of those first, and every block from `f` on is free. */
  function Compact(m: seq<Block>): (c: seq<Block>)
    ensures |c| == |m|
  {
    var f := |FilesBackwards(m)|;
    Fill(m[..f], FilesBackwards(m[f..])) + Repeat(Free, |m| - f)
  }

  /** Collecting backwards over two pieces takes the second piece first. */
  lemma {:induction false} FilesBackwardsConcat(a: seq<Block>, b: seq<Block>)
    ensures FilesBackwards(a + b) == FilesBackwards(b) + FilesBackwards(a)
    decreases |b|
  {
    if |b| == 0 {
      assert a + b == a;
    } else {
      var c, x := b[..|b| - 1], b[|b| - 1];
      var t := if x.File? then [x] else [];
      FilesBackwardsConcat(a, c);
      calc {
        FilesBackwards(a + b);
        { assert (a + b)[..|a + b| - 1] == a + c && (a + b)[|a + b| - 1] == x; }
        t + FilesBackwards(a + c);
        t + (FilesBackwards(c) + FilesBackwards(a));
        (t + FilesBackwards(c)) + FilesBackwards(a);
        FilesBackwards(b) + FilesBackwards(a);
      }
    }
  }

  /** The same around one block. */
  lemma {:induction false} FilesBackwardsAround(x: seq<Block>, b: Block, y: seq<Block>)
    ensures FilesBackwards(x + [b] + y) == FilesBackwards(y) + (if b.File? then [b] else []) + FilesBackwards(x)
  {
    FilesBackwardsConcat(x + [b], y);
    FilesBackwardsConcat(x, [b]);
    assert [b][..0] == [];
  }

  /** Free blocks hold no file block. */
  lemma {:induction false} FreeHoldsNoFiles(a: seq<Block>)
    requires forall i :: 0 <= i < |a| ==> a[i].Free?
    ensures FilesBackwards(a) == []
    decreases |a|
  {
    if |a| > 0 {
      FreeHoldsNoFiles(a[..|a| - 1]);
    }
  }

  /** File blocks are all collected. */
  lemma {:induction false} FilesAllCollected(a: seq<Block>)
    requires forall i :: 0 <= i < |a| ==> a[i].File?
    ensures |FilesBackwards(a)| == |a|
    decreases |a|
  {
    if |a| > 0 {
      FilesAllCollected(a[..|a| - 1]);
    }
  }

  /** Filling passes over leading file blocks untouched. */
  lemma {:induction false} FillAfterFiles(a: seq<Block>, b: seq<Block>, r: seq<Block>)
    requires forall i :: 0 <= i < |a| ==> a[i].File?
    ensures Fill(a + b, r) == a + Fill(b, r)
    decreases |a|
  {
    if |a| == 0 {
      assert a + b == b;
    } else {
      assert (a + b)[1..] == a[1..] + b;
      FillAfterFiles(a[1..], b, r);
    }
  }

  /** Files up to `k` and free blocks from `k` on: the disk is compacted,
      and it is its own compaction. */
  lemma {:induction false} CompactedAt(m: seq<Block>, k: nat)
    requires k <= |m|
    requires forall i :: 0 <= i < k ==> m[i].File?
    requires forall i :: k <= i < |m| ==> m[i].Free?
    ensures Compacted(m) && Compact(m) == m
  {
    var a, b := m[..k], m[k..];
    assert m == a + b;
    FilesAllCollected(a);
    FreeHoldsNoFiles(b);
    FilesBackwardsConcat(a, b);
    FillAfterFiles(a, [], []);
    assert a + [] == a;
    assert Repeat(Free, |m| - k) == b;
  }

  /** A disk that is already compacted is its own compaction. */
  lemma {:induction false} CompactOfCompacted(m: seq<Block>)
    requires Compacted(m)
    ensures Compact(m) == m
  {
    var k := if Free in m then FirstFree(m) else |m|;
    forall i | 0 <= i < k
      ensures m[i].File?
    {
      if Free !in m {
        assert m[i] in m;
      }
    }
    forall j | k <= j < |m|
      ensures m[j].Free?
    {
      assert m[k].Free?;
    }
    CompactedAt(m, k);
  }

  /** The first `s` blocks are files, `m[s]` is free and `m[e]` is a file
      with only free blocks after it: the disk then has more than `s` and
      at most `e` file blocks, as many as once the two are exchanged. */
  lemma {:induction false} SwapCount(m: seq<Block>, s: nat, e: nat)
    requires s < e < |m| && m[s].Free? && m[e].File?
    requires forall i :: 0 <= i < s ==> m[i].File?
    requires forall i :: e < i < |m| ==> m[i].Free?
    ensures s < |FilesBackwards(m)| <= e
    ensures |FilesBackwards(Swap(m, s, e))| == |FilesBackwards(m)|
  {
    var n := Swap(m, s, e);
    var a, mid, z := m[..s], m[s + 1..e], m[e + 1..];
    assert m == a + [m[s]] + (mid + [m[e]] + z);
    assert n == a + [m[e]] + (mid + [m[s]] + z);
    FilesAllCollected(a);
    FreeHoldsNoFiles(z);
    FilesBackwardsAround(a, m[s], mid + [m[e]] + z);
    FilesBackwardsAround(mid, m[e], z);
    FilesBackwardsAround(a, m[e], mid + [m[s]] + z);
    FilesBackwardsAround(mid, m[s], z);
  }

  /** From position `f` on, where `s < f <= e`, the exchange frees the
      last file block and changes nothing else. */
  lemma {:induction false} SwapTail(m: seq<Block>, s: nat, e: nat, f: nat)
    requires s < f <= e < |m| && m[s].Free? && m[e].File?
    requires forall i :: e < i < |m| ==> m[i].Free?
    ensures FilesBackwards(m[f..]) == [m[e]] + FilesBackwards(Swap(m, s, e)[f..])
  {
    var n := Swap(m, s, e);
    var x, z := m[f..e], m[e + 1..];
    FreeHoldsNoFiles(z);
    assert m[f..] == x + [m[e]] + z;
    assert n[f..] == x + [n[e]] + z;
    FilesBackwardsAround(x, m[e], z);
    FilesBackwardsAround(x, n[e], z);
  }

  /** Below position `f`, where `s < f <= e`, the exchange fills the
      first free block with the last file block. */
  lemma {:induction false} SwapHead(m: seq<Block>, s: nat, e: nat, f: nat, r: seq<Block>)
    requires s < f <= e < |m| && m[s].Free? && m[e].File?
    requires forall i :: 0 <= i < s ==> m[i].File?
    ensures Fill(m[..f], [m[e]] + r) == Fill(Swap(m, s, e)[..f], r)
  {
    var n := Swap(m, s, e);
    var a, rest := m[..s], m[s + 1..f];
    assert m[..f] == a + ([m[s]] + rest);
    assert n[..f] == (a + [m[e]]) + rest;
    FillAfterFiles(a, [m[s]] + rest, [m[e]] + r);
    assert ([m[s]] + rest)[1..] == rest;
    FillAfterFiles(a + [m[e]], rest, r);
  }

  /** Exchanging the leftmost free block with the rightmost file block,
      when the free one comes first, leaves the compaction unchanged. */
  lemma {:induction false} SwapKeepsCompact(m: seq<Block>, s: nat, e: nat)
    requires s < e < |m| && m[s].Free? && m[e].File?
    requires forall i :: 0 <= i < s ==> m[i].File?
    requires forall i :: e < i < |m| ==> m[i].Free?
    ensures Compact(Swap(m, s, e)) == Compact(m)
  {
    var n := Swap(m, s, e);
    SwapCount(m, s, e);
    var f := |FilesBackwards(m)|;
    SwapTail(m, s, e, f);
    SwapHead(m, s, e, f, FilesBackwards(n[f..]));
  }

  /** Two files with a gap of two after the first: both blocks of file 1
      move into the gap, and the checksum is 3. */
  lemma {:induction false} CompactSample()
    ensures Compact([File(0), Free, Free, File(1), File(1)]) == [File(0), File(1), File(1), Free, Free]
    ensures Weight([File(0), File(1), File(1), Free, Free]) == 3
  {
    var m, c := [File(0), Free, Free, File(1), File(1)], [File(0), File(1), File(1), Free, Free];
    var h, t := [File(0), Free, Free], [File(1), File(1)];
    assert FilesBackwards(h) == [File(0)] by {
      assert h[..2][..1] == [File(0)] && [File(0)][..0] == [];
    }
    assert FilesBackwards(t) == [File(1), File(1)] by {
      assert t[..1] == [File(1)] && [File(1)][..0] == [];
    }
    assert |FilesBackwards(m)| == 3 by {
      assert m == h + t;
      FilesBackwardsConcat(h, t);
    }
    assert Fill(h, t) == [File(0), File(1), File(1)] by {
      assert h[1..] == [Free, Free] && h[1..][1..] == [Free];
    }
    assert Compact(m) == c by {
      assert m[..3] == h && m[3..] == t;
      assert Repeat(Free, 2) == [Free, Free];
    }
    assert Weight(c[..3]) == 3 by {
      var w1, w2 := [File(0)], [File(0), File(1)];
      assert w1[..0] == [];
      assert Weight(w1) == 0;
      assert w2[..1] == w1;
      assert Weight(w2) == 1;
      assert c[..3][..2] == w2;
    }
    WeightFreeTail(c, 3);
  }

  // ---------------------------------------------------------------------
  // Sectors

  datatype SectorKind = FileSector | Blank

  /** A run of blocks: `Sector` of the source. Blank sectors carry no
      file number. */
  datatype Sector = Sector(kind: SectorKind, start: nat, len: nat, id: Option<nat>)

  /** The variables of the loop of `get_memory_sectors` after a prefix of
      the map. */
  datatype SectorScan = SectorScan(sectors: seq<Sector>, isFile: bool, fileId: nat, startIdx: nat)

  /** The loop of `get_memory_sectors` over `data`. With `skipZeros` a zero
      digit is passed over by `continue`, as the source does, so the next
      digit takes its turn; without it a zero digit adds no sector but
      still switches between file and blank and uses up a file number. */
  function ScanSectors(data: string, skipZeros: bool): SectorScan
    requires AllDigits(data)
  {
    if |data| == 0 then SectorScan([], true, 0, 0)
    else
      var n := |data| - 1;
      ScanStep(ScanSectors(data[..n], skipZeros), DigitValue(data[n]), skipZeros)
  }

  /** One turn of the loop, for a digit `d`. */
  function ScanStep(s: SectorScan, d: nat, skipZeros: bool): SectorScan
  {
    if d == 0 && skipZeros then s
    else
      var added := if d == 0 then [] else [NewSector(s, d)];
      SectorScan(s.sectors + added, !s.isFile, if s.isFile then s.fileId + 1 else s.fileId, s.startIdx + d)
  }

  /** The sector a turn of the loop appends for a digit `d`. */
  function NewSector(s: SectorScan, d: nat): Sector
  {
    if s.isFile then Sector(FileSector, s.startIdx, d, Some(s.fileId)) else Sector(Blank, s.startIdx, d, None)
  }

  /** `get_memory_sectors` as written; `int(char)` raises ValueError, here
      `None`, on a character that is not a digit. */
  function GetMemorySectors(data: string): (r: Option<seq<Sector>>)
    ensures r.Some? <==> AllDigits(data)
  {
    if AllDigits(data) then Some(ScanSectors(data, true).sectors) else None
  }

  /** `get_memory_sectors` with zero digits taking their turn. */
  function SectorsFixed(data: string): (r: Option<seq<Sector>>)
    ensures r.Some? <==> AllDigits(data)
  {
    if AllDigits(data) then Some(ScanSectors(data, false).sectors) else None
  }

  /** The sectors lie end to end from position 0: each one starts where
      the one before ends, and each is at least one block long. */
  predicate Contiguous(s: seq<Sector>, end: nat)
  {
    (forall i :: 0 <= i < |s| ==> s[i].len >= 1 && (s[i].kind == FileSector <==> s[i].id.Some?)) &&
    (|s| > 0 ==> s[0].start == 0 && s[|s| - 1].start + s[|s| - 1].len == end) &&
    (|s| == 0 ==> end == 0) &&
    (forall i :: 0 <= i < |s| - 1 ==> s[i + 1].start == s[i].start + s[i].len)
  }

  /** Either way the sectors are contiguous and cover the digit sum. */
  lemma {:induction false} ScanContiguous(data: string, skipZeros: bool)
    requires AllDigits(data)
    ensures ScanSectors(data, skipZeros).startIdx == DigitSum(data)
    ensures Contiguous(ScanSectors(data, skipZeros).sectors, DigitSum(data))
    decreases |data|
  {
    if |data| > 0 {
      var n := |data| - 1;
      ScanContiguous(data[..n], skipZeros);
      StepContiguous(ScanSectors(data[..n], skipZeros), DigitValue(data[n]), skipZeros);
    }
  }

  /** A turn of the loop appends a sector where the last one ends. */
  lemma {:induction false} StepContiguous(s: SectorScan, d: nat, skipZeros: bool)
    requires Contiguous(s.sectors, s.startIdx)
    ensures ScanStep(s, d, skipZeros).startIdx == s.startIdx + d
    ensures Contiguous(ScanStep(s, d, skipZeros).sectors, ScanStep(s, d, skipZeros).startIdx)
  {
    if d > 0 {
      var t := s.sectors + [NewSector(s, d)];
      assert t[..|s.sectors|] == s.sectors;
    } else {
      assert s.sectors + [] == s.sectors;
    }
  }

  /** As written, sectors alternate between file and blank, starting with
      a file, and the `k`-th file sector carries number `k`. */
  lemma {:induction false} ScanAlternates(data: string)
    requires AllDigits(data)
    ensures var s := ScanSectors(data, true);
      (s.isFile <==> |s.sectors| % 2 == 0) && s.fileId == (|s.sectors| + 1) / 2 &&
      forall i :: 0 <= i < |s.sectors| ==>
        (s.sectors[i].kind == FileSector <==> i % 2 == 0) &&
        (i % 2 == 0 ==> s.sectors[i].id == Some(i / 2))
    decreases |data|
  {
    if |data| > 0 {
      ScanAlternates(data[..|data| - 1]);
    }
  }

  /** The blocks a sector stands for. */
  function SectorBlocks(s: Sector): seq<Block>
  {
    if s.id.Some? then Repeat(File(s.id.value), s.len) else Repeat(Free, s.len)
  }

  /** The blocks of a list of sectors, one after another. */
  function Flatten(s: seq<Sector>): seq<Block>
  {
    if |s| == 0 then [] else Flatten(s[..|s| - 1]) + SectorBlocks(s[|s| - 1])
  }

  /** With zero digits taking their turn, the sectors describe exactly
      the expanded disk. */
  lemma {:induction false} ScanFixedExpands(data: string)
    requires AllDigits(data)
    ensures var s := ScanSectors(data, false);
      Flatten(s.sectors) == Expand(data) &&
      (s.isFile <==> |data| % 2 == 0) && s.fileId == (|data| + 1) / 2
    decreases |data|
  {
    if |data| > 0 {
      var n := |data| - 1;
      ScanFixedExpands(data[..n]);
      StepExpands(ScanSectors(data[..n], false), n, DigitValue(data[n]));
    }
  }

  /** A turn of the corrected loop for digit number `n` appends the run of
      that digit. */
  lemma {:induction false} StepExpands(s: SectorScan, n: nat, d: nat)
    requires (s.isFile <==> n % 2 == 0) && s.fileId == (n + 1) / 2
    ensures Flatten(ScanStep(s, d, false).sectors) == Flatten(s.sectors) + Run(n, d)
    ensures ScanStep(s, d, false).isFile <==> (n + 1) % 2 == 0
    ensures ScanStep(s, d, false).fileId == (n + 2) / 2
  {
    if d > 0 {
      var t := s.sectors + [NewSector(s, d)];
      assert t[..|s.sectors|] == s.sectors;
      assert SectorBlocks(NewSector(s, d)) == Run(n, d);
    } else {
      assert s.sectors + [] == s.sectors;
    }
  }

  /** The corrected sectors flatten to the expanded disk. */
  lemma {:induction false} SectorsFixedExpand(data: string)
    requires AllDigits(data)
    ensures Flatten(SectorsFixed(data).value) == Expand(data)
  {
    ScanFixedExpands(data);
  }

  /** A map without zero digits gets the same sectors either way, so then
      the sectors as written describe the expanded disk too. */
  lemma {:induction false} NoZerosAgree(data: string)
    requires AllDigits(data) && forall i :: 0 <= i < |data| ==> data[i] != '0'
    ensures ScanSectors(data, true) == ScanSectors(data, false)
    ensures Flatten(GetMemorySectors(data).value) == Expand(data)
    decreases |data|
  {
    SameScanWithoutZeros(data);
    ScanFixedExpands(data);
  }

  /** Without a zero digit, skipping zeros changes nothing. */
  lemma {:induction false} SameScanWithoutZeros(data: string)
    requires AllDigits(data) && forall i :: 0 <= i < |data| ==> data[i] != '0'
    ensures ScanSectors(data, true) == ScanSectors(data, false)
    decreases |data|
  {
    if |data| > 0 {
      var n := |data| - 1;
      var front := data[..n];
      assert AllDigits(front) && forall i :: 0 <= i < |front| ==> front[i] != '0';
      SameScanWithoutZeros(front);
      ScanUnfold(data, true);
      ScanUnfold(data, false);
      assert DigitValue(data[n]) != 0;
    }
  }

  /** "101" as written: the zero digit is skipped, so file 1 becomes a
      blank sector and the sectors disagree with the expanded disk. */
  lemma {:induction false} ZeroDigitSkipped()
    ensures GetMemorySectors("101") == Some([Sector(FileSector, 0, 1, Some(0)), Sector(Blank, 1, 1, None)])
    ensures Expand("101") == [File(0), File(1)]
    ensures Flatten(GetMemorySectors("101").value) != Expand("101")
  {
    SkippedSectors();
    ExpandOneZeroOne();
    SkippedSectorsBlank();
  }

  /** The second block of the skipped sectors is free. */
  lemma {:induction false} SkippedSectorsBlank()
    ensures var s2 := [Sector(FileSector, 0, 1, Some(0)), Sector(Blank, 1, 1, None)];
      |Flatten(s2)| == 2 && Flatten(s2)[1] == Free
  {
    var s2 := [Sector(FileSector, 0, 1, Some(0)), Sector(Blank, 1, 1, None)];
    assert Flatten(s2) == Flatten(s2[..1]) + Repeat(Free, 1);
    assert |Flatten(s2[..1])| == 1;
  }

  lemma {:induction false} SkippedSectors()
    ensures ScanSectors("101", true).sectors == [Sector(FileSector, 0, 1, Some(0)), Sector(Blank, 1, 1, None)]
  {
    ScanPrefixes();
    var s1 := [Sector(FileSector, 0, 1, Some(0))];
    var z1 := SectorScan(s1, false, 1, 1);
    ScanUnfold("1", true);
    assert ScanStep(SectorScan([], true, 0, 0), 1, true) == z1;
    ScanUnfold("10", true);
    ScanUnfold("101", true);
    assert ScanStep(z1, 1, true).sectors == s1 + [Sector(Blank, 1, 1, None)];
  }

  /** One turn of the loop on the last digit. */
  lemma {:induction false} ScanUnfold(data: string, skipZeros: bool)
    requires |data| > 0 && AllDigits(data)
    ensures ScanSectors(data, skipZeros) ==
      ScanStep(ScanSectors(data[..|data| - 1], skipZeros), DigitValue(data[|data| - 1]), skipZeros)
  {
  }

  lemma {:induction false} ExpandOneZeroOne()
    ensures Expand("101") == [File(0), File(1)]
  {
    ScanPrefixes();
    assert Repeat(File(0), 1) == [File(0)] && Repeat(File(1), 1) == [File(1)];
    assert Repeat(Free, 0) == [];
    var e1 := Expand("1");
    assert e1 == Expand("") + Run(0, 1);
    assert e1 == [File(0)];
    assert Expand("10") == e1 + Run(1, 0);
    assert Expand("10") == e1;
    assert Expand("101") == e1 + Run(2, 1);
  }

  /** With the zero digit taking its turn, "101" gives files 0 and 1. */
  lemma {:induction false} ZeroDigitTakesTurn()
    ensures SectorsFixed("101") == Some([Sector(FileSector, 0, 1, Some(0)), Sector(FileSector, 1, 1, Some(1))])
  {
    ScanPrefixes();
    var s1 := [Sector(FileSector, 0, 1, Some(0))];
    var z1 := SectorScan(s1, false, 1, 1);
    ScanUnfold("1", false);
    assert ScanStep(SectorScan([], true, 0, 0), 1, false) == z1;
    ScanUnfold("10", false);
    assert s1 + [] == s1;
    var z2 := SectorScan(s1, true, 1, 1);
    assert ScanStep(z1, 0, false) == z2;
    ScanUnfold("101", false);
    var z3 := ScanSectors("101", false);
    assert z3 == ScanStep(z2, 1, false);
    assert z3.sectors == s1 + [Sector(FileSector, 1, 1, Some(1))];
    assert s1 + [Sector(FileSector, 1, 1, Some(1))] == [Sector(FileSector, 0, 1, Some(0)), Sector(FileSector, 1, 1, Some(1))];
  }

  lemma {:induction false} ScanPrefixes()
    ensures "101"[..2] == "10" && "10"[..1] == "1" && "1"[..0] == ""
    ensures AllDigits("101") && AllDigits("10") && AllDigits("1")
    ensures DigitValue('1') == 1 && DigitValue('0') == 0
  {
  }

  // ---------------------------------------------------------------------
  // Sector text

  /** `t * n` for a string. */
  function Times(t: string, n: nat): string
  {
    if n == 0 then "" else Times(t, n - 1) + t
  }

  /** `Sector.__repr__` as written: `if self.id` is false for `None` and
      also for file number 0, which is then drawn as dots. */
  function ReprAsWritten(s: Sector): string
  {
    if s.id.Some? && s.id.value != 0 then Times(Show(s.id.value), s.len) else Times(".", s.len)
  }

  /** `Sector.__repr__` testing `self.id is not None`. */
  function Repr(s: Sector): string
  {
    if s.id.Some? then Times(Show(s.id.value), s.len) else Times(".", s.len)
  }

  /** The two `__repr__`s draw a sector alike exactly unless it is a
      sector of file 0 with at least one block. */
  lemma {:induction false} ReprAsWrittenAgrees(s: Sector)
    ensures ReprAsWritten(s) == Repr(s) <==> s.id != Some(0) || s.len == 0
  {
    if s.id == Some(0) && s.len > 0 {
      var k := s.len - 1;
      assert Show(0) == "0";
      assert ReprAsWritten(s)[k] == '.' by {
        TimesLast(".", s.len);
      }
      assert Repr(s)[k] == '0' by {
        TimesLast("0", s.len);
      }
    }
  }

  /** The last character of `t * n` is the last of `t`. */
  lemma {:induction false} TimesLast(t: string, n: nat)
    requires |t| == 1 && n > 0
    ensures |Times(t, n)| == n && Times(t, n)[n - 1] == t[0]
  {
    TimesLength(t, n);
  }

  lemma {:induction false} TimesLength(t: string, n: nat)
    ensures |Times(t, n)| == n * |t|
  {
    if n > 0 {
      TimesLength(t, n - 1);
    }
  }

  /** The text of a sector is the text of its blocks. */
  lemma {:induction false} ReprIsBlockText(s: Sector)
    ensures Repr(s) == Join(SectorBlocks(s))
  {
    var b := if s.id.Some? then File(s.id.value) else Free;
    RepeatText(b, s.len);
  }

  lemma {:induction false} RepeatText(b: Block, n: nat)
    ensures Join(Repeat(b, n)) == Times(BlockText(b), n)
    decreases n
  {
    if n > 0 {
      RepeatText(b, n - 1);
      assert Repeat(b, n)[..n - 1] == Repeat(b, n - 1);
    }
  }

  /** The sectors printed one after another. */
  function Render(s: seq<Sector>): string
  {
    if |s| == 0 then "" else Render(s[..|s| - 1]) + Repr(s[|s| - 1])
  }

  /** Printing the corrected sectors prints the joined expanded disk. */
  lemma {:induction false} RenderIsJoin(s: seq<Sector>)
    ensures Render(s) == Join(Flatten(s))
    decreases |s|
  {
    if |s| > 0 {
      var n := |s| - 1;
      RenderIsJoin(s[..n]);
      ReprIsBlockText(s[n]);
      JoinConcat(Flatten(s[..n]), SectorBlocks(s[n]));
    }
  }

  /** A map's corrected sectors print as its expanded disk. */
  lemma {:induction false} SectorsPrintDisk(data: string)
    requires AllDigits(data)
    ensures Render(SectorsFixed(data).value) == Join(Expand(data))
  {
    SectorsFixedExpand(data);
    RenderIsJoin(SectorsFixed(data).value);
  }

  /** File 0's sector of two blocks is drawn ".." as written, "00" with
      the `None` test, which is the text of its blocks. */
  lemma {:induction false} FileZeroDrawnBlank()
    ensures ReprAsWritten(Sector(FileSector, 0, 2, Some(0))) == ".."
    ensures Repr(Sector(FileSector, 0, 2, Some(0))) == "00"
    ensures Join(SectorBlocks(Sector(FileSector, 0, 2, Some(0)))) == "00"
  {
    assert Show(0) == "0";
    ReprIsBlockText(Sector(FileSector, 0, 2, Some(0)));
  }
}

=== FILE: locations.dfy ===
/** The two location lists of python/day01.py: the total distance between
    paired entries and the similarity score. */
module Locations {
  import opened Basics

  /** Reference definition of the distance: the gaps between `left[i]` and
      `right[i]` for every index of `left`, summed. */
  function Distance(left: seq<int>, right: seq<int>): (r: nat)
    requires |left| <= |right|
  {
    if |left| == 0 then 0
    else Distance(left[..|left| - 1], right) + Gap(right[|left| - 1], left[|left| - 1])
  }

  /** Only the first `|left|` entries of `right` take part. */
  lemma {:induction false} DistanceUsesPrefix(left: seq<int>, right: seq<int>)
    requires |left| <= |right|
    ensures Distance(left, right) == Distance(left, right[..|left|])
    decreases |left|
  {
    if |left| > 0 {
      var n := |left| - 1;
      DistanceUsesPrefix(left[..n], right);
      DistanceUsesPrefix(left[..n], right[..|left|]);
      assert right[..|left|][..n] == right[..n];
    }
  }

  /** Swapping the two lists leaves the distance unchanged. */
  lemma {:induction false} DistanceSymmetric(left: seq<int>, right: seq<int>)
    requires |left| == |right|
    ensures Distance(left, right) == Distance(right, left)
    decreases |left|
  {
    if |left| > 0 {
      var n := |left| - 1;
      DistanceSymmetric(left[..n], right[..n]);
      DistanceUsesPrefix(left[..n], right);
      DistanceUsesPrefix(right[..n], left);
    }
  }

  /** `part1`: walks the indices of `left`, adding `abs(right[i] - left[i])`.
      A `right` shorter than `left` raises IndexError in the source. */
  method Part1(left: seq<int>, right: seq<int>) returns (total: int)
    requires |left| <= |right|
    ensures total == Distance(left, right)
    ensures total >= 0
  {
    total := 0;
    var i := 0;
    while i < |left|
      invariant i <= |left|
      invariant total == Distance(left[..i], right)
    {
      assert left[..i + 1][..i] == left[..i];
      total := total + Gap(right[i], left[i]);
      i := i + 1;
    }
    assert left[..i] == left;
  }

  /** Reference definition of the similarity score: each entry `x` of `xs`
      weighted by the number of times it occurs in `ys`. */
  function Similarity(xs: seq<int>, ys: seq<int>): int
  {
    if |xs| == 0 then 0
    else Similarity(xs[..|xs| - 1], ys) + xs[|xs| - 1] * Occurrences(ys, xs[|xs| - 1])
  }

  /** One more entry in `ys` adds its value once per occurrence in `xs`. */
  lemma {:induction false} SimilarityAppend(xs: seq<int>, ys: seq<int>, y: int)
    ensures Similarity(xs, ys + [y]) == Similarity(xs, ys) + y * Occurrences(xs, y)
    decreases |xs|
  {
    if |xs| > 0 {
      var n := |xs| - 1;
      var x := xs[n];
      var front := xs[..n];
      SimilarityAppend(front, ys, y);
      assert xs == front + [x];
      assert multiset(xs) == multiset(front) + multiset{x};
      assert multiset(ys + [y]) == multiset(ys) + multiset{y};
      var c := Occurrences(ys, x);
      var d := Occurrences(front, y);
      if x == y {
        assert Occurrences(ys + [y], x) == c + 1;
        assert Occurrences(xs, y) == d + 1;
        Distribute(x, c);
        Distribute(y, d);
      } else {
        assert Occurrences(ys + [y], x) == c;
        assert Occurrences(xs, y) == d;
      }
    }
  }

  lemma {:induction false} Distribute(a: int, b: int)
    ensures a * (b + 1) == a * b + a
  {
  }

  /** The score counts every equal pair `xs[i] == ys[j]` once, so it is the
      same read from either side. */
  lemma {:induction false} SimilaritySymmetric(xs: seq<int>, ys: seq<int>)
    ensures Similarity(xs, ys) == Similarity(ys, xs)
    decreases |ys|
  {
    if |ys| == 0 {
      SimilarityOfEmpty(xs);
    } else {
      var n := |ys| - 1;
      assert ys == ys[..n] + [ys[n]];
      SimilarityAppend(xs, ys[..n], ys[n]);
      SimilaritySymmetric(xs, ys[..n]);
    }
  }

  lemma {:induction false} SimilarityOfEmpty(xs: seq<int>)
    ensures Similarity(xs, []) == 0
    decreases |xs|
  {
    if |xs| > 0 {
      SimilarityOfEmpty(xs[..|xs| - 1]);
    }
  }

  /** Rearranging either list leaves the similarity unchanged. */
  lemma {:induction false} SimilarityOrderFree(xs: seq<int>, xs': seq<int>, ys: seq<int>, ys': seq<int>)
    requires multiset(xs) == multiset(xs') && multiset(ys) == multiset(ys')
    ensures Similarity(xs, ys) == Similarity(xs', ys')
  {
    SimilarityCountsOnly(xs, ys, ys');
    SimilaritySymmetric(xs, ys');
    SimilarityCountsOnly(ys', xs, xs');
    SimilaritySymmetric(ys', xs');
  }

  /** The score reads `ys` only through how often each value occurs. */
  lemma {:induction false} SimilarityCountsOnly(xs: seq<int>, ys: seq<int>, ys': seq<int>)
    requires multiset(ys) == multiset(ys')
    ensures Similarity(xs, ys) == Similarity(xs, ys')
    decreases |xs|
  {
    if |xs| > 0 {
      SimilarityCountsOnly(xs[..|xs| - 1], ys, ys');
    }
  }

  /** `part2`: counts the first `len(left)` entries of `right` in a table,
      then adds `num * count` for every `num` of `left` the table holds. */
  method Part2(left: seq<int>, right: seq<int>) returns (total: int)
    requires |left| <= |right|
    ensures total == Similarity(left, right[..|left|])
  {
    var counts: map<int, nat> := map[];
    var i := 0;
    while i < |left|
      invariant i <= |left|
      invariant forall v :: v in counts <==> v in multiset(right[..i])
      invariant forall v :: v in counts ==> counts[v] == multiset(right[..i])[v]
    {
      assert right[..i + 1] == right[..i] + [right[i]];
      if right[i] in counts {
        counts := counts[right[i] := counts[right[i]] + 1];
      } else {
        counts := counts[right[i] := 1];
      }
      i := i + 1;
    }
    var ys := right[..|left|];
    total := 0;
    var k := 0;
    while k < |left|
      invariant k <= |left|
      invariant total == Similarity(left[..k], ys)
    {
      assert left[..k + 1][..k] == left[..k];
      if left[k] in counts {
        total := total + left[k] * counts[left[k]];
      }
      k := k + 1;
    }
    assert left[..k] == left;
  }

  /** With lists of equal length, `part2` is independent of the order of
      both lists, so sorting them first does not change it. */
  lemma {:induction false} Part2OrderFree(left: seq<int>, right: seq<int>, left': seq<int>, right': seq<int>)
    requires |left| == |right|
    requires multiset(left) == multiset(left') && multiset(right) == multiset(right')
    ensures |left'| == |right'|
    ensures Similarity(left, right[..|left|]) == Similarity(left', right'[..|left'|])
  {
    assert right[..|left|] == right;
    assert |left'| == |multiset(left')| == |multiset(left)| == |left|;
    assert |right'| == |multiset(right')| == |multiset(right)| == |right|;
    assert right'[..|left'|] == right';
    SimilarityOrderFree(left, left', right, right');
  }

  /** The sample lists, sorted as the driver sorts them, give the expected
      answers 11 and 31. */
  lemma {:induction false} SampleAnswers()
    ensures Distance([1, 2, 3, 3, 3, 4], [3, 3, 3, 4, 5, 9]) == 11
    ensures Similarity([1, 2, 3, 3, 3, 4], [3, 3, 3, 4, 5, 9]) == 31
  {
    var l := [1, 2, 3, 3, 3, 4];
    var r := [3, 3, 3, 4, 5, 9];
    assert multiset(r)[1] == 0 && multiset(r)[2] == 0;
    assert multiset(r)[3] == 3 && multiset(r)[4] == 1;
    assert l[..1] == [1] && l[..1][..0] == [];
    assert Distance(l[..1], r) == 2 && Similarity(l[..1], r) == 0;
    assert l[..2][..1] == l[..1];
    assert Distance(l[..2], r) == 3 && Similarity(l[..2], r) == 0;
    assert l[..3][..2] == l[..2];
    assert Distance(l[..3], r) == 3 && Similarity(l[..3], r) == 9;
    assert l[..4][..3] == l[..3];
    assert Distance(l[..4], r) == 4 && Similarity(l[..4], r) == 18;
    assert l[..5][..4] == l[..4];
    assert Distance(l[..5], r) == 6 && Similarity(l[..5], r) == 27;
    assert l[..6][..5] == l[..5] && l[..6] == l;
  }
}

=== FILE: page_order.dfy ===
/** Page-ordering updates of day05/day05.py: a rule table saying which
    pages must come before which, a validity check for an update (a list
    of pages), and the swap-based fixer for invalid updates. */
module PageOrder {
  import opened Basics

  /** The rule table: `rules[p]` lists the pages that must precede `p`. */
  type Rules = map<int, seq<int>>

  /** `rules[page]` on the source's `defaultdict(list)`: a page without
      rules reads as the empty list. */
  function Lookup(rules: Rules, page: int): seq<int>
  {
    if page in rules then rules[page] else []
  }

  /** One rule line "key|value" of `read_data`: `key` is appended to the
      predecessors of `value`. */
  function AddRule(rules: Rules, key: int, value: int): (r: Rules)
    ensures forall a, b :: a in Lookup(r, b) <==> a in Lookup(rules, b) || (a == key && b == value)
  {
    rules[value := Lookup(rules, value) + [key]]
  }

  /** The table `read_data` builds from its rule lines, in order. */
  function RuleTable(lines: seq<(int, int)>): (r: Rules)
    ensures forall a, b :: a in Lookup(r, b) <==> (a, b) in lines
  {
    if |lines| == 0 then map[]
    else
      var (key, value) := lines[|lines| - 1];
      assert forall l :: l in lines <==> l in lines[..|lines| - 1] || l == (key, value);
      AddRule(RuleTable(lines[..|lines| - 1]), key, value)
  }

  /** Some page at index `i` has a required predecessor at an index `j`
      that is not before it. */
  ghost predicate Violates(update: seq<int>, rules: Rules)
  {
    exists i, j :: 0 <= i <= j < |update| && update[j] in Lookup(rules, update[i])
  }

  /** `is_valid_update`: for each page, looks for any of its required
      predecessors in the rest of the update, from the page itself on. */
  method IsValidUpdate(update: seq<int>, rules: Rules) returns (valid: bool)
    ensures valid <==> !Violates(update, rules)
  {
    var idx := 0;
    while idx < |update|
      invariant idx <= |update|
      invariant forall i, j :: 0 <= i < idx && i <= j < |update| ==> update[j] !in Lookup(rules, update[i])
    {
      var required := Lookup(rules, update[idx]);
      var k := 0;
      while k < |required|
        invariant k <= |required|
        invariant forall m :: 0 <= m < k ==> required[m] !in update[idx..]
      {
        if required[k] in update[idx..] {
          var j :| idx <= j < |update| && update[j] == required[k] by {
            var t :| 0 <= t < |update[idx..]| && update[idx..][t] == required[k];
            assert update[idx + t] == required[k];
          }
          return false;
        }
        k := k + 1;
      }
      forall j | idx <= j < |update|
        ensures update[j] !in required
      {
        assert update[j] == update[idx..][j - idx];
      }
      idx := idx + 1;
    }
    return true;
  }

  /** The middle page of an update. */
  function Middle(update: seq<int>): int
    requires |update| > 0
  {
    update[|update| / 2]
  }

  /** `fix_update` from position `i`, with the inner scan at `j`: when the
      page at `j` must precede the page at `i`, the two are swapped and the
      same `j` is looked at again; otherwise the scan moves on. The source
      loops forever on cyclic rules, so every swap spends one unit of
      `fuel`; `None` is returned when a swap is due and none is left. */
  function FixFrom(update: seq<int>, rules: Rules, i: nat, j: nat, fuel: nat): (r: Option<seq<int>>)
    requires i < j
    ensures r.Some? ==> multiset(r.value) == multiset(update) && |r.value| == |update|
    ensures !Violates(update, rules) ==> r == Some(update)
    decreases fuel, |update| - i, |update| - j
  {
    if i >= |update| then Some(update)
    else if j >= |update| then FixFrom(update, rules, i + 1, i + 2, fuel)
    else if update[j] in Lookup(rules, update[i]) then
      assert Violates(update, rules);
      if fuel == 0 then None
      else
        var swapped := Swap(update, i, j);
        assert |multiset(swapped)| == |multiset(update)|;
        FixFrom(swapped, rules, i, j, fuel - 1)
    else FixFrom(update, rules, i, j + 1, fuel)
  }

  /** `fix_update`: the fixer from the first page, with its swaps bounded
      by `fuel`. Only swaps are made, so a result is a rearrangement of the
      update, and an update that is already valid comes back unchanged. */
  function FixUpdate(update: seq<int>, rules: Rules, fuel: nat): (r: Option<seq<int>>)
    ensures r.Some? ==> multiset(r.value) == multiset(update) && |r.value| == |update|
    ensures !Violates(update, rules) ==> r == Some(update)
  {
    FixFrom(update, rules, 0, 1, fuel)
  }

  /** The middle pages of the valid updates, summed. */
  ghost function ValidMiddles(updates: seq<seq<int>>, rules: Rules): int
    requires forall k :: 0 <= k < |updates| ==> |updates[k]| > 0
  {
    if |updates| == 0 then 0
    else
      var u := updates[|updates| - 1];
      ValidMiddles(updates[..|updates| - 1], rules) + (if Violates(u, rules) then 0 else Middle(u))
  }

  /** The middle pages of the fixed invalid updates, summed; `None` when a
      fix runs out of fuel. */
  ghost function FixedMiddles(updates: seq<seq<int>>, rules: Rules, fuel: nat): Option<int>
    requires forall k :: 0 <= k < |updates| ==> |updates[k]| > 0
  {
    if |updates| == 0 then Some(0)
    else
      var u := updates[|updates| - 1];
      var rest := FixedMiddles(updates[..|updates| - 1], rules, fuel);
      if !Violates(u, rules) then rest
      else
        var fixed := FixUpdate(u, rules, fuel);
        if rest.None? || fixed.None? then None else Some(rest.value + Middle(fixed.value))
  }

  /** The middle pages of every update after the fixer, summed. */
  function AllFixedMiddles(updates: seq<seq<int>>, rules: Rules, fuel: nat): Option<int>
    requires forall k :: 0 <= k < |updates| ==> |updates[k]| > 0
  {
    if |updates| == 0 then Some(0)
    else
      var rest := AllFixedMiddles(updates[..|updates| - 1], rules, fuel);
      var fixed := FixUpdate(updates[|updates| - 1], rules, fuel);
      if rest.None? || fixed.None? then None else Some(rest.value + Middle(fixed.value))
  }

  /** `part1`: the middle pages of the valid updates. The updates
      `read_data` produces are never empty. */
  method Part1(updates: seq<seq<int>>, rules: Rules) returns (total: int)
    requires forall k :: 0 <= k < |updates| ==> |updates[k]| > 0
    ensures total == ValidMiddles(updates, rules)
  {
    total := 0;
    var k := 0;
    while k < |updates|
      invariant k <= |updates|
      invariant total == ValidMiddles(updates[..k], rules)
    {
      assert updates[..k + 1][..k] == updates[..k];
      var valid := IsValidUpdate(updates[k], rules);
      if valid {
        total := total + Middle(updates[k]);
      }
      k := k + 1;
    }
    assert updates[..k] == updates;
  }

  /** `part2`: the middle pages of the invalid updates once fixed. Each fix
      works on a copy, so the updates themselves are left as they are. */
  method Part2(updates: seq<seq<int>>, rules: Rules, fuel: nat) returns (total: Option<int>)
    requires forall k :: 0 <= k < |updates| ==> |updates[k]| > 0
    ensures total == FixedMiddles(updates, rules, fuel)
  {
    var sum := 0;
    var k := 0;
    while k < |updates|
      invariant k <= |updates|
      invariant FixedMiddles(updates[..k], rules, fuel) == Some(sum)
    {
      assert updates[..k + 1][..k] == updates[..k];
      var valid := IsValidUpdate(updates[k], rules);
      if !valid {
        var fixed := FixUpdate(updates[k], rules, fuel);
        if fixed.None? {
          NoneStays(updates, rules, fuel, k + 1);
          return None;
        }
        sum := sum + Middle(fixed.value);
      }
      k := k + 1;
    }
    assert updates[..k] == updates;
    return Some(sum);
  }

  /** Once a fix has run out of fuel, the whole sum is missing. */
  lemma {:induction false} NoneStays(updates: seq<seq<int>>, rules: Rules, fuel: nat, k: nat)
    requires forall k :: 0 <= k < |updates| ==> |updates[k]| > 0
    requires k <= |updates| && FixedMiddles(updates[..k], rules, fuel).None?
    ensures FixedMiddles(updates, rules, fuel).None?
    decreases |updates| - k
  {
    if k < |updates| {
      assert updates[..k + 1][..k] == updates[..k];
      NoneStays(updates, rules, fuel, k + 1);
    } else {
      assert updates[..k] == updates;
    }
  }

  /** The two parts together are the fixer's middle pages over every
      update, because the fixer leaves valid updates unchanged. */
  lemma {:induction false} PartsCoverAll(updates: seq<seq<int>>, rules: Rules, fuel: nat)
    requires forall k :: 0 <= k < |updates| ==> |updates[k]| > 0
    requires FixedMiddles(updates, rules, fuel).Some?
    ensures AllFixedMiddles(updates, rules, fuel) ==
      Some(ValidMiddles(updates, rules) + FixedMiddles(updates, rules, fuel).value)
    decreases |updates|
  {
    if |updates| > 0 {
      var front := updates[..|updates| - 1];
      assert FixedMiddles(front, rules, fuel).Some?;
      PartsCoverAll(front, rules, fuel);
    }
  }

  /** The fixer does not always produce a valid update when the rules
      leave some pair unordered: with 3 before 1 and 2 before 3, the
      update [1, 2, 3] becomes [3, 2, 1], where 2 still follows 3. Every
      position between `i` and `j` was compared with the page that was at
      `i` before the swap, not with the one swapped in. */
  lemma {:induction false} FixMayLeaveViolation()
    ensures var rules := map[1 := [3], 3 := [2]];
      FixUpdate([1, 2, 3], rules, 1) == Some([3, 2, 1]) && Violates([3, 2, 1], rules)
  {
    var rules := map[1 := [3], 3 := [2]];
    var u := [1, 2, 3];
    assert u[1] !in Lookup(rules, u[0]);
    assert FixFrom(u, rules, 0, 1, 1) == FixFrom(u, rules, 0, 2, 1);
    var w := Swap(u, 0, 2);
    assert w == [3, 2, 1];
    assert FixFrom(u, rules, 0, 2, 1) == FixFrom(w, rules, 0, 2, 0);
    assert w[2] !in Lookup(rules, w[0]);
    assert FixFrom(w, rules, 0, 2, 0) == FixFrom(w, rules, 0, 3, 0) == FixFrom(w, rules, 1, 2, 0);
    assert w[2] !in Lookup(rules, w[1]);
    assert FixFrom(w, rules, 1, 2, 0) == FixFrom(w, rules, 1, 3, 0) == FixFrom(w, rules, 2, 3, 0);
    assert FixFrom(w, rules, 2, 3, 0) == FixFrom(w, rules, 3, 4, 0) == Some(w);
    assert w[1] in Lookup(rules, w[0]);
  }
}

=== FILE: patrol.dfy ===
/** The guard's patrol as a state machine, independent of how either
    implementation stores its grid: the reference both simulators are
    proved against. The guard looks at the cell ahead; if that cell is
    off the floor the guard leaves, if it is a wall the guard turns
    clockwise where it stands, otherwise it steps forward. */
module Patrol {
  import opened Plane

  datatype Direction = Up | Right | Down | Left

  /** The number both sources use for a heading: Up 0, Right 1, Down 2,
      Left 3. */
  function Index(d: Direction): (i: nat)
    ensures i < 4
  {
    match d
    case Up => 0
    case Right => 1
    case Down => 2
    case Left => 3
  }

  function FromIndex(i: nat): (d: Direction)
    requires i < 4
    ensures Index(d) == i
  {
    if i == 0 then Up else if i == 1 then Right else if i == 2 then Down else Left
  }

  /** The heading after one clockwise quarter turn: the next index modulo 4. */
  function Clockwise(d: Direction): (r: Direction)
    ensures Index(r) == (Index(d) + 1) % 4
  {
    match d
    case Up => Right
    case Right => Down
    case Down => Left
    case Left => Up
  }

  /** Four clockwise turns bring every heading back to itself. */
  lemma {:induction false} FourTurnsIdentity(d: Direction)
    ensures Clockwise(Clockwise(Clockwise(Clockwise(d)))) == d
  {
  }

  /** Unit offsets, row first, as the C++ `DirectionOffsets` table lists
      them: Up is one row up, Right one column right. */
  function Offset(d: Direction): Pos
  {
    match d
    case Up => Pos(-1, 0)
    case Right => Pos(0, 1)
    case Down => Pos(1, 0)
    case Left => Pos(0, -1)
  }

  /** The cell one step ahead of `p` facing `d`. */
  function Ahead(p: Pos, d: Direction): (q: Pos)
    ensures q != p
    ensures (q.y - p.y) * (q.y - p.y) + (q.x - p.x) * (q.x - p.x) == 1
  {
    Pos(p.y + Offset(d).y, p.x + Offset(d).x)
  }

  /** A rectangular floor with some cells walled. */
  datatype Floor = Floor(height: nat, width: nat, walls: set<Pos>)

  predicate Inside(f: Floor, p: Pos)
  {
    InBox(f.height, f.width, p)
  }

  /** The floor with one more wall at `p`. */
  function AddWall(f: Floor, p: Pos): (g: Floor)
    ensures g.height == f.height && g.width == f.width
    ensures forall q :: q in g.walls <==> q == p || q in f.walls
  {
    f.(walls := f.walls + {p})
  }

  /** Where the guard is: standing at a cell with a heading, or gone. */
  datatype Guard = At(pos: Pos, heading: Direction) | Gone

  /** One iteration of the patrol: leave, turn in place, or step. */
  function Step(f: Floor, g: Guard): (r: Guard)
    ensures g.Gone? ==> r.Gone?
    ensures g.At? && r.Gone? ==> !Inside(f, Ahead(g.pos, g.heading))
    ensures g.At? && r.At? && r.pos == g.pos ==>
      r.heading == Clockwise(g.heading) && Ahead(g.pos, g.heading) in f.walls
    ensures g.At? && r.At? && r.pos != g.pos ==>
      r == At(Ahead(g.pos, g.heading), g.heading) && Inside(f, r.pos) && r.pos !in f.walls
  {
    match g
    case Gone => Gone
    case At(p, d) =>
      var q := Ahead(p, d);
      if !Inside(f, q) then Gone
      else if q in f.walls then At(p, Clockwise(d))
      else At(q, d)
  }

  /** The guard after `n` iterations. */
  function Iterate(f: Floor, g: Guard, n: nat): Guard
  {
    if n == 0 then g else Step(f, Iterate(f, g, n - 1))
  }

  /** The guard eventually walks off the floor. */
  ghost predicate Escapes(f: Floor, g: Guard)
  {
    exists n :: Iterate(f, g, n).Gone?
  }

  /** The guard patrols forever. */
  ghost predicate Trapped(f: Floor, g: Guard)
  {
    forall n :: Iterate(f, g, n).At?
  }

  /** The guard stands on `p` after exactly `n` iterations. */
  ghost predicate StandsAt(f: Floor, g: Guard, n: nat, p: Pos)
  {
    Iterate(f, g, n).At? && Iterate(f, g, n).pos == p
  }

  /** The guard stands on `p` at some point of its patrol. */
  ghost predicate Visits(f: Floor, g: Guard, p: Pos)
  {
    exists n :: StandsAt(f, g, n, p)
  }

  /** Leaving is final. */
  lemma {:induction false} GoneStays(f: Floor, g: Guard, m: nat, n: nat)
    requires m <= n && Iterate(f, g, m).Gone?
    ensures Iterate(f, g, n).Gone?
    decreases n
  {
    if n > m {
      GoneStays(f, g, m, n - 1);
    }
  }

  /** Escaping and being trapped exclude each other. */
  lemma {:induction false} EscapeExcludesTrap(f: Floor, g: Guard)
    ensures !(Escapes(f, g) && Trapped(f, g))
  {
  }

  /** Running `a` iterations and then `b` more is running `a + b`. */
  lemma {:induction false} IterateSplit(f: Floor, g: Guard, a: nat, b: nat)
    ensures Iterate(f, g, a + b) == Iterate(f, Iterate(f, g, a), b)
    decreases b
  {
    if b > 0 {
      var k := b - 1;
      IterateSplit(f, g, a, k);
      SplitStep(f, g, a, k, b);
    }
  }

  /** One more pass after the split. */
  lemma {:induction false} SplitStep(f: Floor, g: Guard, a: nat, k: nat, b: nat)
    requires b == k + 1 && Iterate(f, g, a + k) == Iterate(f, Iterate(f, g, a), k)
    ensures Iterate(f, g, a + b) == Iterate(f, Iterate(f, g, a), b)
  {
    var n, m, h := a + b, a + k, Iterate(f, g, a);
    IterateUnfold(f, g, n, m);
    IterateUnfold(f, h, b, k);
  }

  /** Pass `n` is one step after pass `m = n - 1`. */
  lemma {:induction false} IterateUnfold(f: Floor, g: Guard, n: nat, m: nat)
    requires n == m + 1
    ensures Iterate(f, g, n) == Step(f, Iterate(f, g, m))
  {
  }

  /** Once the state at `i` recurs `p` iterations later, every later
      state recurs with the same period. */
  lemma {:induction false} PeriodicFrom(f: Floor, g: Guard, i: nat, p: nat, n: nat)
    requires Iterate(f, g, i + p) == Iterate(f, g, i)
    requires i <= n
    ensures Iterate(f, g, n + p) == Iterate(f, g, n)
    decreases n - i
  {
    if n > i {
      var k := n - 1;
      PeriodicFrom(f, g, i, p, k);
      PeriodicStep(f, g, p, k, n);
    }
  }

  /** A state that recurs after `p` passes has a successor that does. */
  lemma {:induction false} PeriodicStep(f: Floor, g: Guard, p: nat, k: nat, n: nat)
    requires n == k + 1 && Iterate(f, g, k + p) == Iterate(f, g, k)
    ensures Iterate(f, g, n + p) == Iterate(f, g, n)
  {
    IterateUnfold(f, g, n + p, k + p);
    IterateUnfold(f, g, n, k);
  }

  lemma {:induction false} AliveUnderRepeat(f: Floor, g: Guard, i: nat, j: nat, n: nat)
    requires i < j && Iterate(f, g, i) == Iterate(f, g, j) && Iterate(f, g, j).At?
    ensures Iterate(f, g, n).At?
    decreases n
  {
    if n <= j {
      if Iterate(f, g, n).Gone? {
        GoneStays(f, g, n, j);
      }
    } else {
      var m := n - (j - i);
      assert i <= m < n;
      assert Iterate(f, g, i + (j - i)) == Iterate(f, g, i);
      PeriodicFrom(f, g, i, j - i, m);
      assert m + (j - i) == n;
      AliveUnderRepeat(f, g, i, j, m);
    }
  }

  /** A state that occurs twice proves the patrol never ends: the walk is
      deterministic, so it repeats the same stretch forever. */
  lemma {:induction false} RepeatTraps(f: Floor, g: Guard, i: nat, j: nat)
    requires i < j && Iterate(f, g, i) == Iterate(f, g, j) && Iterate(f, g, j).At?
    ensures Trapped(f, g)
  {
    forall n: nat ensures Iterate(f, g, n).At? {
      AliveUnderRepeat(f, g, i, j, n);
    }
  }

  /** A guard that starts on an open cell of the floor only ever stands on
      open cells of the floor. */
  lemma {:induction false} StaysOnOpenCells(f: Floor, g: Guard, n: nat)
    requires g.At? && Inside(f, g.pos) && g.pos !in f.walls
    ensures Iterate(f, g, n).At? ==>
      Inside(f, Iterate(f, g, n).pos) && Iterate(f, g, n).pos !in f.walls
    decreases n
  {
    if n > 0 {
      StaysOnOpenCells(f, g, n - 1);
    }
  }

  /** The cells stood on during the first `n` states, 0 to `n - 1`. */
  ghost function Trail(f: Floor, g: Guard, n: nat): set<Pos>
  {
    if n == 0 then {}
    else Trail(f, g, n - 1) + (if Iterate(f, g, n - 1).At? then {Iterate(f, g, n - 1).pos} else {})
  }

  /** The states, 0 to `n - 1`, the guard has been in. */
  ghost function History(f: Floor, g: Guard, n: nat): set<Guard>
  {
    if n == 0 then {} else History(f, g, n - 1) + {Iterate(f, g, n - 1)}
  }

  lemma {:induction false} TrailMembers(f: Floor, g: Guard, n: nat, q: Pos)
    ensures q in Trail(f, g, n) <==> exists k: nat :: k < n && StandsAt(f, g, k, q)
    decreases n
  {
    if n > 0 {
      TrailMembers(f, g, n - 1, q);
      if StandsAt(f, g, n - 1, q) {
        assert q in Trail(f, g, n);
      }
    }
  }

  /** A state of the history occurs at some step before `n`. */
  lemma {:induction false} HistoryWitness(f: Floor, g: Guard, n: nat, s: Guard) returns (k: nat)
    requires s in History(f, g, n)
    ensures k < n && Iterate(f, g, k) == s
    decreases n
  {
    if s in History(f, g, n - 1) {
      k := HistoryWitness(f, g, n - 1, s);
    } else {
      k := n - 1;
    }
  }

  /** Every state before step `n` is in the history. */
  lemma {:induction false} HistoryHolds(f: Floor, g: Guard, n: nat, k: nat)
    requires k < n
    ensures Iterate(f, g, k) in History(f, g, n)
    decreases n
  {
    if k < n - 1 {
      HistoryHolds(f, g, n - 1, k);
    }
  }

  /** Once the guard has left, its trail is every cell it ever visits. */
  lemma {:induction false} TrailOfEscape(f: Floor, g: Guard, n: nat)
    requires Iterate(f, g, n).Gone?
    ensures forall q :: q in Trail(f, g, n) <==> Visits(f, g, q)
  {
    forall q ensures q in Trail(f, g, n) <==> Visits(f, g, q) {
      TrailMembers(f, g, n, q);
      if Visits(f, g, q) {
        var k: nat :| StandsAt(f, g, k, q);
        if k >= n {
          GoneStays(f, g, n, k);
        }
      }
    }
  }

  /** A state met again proves the guard is trapped. */
  lemma {:induction false} RevisitTraps(f: Floor, g: Guard, n: nat)
    requires Iterate(f, g, n).At? && Iterate(f, g, n) in History(f, g, n)
    ensures Trapped(f, g)
  {
    var k := HistoryWitness(f, g, n, Iterate(f, g, n));
    RepeatTraps(f, g, k, n);
  }

  /** Every cell an escaping guard stands on. */
  ghost function Route(f: Floor, g: Guard): (s: set<Pos>)
    requires Escapes(f, g)
    ensures forall q :: q in s <==> Visits(f, g, q)
  {
    var n: nat :| Iterate(f, g, n).Gone?;
    TrailOfEscape(f, g, n);
    Trail(f, g, n)
  }
}

=== FILE: plane.dfy ===
/** Integer grid coordinates shared by the grid puzzles. Row 0 is the top
    row; `y` grows downwards and `x` to the right. */
module Plane {

  datatype Pos = Pos(y: int, x: int)

  /** Component-wise difference and sum of two positions. */
  function Minus(a: Pos, b: Pos): Pos
  {
    Pos(a.y - b.y, a.x - b.x)
  }

  function Plus(a: Pos, b: Pos): Pos
  {
    Pos(a.y + b.y, a.x + b.x)
  }

  /** `p` and `q` share a side: one row or one column apart, not both. */
  predicate Adjacent(p: Pos, q: Pos)
  {
    (p.y == q.y && (q.x == p.x + 1 || q.x == p.x - 1)) ||
    (p.x == q.x && (q.y == p.y + 1 || q.y == p.y - 1))
  }

  /** `p` lies in the `height` x `width` rectangle anchored at the origin. */
  predicate InBox(height: int, width: int, p: Pos)
  {
    0 <= p.y < height && 0 <= p.x < width
  }

  /** Every cell of the `height` x `width` rectangle. */
  function Cells(height: nat, width: nat): (s: set<Pos>)
    ensures forall p :: p in s <==> InBox(height, width, p)
  {
    set y, x | 0 <= y < height && 0 <= x < width :: Pos(y, x)
  }

  /** The cells of one row. */
  function RowCells(y: int, width: nat): (s: set<Pos>)
    ensures forall p :: p in s <==> p.y == y && 0 <= p.x < width
  {
    set x | 0 <= x < width :: Pos(y, x)
  }

  lemma {:induction false} RowCellsCount(y: int, width: nat)
    ensures |RowCells(y, width)| == width
  {
    if width > 0 {
      RowCellsCount(y, width - 1);
      assert RowCells(y, width) == RowCells(y, width - 1) + {Pos(y, width - 1)};
    } else {
      assert RowCells(y, width) == {};
    }
  }

  /** A `height` x `width` rectangle has exactly `height * width` cells. */
  lemma {:induction false} CellsCount(height: nat, width: nat)
    ensures |Cells(height, width)| == height * width
  {
    if height > 0 {
      var upper, last := Cells(height - 1, width), RowCells(height - 1, width);
      CellsCount(height - 1, width);
      RowCellsCount(height - 1, width);
      assert Cells(height, width) == upper + last by {
        forall p ensures p in Cells(height, width) <==> p in upper + last {
        }
      }
      assert upper !! last;
      assert |upper + last| == |upper| + |last|;
      assert (height - 1) * width + width == height * width by {
        MulSucc(height - 1, width);
      }
    } else {
      assert Cells(height, width) == {};
    }
  }

  /** A set of positions inside the rectangle has at most as many elements
      as the rectangle has cells. */
  lemma {:induction false} InBoxBound(height: nat, width: nat, s: set<Pos>)
    requires forall p :: p in s ==> InBox(height, width, p)
    ensures |s| <= height * width
  {
    CellsCount(height, width);
    assert s <= Cells(height, width);
    SubsetCardinality(s, Cells(height, width));
  }

  lemma {:induction false} MulSucc(a: nat, b: nat)
    ensures a * b + b == (a + 1) * b
  {
  }

  lemma {:induction false} SubsetCardinality<T>(a: set<T>, b: set<T>)
    requires a <= b
    ensures |a| <= |b|
  {
    assert b == a + (b - a);
  }
}

=== FILE: py_guard.dfy ===
/** The Python guard-patrol solver (python/day06.py). The grid is a list of
    rows of characters; positions are `(y, x)`; the heading is the index
    `dm_idx` into the `direction_mapping` table, -1 before a guard marker is
    seen. Dictionaries are modelled with the parts the code observes:
    insertion order for `get_visited_cells`, lookup-with-default for
    `has_loop`. */
module PyGuard {
  import opened Basics
  import opened Plane
  import opened Patrol

  type Grid = seq<seq<char>>

  /** Non-empty, with every row as long as the first; the walks read the
      width off row 0 and index other rows with it. */
  predicate Rectangular(g: Grid)
  {
    |g| > 0 && forall i :: 0 <= i < |g| ==> |g[i]| == |g[0]|
  }

  /** The `while` condition of every walk: `-1 < x < len(row 0)` and
      `-1 < y < len(grid)`. */
  predicate InGrid(g: Grid, p: Pos)
    requires |g| > 0
  {
    -1 < p.x < |g[0]| && -1 < p.y < |g|
  }

  // ---------------------------------------------------------------------
  // direction_mapping

  /** The `(x, y)` offsets of `direction_mapping`: top, right, bottom, left. */
  const DirectionMapping: seq<(int, int)> := [(0, -1), (1, 0), (0, 1), (-1, 0)]

  /** The position Python's `s[i]` reads in a sequence of length `n`: a
      negative index counts from the end. */
  function Wrap(n: nat, i: int): (r: nat)
    requires 0 <= i + n && i < n
    ensures r < n && (r == i || r == i + n)
  {
    if i < 0 then i + n else i
  }

  /** The cell one step from `p` with heading index `dm`. Python reads
      index -1 as the last entry, so heading -1 moves left. */
  function Next(p: Pos, dm: int): (q: Pos)
    requires -1 <= dm <= 3
    ensures Adjacent(p, q)
  {
    var (dx, dy) := DirectionMapping[Wrap(|DirectionMapping|, dm)];
    Pos(p.y + dy, p.x + dx)
  }

  /** The turn `(dm_idx + 1) % len(direction_mapping)`: the next index,
      wrapping from 3 to 0. */
  function Turn(dm: int): (r: int)
    requires -1 <= dm <= 3
    ensures 0 <= r <= 3 && r == (dm + 1) % |DirectionMapping|
  {
    if dm + 1 == |DirectionMapping| then 0 else dm + 1
  }

  /** The table agrees with the patrol's headings, and the turn with its
      clockwise turn. */
  lemma {:induction false} HeadingAgrees(p: Pos, dm: int)
    requires 0 <= dm <= 3
    ensures Next(p, dm) == Ahead(p, FromIndex(dm))
    ensures FromIndex(Turn(dm)) == Clockwise(FromIndex(dm))
  {
  }

  /** Heading -1 moves like Left and turns like Left. */
  lemma {:induction false} UnsetHeadingIsLeft(p: Pos)
    ensures Next(p, -1) == Next(p, 3) && Turn(-1) == Turn(3)
  {
  }

  // ---------------------------------------------------------------------
  // get_start

  /** `get_start`'s answer: `(dm_idx, (start_x, start_y))`. */
  datatype Start = Start(heading: int, x: int, y: int)

  const NotFound := Start(-1, -1, -1)

  /** A cell the scan stops at: anything but '.' and '#'. */
  predicate Special(c: char)
  {
    c != '.' && c != '#'
  }

  function MarkerIndex(c: char): (r: Option<int>)
    ensures r.Some? ==> 0 <= r.value <= 3 && Special(c)
  {
    match c
    case '^' => Some(0)
    case '>' => Some(1)
    case 'v' => Some(2)
    case '<' => Some(3)
    case _ => None
  }

  /** The inner loop over row `y` from column `x`: every special cell
      becomes the start; a marker also sets the heading and ends the row. */
  function ScanRow(row: seq<char>, y: int, x: nat, s: Start): (r: Start)
    requires -1 <= s.heading <= 3
    ensures -1 <= r.heading <= 3
    ensures (forall j :: x <= j < |row| ==> !Special(row[j])) ==> r == s
    ensures (exists j :: x <= j < |row| && Special(row[j])) ==> r.y == y && x <= r.x < |row| && Special(row[r.x])
    ensures s.x >= 0 ==> r.x >= 0
    decreases |row| - x
  {
    if x >= |row| then s
    else if !Special(row[x]) then ScanRow(row, y, x + 1, s)
    else
      var found := s.(x := x, y := y);
      match MarkerIndex(row[x])
      case Some(i) => found.(heading := i)
      case None => ScanRow(row, y, x + 1, found)
  }

  /** The outer loop from row `y`: after each row it stops once both
      coordinates are positive. */
  function StartFrom(g: Grid, y: nat, s: Start): (r: Start)
    requires -1 <= s.heading <= 3
    ensures -1 <= r.heading <= 3
    ensures r == s || (y <= r.y < |g| && 0 <= r.x < |g[r.y]| && Special(g[r.y][r.x]))
    ensures (forall i, j :: y <= i < |g| && 0 <= j < |g[i]| ==> !Special(g[i][j])) ==> r == s
    ensures s.x >= 0 ==> r.x >= 0
    ensures (exists i, j :: y <= i < |g| && 0 <= j < |g[i]| && Special(g[i][j])) ==> r.x >= 0
    decreases |g| - y
  {
    if y >= |g| then s
    else
      var t := ScanRow(g[y], y, 0, s);
      if t.x > 0 && t.y > 0 then t else StartFrom(g, y + 1, t)
  }

  /** `get_start`: the heading and position of the guard, or
      `(-1, (-1, -1))` when every cell is '.' or '#'. */
  function GetStart(g: Grid): (r: Start)
    ensures -1 <= r.heading <= 3
    ensures r == NotFound || (0 <= r.y < |g| && 0 <= r.x < |g[r.y]| && Special(g[r.y][r.x]))
    ensures r == NotFound <==> forall i, j :: 0 <= i < |g| && 0 <= j < |g[i]| ==> !Special(g[i][j])
  {
    StartFrom(g, 0, NotFound)
  }

  /** The grid's only special cell, when it is a marker, is the start. */
  predicate OnlySpecial(g: Grid, y: int, x: int)
  {
    0 <= y < |g| && 0 <= x < |g[y]| && Special(g[y][x]) &&
    forall i, j :: 0 <= i < |g| && 0 <= j < |g[i]| && Special(g[i][j]) ==> i == y && j == x
  }

  lemma {:induction false} ScanRowOnly(row: seq<char>, y: int, x: nat, x0: nat, s: Start)
    requires -1 <= s.heading <= 3 && x <= x0 < |row| && MarkerIndex(row[x0]).Some?
    requires forall j :: x <= j < |row| && Special(row[j]) ==> j == x0
    ensures ScanRow(row, y, x, s) == Start(MarkerIndex(row[x0]).value, x0, y)
    decreases |row| - x
  {
    if x < x0 {
      ScanRowOnly(row, y, x + 1, x0, s);
    }
  }

  lemma {:induction false} StartFromOnly(g: Grid, y: nat, y0: nat, x0: nat, s: Start)
    requires s == NotFound && y <= y0
    requires OnlySpecial(g, y0, x0) && MarkerIndex(g[y0][x0]).Some?
    ensures StartFrom(g, y, s) == Start(MarkerIndex(g[y0][x0]).value, x0, y0)
    decreases |g| - y
  {
    if y < y0 {
      assert ScanRow(g[y], y, 0, s) == s;
      StartFromOnly(g, y + 1, y0, x0, s);
    } else {
      ScanRowOnly(g[y], y, 0, x0, s);
    }
  }

  /** With one guard marker and no other special cell, `get_start` finds
      it, wherever it is. */
  lemma {:induction false} GetStartFindsGuard(g: Grid, y0: nat, x0: nat)
    requires OnlySpecial(g, y0, x0) && MarkerIndex(g[y0][x0]).Some?
    ensures GetStart(g) == Start(MarkerIndex(g[y0][x0]).value, x0, y0)
  {
    StartFromOnly(g, 0, y0, x0, NotFound);
  }

  /** The grid with cell `p` overwritten, as `copy_map[y][x] = '#'` does
      on a copy. */
  function Put(g: Grid, p: Pos, c: char): (r: Grid)
    requires 0 <= p.y < |g| && 0 <= p.x < |g[p.y]|
    ensures |r| == |g| && forall i :: 0 <= i < |g| ==> |r[i]| == |g[i]|
    ensures r[p.y][p.x] == c
    ensures forall i, j :: 0 <= i < |g| && 0 <= j < |g[i]| && (i, j) != (p.y, p.x) ==> r[i][j] == g[i][j]
  {
    g[p.y := g[p.y][p.x := c]]
  }

  lemma {:induction false} ScanRowIgnoresWall(row: seq<char>, j: nat, y: int, x: nat, s: Start)
    requires -1 <= s.heading <= 3 && j < |row| && row[j] == '.'
    ensures ScanRow(row[j := '#'], y, x, s) == ScanRow(row, y, x, s)
    decreases |row| - x
  {
    if x < |row| {
      ScanRowIgnoresWall(row, j, y, x + 1, s);
      if row[x] != row[j := '#'][x] {
        assert x == j;
      }
      if Special(row[x]) && MarkerIndex(row[x]).None? {
        ScanRowIgnoresWall(row, j, y, x + 1, s.(x := x, y := y));
      }
    }
  }

  lemma {:induction false} StartFromIgnoresWall(g: Grid, p: Pos, y: nat, s: Start)
    requires -1 <= s.heading <= 3 && 0 <= p.y < |g| && 0 <= p.x < |g[p.y]| && g[p.y][p.x] == '.'
    ensures StartFrom(Put(g, p, '#'), y, s) == StartFrom(g, y, s)
    decreases |g| - y
  {
    var h := Put(g, p, '#');
    if y < |g| {
      if y == p.y {
        ScanRowIgnoresWall(g[y], p.x, y, 0, s);
      } else {
        assert h[y] == g[y];
      }
      var t := ScanRow(g[y], y, 0, s);
      StartFromIgnoresWall(g, p, y + 1, t);
    }
  }

  /** Putting an obstacle on a '.' cell does not move the start. */
  lemma {:induction false} GetStartIgnoresWall(g: Grid, p: Pos)
    requires 0 <= p.y < |g| && 0 <= p.x < |g[p.y]| && g[p.y][p.x] == '.'
    ensures GetStart(Put(g, p, '#')) == GetStart(g)
  {
    StartFromIgnoresWall(g, p, 0, NotFound);
  }

  // ---------------------------------------------------------------------
  // The grid as a patrol floor

  /** The grid's size and its '#' cells. */
  function GridFloor(g: Grid): (f: Floor)
    requires Rectangular(g)
    ensures f.height == |g| && f.width == |g[0]|
  {
    Floor(|g|, |g[0]|, WallsFrom(g, 0))
  }

  function WallsFrom(g: Grid, y: nat): set<Pos>
    requires Rectangular(g)
    decreases |g| - y
  {
    if y >= |g| then {} else RowWalls(g, y, 0) + WallsFrom(g, y + 1)
  }

  /** The '#' cells of row `y` from column `x` on. */
  function RowWalls(g: Grid, y: nat, x: nat): set<Pos>
    requires Rectangular(g) && y < |g|
    decreases |g[0]| - x
  {
    if x >= |g[0]| then {}
    else (if g[y][x] == '#' then {Pos(y, x)} else {}) + RowWalls(g, y, x + 1)
  }

  lemma {:induction false} RowWallsCells(g: Grid, y: nat, x: nat, q: Pos)
    requires Rectangular(g) && y < |g|
    ensures q in RowWalls(g, y, x) <==> q.y == y && x <= q.x < |g[0]| && g[y][q.x] == '#'
    decreases |g[0]| - x
  {
    if x < |g[0]| {
      RowWallsCells(g, y, x + 1, q);
    }
  }

  lemma {:induction false} WallsFromCells(g: Grid, y: nat, q: Pos)
    requires Rectangular(g)
    ensures q in WallsFrom(g, y) <==> y <= q.y < |g| && 0 <= q.x < |g[0]| && g[q.y][q.x] == '#'
    decreases |g| - y
  {
    if y < |g| {
      WallsFromCells(g, y + 1, q);
      RowWallsCells(g, y, 0, q);
    }
  }

  /** The floor's cells are the grid's cells and its walls the '#' cells. */
  lemma {:induction false} GridFloorCells(g: Grid)
    requires Rectangular(g)
    ensures forall q :: Inside(GridFloor(g), q) <==> InGrid(g, q)
    ensures forall q :: q in GridFloor(g).walls <==> InGrid(g, q) && g[q.y][q.x] == '#'
  {
    forall q ensures q in GridFloor(g).walls <==> InGrid(g, q) && g[q.y][q.x] == '#' {
      WallsFromCells(g, 0, q);
    }
  }

  /** Putting '#' on a '.' cell adds exactly that wall. */
  lemma {:induction false} PutWallFloor(g: Grid, q: Pos)
    requires Rectangular(g) && InGrid(g, q) && g[q.y][q.x] == '.'
    ensures Rectangular(Put(g, q, '#'))
    ensures GridFloor(Put(g, q, '#')) == AddWall(GridFloor(g), q)
  {
    var h := Put(g, q, '#');
    GridFloorCells(g);
    GridFloorCells(h);
    assert GridFloor(h).walls == AddWall(GridFloor(g), q).walls;
  }

  // ---------------------------------------------------------------------
  // has_loop

  /** `visited_position[(y, x)]` on a `defaultdict(lambda: -1)`. */
  function Lookup(visited: map<Pos, int>, p: Pos): (r: int)
    ensures p !in visited ==> r == -1
  {
    if p in visited then visited[p] else -1
  }

  /** The loop of `has_loop` from cell `p` with heading `dm`: stop with
      False when the cell ahead is off the grid, with True when this cell
      was last left with the current heading; turn in place at '#';
      otherwise record the heading and step. `None`: the fuel ran out. */
  function LoopFrom(g: Grid, p: Pos, dm: int, visited: map<Pos, int>, fuel: nat): (r: Option<bool>)
    requires Rectangular(g) && -1 <= dm <= 3
    decreases fuel
  {
    var next := Next(p, dm);
    if !InGrid(g, next) then Some(false)
    else if Lookup(visited, p) == dm then Some(true)
    else if fuel == 0 then None
    else if g[next.y][next.x] == '#' then LoopFrom(g, p, Turn(dm), visited, fuel - 1)
    else LoopFrom(g, next, dm, visited[p := dm], fuel - 1)
  }

  /** `has_loop`: locate the guard and search from there. */
  function HasLoop(g: Grid, fuel: nat): Option<bool>
    requires Rectangular(g)
  {
    var s := GetStart(g);
    LoopFrom(g, Pos(s.y, s.x), s.heading, map[], fuel)
  }

  /** One pass of the `has_loop` loop is one patrol step: leave when the
      cell ahead is off the grid, turn in place at '#', step otherwise. */
  lemma {:induction false} LoopPassIsStep(g: Grid, p: Pos, dm: int)
    requires Rectangular(g) && 0 <= dm <= 3
    ensures !InGrid(g, Next(p, dm)) ==> Step(GridFloor(g), At(p, FromIndex(dm))) == Gone
    ensures InGrid(g, Next(p, dm)) && g[Next(p, dm).y][Next(p, dm).x] == '#' ==>
      Step(GridFloor(g), At(p, FromIndex(dm))) == At(p, FromIndex(Turn(dm)))
    ensures InGrid(g, Next(p, dm)) && g[Next(p, dm).y][Next(p, dm).x] != '#' ==>
      Step(GridFloor(g), At(p, FromIndex(dm))) == At(Next(p, dm), FromIndex(dm))
  {
    GridFloorCells(g);
    HeadingAgrees(p, dm);
  }

  /** Every recorded heading is a valid index, and the cell with that
      heading is a state the guard was in before step `t`. */
  ghost predicate Seen(f: Floor, g0: Guard, visited: map<Pos, int>, t: nat)
  {
    forall q :: q in visited ==> 0 <= visited[q] <= 3 && At(q, FromIndex(visited[q])) in History(f, g0, t)
  }

  lemma {:induction false} SeenLater(f: Floor, g0: Guard, visited: map<Pos, int>, t: nat)
    requires Seen(f, g0, visited, t)
    ensures Seen(f, g0, visited, t + 1)
  {
    assert History(f, g0, t) <= History(f, g0, t + 1);
  }

  lemma {:induction false} SeenRecord(f: Floor, g0: Guard, visited: map<Pos, int>, p: Pos, dm: int, t: nat)
    requires Seen(f, g0, visited, t) && 0 <= dm <= 3 && Iterate(f, g0, t) == At(p, FromIndex(dm))
    ensures Seen(f, g0, visited[p := dm], t + 1)
  {
    assert History(f, g0, t + 1) == History(f, g0, t) + {At(p, FromIndex(dm))};
  }

  lemma {:induction false} LoopFromSound(g: Grid, g0: Guard, p: Pos, dm: int, visited: map<Pos, int>, fuel: nat, t: nat)
    requires Rectangular(g) && 0 <= dm <= 3
    requires Iterate(GridFloor(g), g0, t) == At(p, FromIndex(dm))
    requires Seen(GridFloor(g), g0, visited, t)
    requires LoopFrom(g, p, dm, visited, fuel).Some?
    ensures LoopFrom(g, p, dm, visited, fuel).value ==> Trapped(GridFloor(g), g0)
    ensures !LoopFrom(g, p, dm, visited, fuel).value ==> Escapes(GridFloor(g), g0)
    decreases fuel, 1
  {
    var f := GridFloor(g);
    LoopPassIsStep(g, p, dm);
    var next := Next(p, dm);
    if !InGrid(g, next) {
      assert Iterate(f, g0, t + 1).Gone?;
    } else if Lookup(visited, p) == dm {
      assert p in visited;
      RevisitTraps(f, g0, t);
    } else {
      LoopFromPass(g, g0, p, dm, visited, fuel, t);
    }
  }

  lemma {:induction false} LoopFromPass(g: Grid, g0: Guard, p: Pos, dm: int, visited: map<Pos, int>, fuel: nat, t: nat)
    requires Rectangular(g) && 0 <= dm <= 3
    requires Iterate(GridFloor(g), g0, t) == At(p, FromIndex(dm))
    requires Seen(GridFloor(g), g0, visited, t)
    requires InGrid(g, Next(p, dm)) && Lookup(visited, p) != dm
    requires LoopFrom(g, p, dm, visited, fuel).Some?
    ensures LoopFrom(g, p, dm, visited, fuel).value ==> Trapped(GridFloor(g), g0)
    ensures !LoopFrom(g, p, dm, visited, fuel).value ==> Escapes(GridFloor(g), g0)
    decreases fuel, 0
  {
    var f := GridFloor(g);
    LoopPassIsStep(g, p, dm);
    var next := Next(p, dm);
    if g[next.y][next.x] == '#' {
      SeenLater(f, g0, visited, t);
      assert LoopFrom(g, p, dm, visited, fuel) == LoopFrom(g, p, Turn(dm), visited, fuel - 1);
      LoopFromSound(g, g0, p, Turn(dm), visited, fuel - 1, t + 1);
    } else {
      SeenRecord(f, g0, visited, p, dm, t);
      assert LoopFrom(g, p, dm, visited, fuel) == LoopFrom(g, next, dm, visited[p := dm], fuel - 1);
      LoopFromSound(g, g0, next, dm, visited[p := dm], fuel - 1, t + 1);
    }
  }

  /** The guard `get_start` reports, as a patrol state. */
  function StartGuard(g: Grid): Guard
    requires 0 <= GetStart(g).heading <= 3
  {
    At(Pos(GetStart(g).y, GetStart(g).x), FromIndex(GetStart(g).heading))
  }

  /** Once a guard marker is found, `has_loop` answers True only for a
      guard that patrols forever and False only for one that leaves. */
  lemma {:induction false} HasLoopSound(g: Grid, fuel: nat)
    requires Rectangular(g) && GetStart(g).heading >= 0 && HasLoop(g, fuel).Some?
    ensures HasLoop(g, fuel).value <==> Trapped(GridFloor(g), StartGuard(g))
    ensures !HasLoop(g, fuel).value <==> Escapes(GridFloor(g), StartGuard(g))
  {
    var s := GetStart(g);
    var none: map<Pos, int> := map[];
    LoopFromSound(g, StartGuard(g), Pos(s.y, s.x), s.heading, none, fuel, 0);
    EscapeExcludesTrap(GridFloor(g), StartGuard(g));
    if !HasLoop(g, fuel).value {
      var n :| Iterate(GridFloor(g), StartGuard(g), n).Gone?;
    }
  }

  /** Without a marker the heading stays -1, which is also the lookup
      default: the first pass through the loop reports a loop. */
  lemma {:induction false} UnsetHeadingReportsLoop(g: Grid, fuel: nat)
    requires Rectangular(g) && GetStart(g).heading == -1
    requires InGrid(g, Next(Pos(GetStart(g).y, GetStart(g).x), -1))
    ensures HasLoop(g, fuel) == Some(true)
  {
  }

  /** Without any special cell the start stays `(-1, -1)` with heading
      -1: the cell left of it is off the grid, so `has_loop` answers False
      before it looks at the lookup default. */
  lemma {:induction false} NoSpecialCellNoLoop(g: Grid, fuel: nat)
    requires Rectangular(g)
    requires forall i, j :: 0 <= i < |g| && 0 <= j < |g[i]| ==> !Special(g[i][j])
    ensures HasLoop(g, fuel) == Some(false)
  {
    assert GetStart(g) == NotFound;
  }

  // ---------------------------------------------------------------------
  // part1 and get_visited_cells

  /** A dictionary key: a `(y, x)` cell, or the string 'default_factory'
      that `defaultdict(default_factory=...)` stores as an ordinary entry. */
  datatype Key = Cell(y: int, x: int) | DefaultFactory

  /** A stored value: a heading index, or the lambda stored under
      'default_factory'. */
  datatype Value = Index(i: int) | Factory

  /** A dictionary as Python keeps it: keys in insertion order, and the
      value of each. */
  datatype Dict = Dict(keys: seq<Key>, values: map<Key, Value>)

  ghost predicate WellFormed(d: Dict)
  {
    NoDuplicates(d.keys) && forall k :: k in d.values <==> k in d.keys
  }

  /** `d[k] = v`: a new key goes to the end, an old key keeps its place. */
  function Store(d: Dict, k: Key, v: Value): (r: Dict)
    requires WellFormed(d)
    ensures WellFormed(r) && r.values == d.values[k := v]
    ensures d.keys <= r.keys && |r.keys| <= |d.keys| + 1
    ensures k in r.keys && forall j :: j in r.keys <==> j in d.keys || j == k
  {
    if k in d.keys then d.(values := d.values[k := v]) else Dict(d.keys + [k], d.values[k := v])
  }

  /** The dictionary `defaultdict(default_factory=lambda: -1)` starts as. */
  const Initial := Dict([DefaultFactory], map[DefaultFactory := Factory])

  /** The cells among a list of keys. */
  function CellsOf(keys: seq<Key>): (s: set<Pos>)
    ensures forall q :: q in s <==> Cell(q.y, q.x) in keys
  {
    if keys == [] then {}
    else
      var rest := CellsOf(keys[1..]);
      assert forall q: Pos :: Cell(q.y, q.x) in keys <==> Cell(q.y, q.x) == keys[0] || Cell(q.y, q.x) in keys[1..];
      match keys[0]
      case Cell(y, x) => rest + {Pos(y, x)}
      case DefaultFactory => rest
  }

  /** A duplicate-free key list holds one key per cell, plus the
      'default_factory' key if present. */
  lemma {:induction false} CellsOfCount(keys: seq<Key>)
    requires NoDuplicates(keys)
    ensures |CellsOf(keys)| + (if DefaultFactory in keys then 1 else 0) == |keys|
  {
    if keys != [] {
      CellsOfCount(keys[1..]);
      assert keys[0] !in keys[1..];
      match keys[0]
      case Cell(y, x) =>
        assert Pos(y, x) !in CellsOf(keys[1..]);
      case DefaultFactory =>
    }
  }

  /** Where the walker of `part1` stands and which way it faces. */
  datatype Walker = Walker(pos: Pos, dm: int)

  /** The loop has stopped: the cell ahead is off the grid. */
  predicate Halted(g: Grid, w: Walker)
    requires Rectangular(g) && -1 <= w.dm <= 3
  {
    !InGrid(g, Next(w.pos, w.dm))
  }

  /** One pass of the `part1` loop: at '#' ahead turn, then step once in
      the (possibly new) heading without looking again. */
  function Advance(g: Grid, w: Walker): (r: Walker)
    requires Rectangular(g) && -1 <= w.dm <= 3 && !Halted(g, w)
    ensures 0 <= r.dm <= 3 || r.dm == w.dm
    ensures r.pos == Next(w.pos, r.dm)
  {
    var ahead := Next(w.pos, w.dm);
    var d := if g[ahead.y][ahead.x] == '#' then Turn(w.dm) else w.dm;
    Walker(Next(w.pos, d), d)
  }

  /** The walk halts within `fuel` passes. */
  predicate Finishes(g: Grid, w: Walker, fuel: nat)
    requires Rectangular(g) && -1 <= w.dm <= 3
    decreases fuel
  {
    Halted(g, w) || (fuel > 0 && Finishes(g, Advance(g, w), fuel - 1))
  }

  /** The cells the walker steps onto, in order, over at most `fuel`
      passes; every step is to a neighbouring cell. */
  function Path(g: Grid, w: Walker, fuel: nat): (r: seq<Pos>)
    requires Rectangular(g) && -1 <= w.dm <= 3
    ensures |r| <= fuel
    ensures forall i :: 0 <= i < |r| ==> Adjacent(if i == 0 then w.pos else r[i - 1], r[i])
    decreases fuel
  {
    if Halted(g, w) || fuel == 0 then []
    else
      var v := Advance(g, w);
      var rest := Path(g, v, fuel - 1);
      assert forall i :: 1 <= i < |rest| + 1 ==> ([v.pos] + rest)[i] == rest[i - 1];
      [v.pos] + rest
  }

  /** The loop of `part1` and `get_visited_cells`: while the cell ahead is
      on the grid, turn if it is '#', step, and store the new cell with the
      heading. `None`: the fuel ran out. */
  function Wander(g: Grid, w: Walker, visited: Dict, fuel: nat): (r: Option<Dict>)
    requires Rectangular(g) && -1 <= w.dm <= 3 && WellFormed(visited)
    ensures r.Some? <==> Finishes(g, w, fuel)
    ensures r.Some? ==> WellFormed(r.value) && visited.keys <= r.value.keys
    ensures r.Some? ==> forall k :: k in r.value.keys && k !in visited.keys ==> k.Cell?
    decreases fuel
  {
    if Halted(g, w) then Some(visited)
    else if fuel == 0 then None
    else
      var v := Advance(g, w);
      Wander(g, v, Store(visited, Cell(v.pos.y, v.pos.x), Index(v.dm)), fuel - 1)
  }

  /** The walker `get_start` sets up. */
  function StartWalker(g: Grid): Walker
  {
    Walker(Pos(GetStart(g).y, GetStart(g).x), GetStart(g).heading)
  }

  /** `get_visited_cells`: the dictionary the walk leaves, its first key
      'default_factory'. */
  function GetVisitedCells(g: Grid, fuel: nat): (r: Option<Dict>)
    requires Rectangular(g)
    ensures r.Some? ==> WellFormed(r.value) && |r.value.keys| >= 1 && r.value.keys[0] == DefaultFactory
    ensures r.Some? ==> forall j :: 1 <= j < |r.value.keys| ==> r.value.keys[j].Cell?
  {
    var r := Wander(g, StartWalker(g), Initial, fuel);
    if r.Some? then
      assert r.value.keys[0] == DefaultFactory;
      assert forall j :: 1 <= j < |r.value.keys| ==> r.value.keys[j] != DefaultFactory;
      r
    else r
  }

  /** `part1`: the number of keys less the spurious one. */
  function Part1(g: Grid, fuel: nat): (r: Option<int>)
    requires Rectangular(g)
    ensures r.Some? ==> r.value >= 0
  {
    match GetVisitedCells(g, fuel)
    case None => None
    case Some(d) => Some(|d.keys| - 1)
  }

  /** Storing a cell key adds that cell. */
  lemma {:induction false} StoreCell(d: Dict, p: Pos, v: Value)
    requires WellFormed(d)
    ensures CellsOf(Store(d, Cell(p.y, p.x), v).keys) == CellsOf(d.keys) + {p}
  {
  }

  /** The walk stores exactly the cells on its path. */
  lemma {:induction false} WanderTracksPath(g: Grid, w: Walker, visited: Dict, fuel: nat, r: Dict)
    requires Rectangular(g) && -1 <= w.dm <= 3 && WellFormed(visited)
    requires Wander(g, w, visited, fuel) == Some(r)
    ensures forall q :: q in CellsOf(r.keys) <==> q in CellsOf(visited.keys) || q in Path(g, w, fuel)
    decreases fuel
  {
    if !Halted(g, w) {
      var k := fuel - 1;
      var v := Advance(g, w);
      var stored := Store(visited, Cell(v.pos.y, v.pos.x), Index(v.dm));
      assert Wander(g, v, stored, k) == Some(r);
      assert Path(g, w, fuel) == [v.pos] + Path(g, v, k);
      StoreCell(visited, v.pos, Index(v.dm));
      WanderTracksPath(g, v, stored, k, r);
    }
  }

  /** The cells among the keys `get_visited_cells` returns are the cells
      of the walk's path. */
  lemma {:induction false} VisitedCellsPath(g: Grid, fuel: nat)
    requires Rectangular(g) && GetVisitedCells(g, fuel).Some?
    ensures Finishes(g, StartWalker(g), fuel)
    ensures CellsOf(GetVisitedCells(g, fuel).value.keys) == set q | q in Path(g, StartWalker(g), fuel)
  {
    WanderTracksPath(g, StartWalker(g), Initial, fuel, GetVisitedCells(g, fuel).value);
  }

  /** `part1` counts the distinct cells the walk steps onto; the start
      cell counts only when the walk comes back to it. */
  lemma {:induction false} Part1Path(g: Grid, fuel: nat)
    requires Rectangular(g) && Part1(g, fuel).Some?
    ensures Finishes(g, StartWalker(g), fuel)
    ensures Part1(g, fuel).value == |set q | q in Path(g, StartWalker(g), fuel)|
  {
    VisitedCellsPath(g, fuel);
    CellsOfCount(GetVisitedCells(g, fuel).value.keys);
  }


  // ---------------------------------------------------------------------
  // part1 as evidently intended

  /** The walk `part1` evidently intends: as in `has_loop`, turn in place
      at '#' and look again before stepping, and count the start cell. */
  function PatrolFrom(g: Grid, p: Pos, dm: int, seen: set<Pos>, fuel: nat): (r: Option<set<Pos>>)
    requires Rectangular(g) && 0 <= dm <= 3
    ensures r.Some? ==> seen + {p} <= r.value
    decreases fuel
  {
    var next := Next(p, dm);
    if !InGrid(g, next) then Some(seen + {p})
    else if fuel == 0 then None
    else if g[next.y][next.x] == '#' then PatrolFrom(g, p, Turn(dm), seen, fuel - 1)
    else PatrolFrom(g, next, dm, seen + {p}, fuel - 1)
  }

  /** The corrected `part1`: the number of distinct cells the guard stands
      on, the start included. */
  function Part1Fixed(g: Grid, fuel: nat): (r: Option<nat>)
    requires Rectangular(g) && 0 <= GetStart(g).heading <= 3
    ensures r.Some? ==> r.value >= 1
  {
    var s := GetStart(g);
    match PatrolFrom(g, Pos(s.y, s.x), s.heading, {}, fuel)
    case None => None
    case Some(cells) => Some(|cells|)
  }

  /** The corrected walk collects the guard's trail up to its leaving. */
  lemma {:induction false} PatrolFromTracks(g: Grid, g0: Guard, p: Pos, dm: int, seen: set<Pos>, fuel: nat, t: nat)
    requires Rectangular(g) && 0 <= dm <= 3
    requires Iterate(GridFloor(g), g0, t) == At(p, FromIndex(dm))
    requires seen + {p} == Trail(GridFloor(g), g0, t + 1)
    requires PatrolFrom(g, p, dm, seen, fuel).Some?
    ensures exists n: nat ::
      Iterate(GridFloor(g), g0, n).Gone? && PatrolFrom(g, p, dm, seen, fuel).value == Trail(GridFloor(g), g0, n)
    decreases fuel, 1
  {
    LoopPassIsStep(g, p, dm);
    var next := Next(p, dm);
    if !InGrid(g, next) {
      assert Iterate(GridFloor(g), g0, t + 1).Gone?;
    } else if g[next.y][next.x] == '#' {
      PatrolTurnPass(g, g0, p, dm, seen, fuel, t);
    } else {
      PatrolMovePass(g, g0, p, dm, seen, fuel, t);
    }
  }

  lemma {:induction false} PatrolTurnPass(g: Grid, g0: Guard, p: Pos, dm: int, seen: set<Pos>, fuel: nat, t: nat)
    requires Rectangular(g) && 0 <= dm <= 3
    requires Iterate(GridFloor(g), g0, t) == At(p, FromIndex(dm))
    requires seen + {p} == Trail(GridFloor(g), g0, t + 1)
    requires InGrid(g, Next(p, dm)) && g[Next(p, dm).y][Next(p, dm).x] == '#'
    requires PatrolFrom(g, p, dm, seen, fuel).Some?
    ensures exists n: nat ::
      Iterate(GridFloor(g), g0, n).Gone? && PatrolFrom(g, p, dm, seen, fuel).value == Trail(GridFloor(g), g0, n)
    decreases fuel, 0
  {
    var f := GridFloor(g);
    LoopPassIsStep(g, p, dm);
    assert Trail(f, g0, t + 2) == Trail(f, g0, t + 1) + {p};
    var r := PatrolFrom(g, p, Turn(dm), seen, fuel - 1);
    assert PatrolFrom(g, p, dm, seen, fuel) == r;
    PatrolFromTracks(g, g0, p, Turn(dm), seen, fuel - 1, t + 1);
    var n: nat :| Iterate(f, g0, n).Gone? && r.value == Trail(f, g0, n);
  }

  lemma {:induction false} PatrolMovePass(g: Grid, g0: Guard, p: Pos, dm: int, seen: set<Pos>, fuel: nat, t: nat)
    requires Rectangular(g) && 0 <= dm <= 3
    requires Iterate(GridFloor(g), g0, t) == At(p, FromIndex(dm))
    requires seen + {p} == Trail(GridFloor(g), g0, t + 1)
    requires InGrid(g, Next(p, dm)) && g[Next(p, dm).y][Next(p, dm).x] != '#'
    requires PatrolFrom(g, p, dm, seen, fuel).Some?
    ensures exists n: nat ::
      Iterate(GridFloor(g), g0, n).Gone? && PatrolFrom(g, p, dm, seen, fuel).value == Trail(GridFloor(g), g0, n)
    decreases fuel, 0
  {
    var f := GridFloor(g);
    var next := Next(p, dm);
    LoopPassIsStep(g, p, dm);
    assert Trail(f, g0, t + 2) == Trail(f, g0, t + 1) + {next};
    var r := PatrolFrom(g, next, dm, seen + {p}, fuel - 1);
    assert PatrolFrom(g, p, dm, seen, fuel) == r;
    PatrolFromTracks(g, g0, next, dm, seen + {p}, fuel - 1, t + 1);
    var n: nat :| Iterate(f, g0, n).Gone? && r.value == Trail(f, g0, n);
  }

  /** The corrected `part1` counts exactly the cells of the guard's route,
      and answers only for a guard that leaves. */
  lemma {:induction false} Part1FixedRoute(g: Grid, fuel: nat)
    requires Rectangular(g) && 0 <= GetStart(g).heading <= 3 && Part1Fixed(g, fuel).Some?
    ensures Escapes(GridFloor(g), StartGuard(g))
    ensures Part1Fixed(g, fuel).value == |Route(GridFloor(g), StartGuard(g))|
  {
    var s := GetStart(g);
    var f, g0 := GridFloor(g), StartGuard(g);
    var none: set<Pos> := {};
    assert Trail(f, g0, 1) == {Pos(s.y, s.x)};
    PatrolFromTracks(g, g0, Pos(s.y, s.x), s.heading, none, fuel, 0);
    var n: nat :| Iterate(f, g0, n).Gone? && PatrolFrom(g, Pos(s.y, s.x), s.heading, none, fuel).value == Trail(f, g0, n);
    TrailOfEscape(f, g0, n);
    assert Route(f, g0) == Trail(f, g0, n);
  }

  // ---------------------------------------------------------------------
  // part2

  /** The cell `copy_map[y][x] = '#'` overwrites for one key of the walk,
      or `None` when part2 skips the key: 'default_factory' (unpacking the
      string raises, and the handler moves on), the start cell, a cell the
      bounds guard rejects, or an index Python rejects. The source's guard
      skips only keys with BOTH coordinates out of range (`strict` false);
      `strict` true skips a key with EITHER out of range. A negative index
      that passes reads from the end of the row or grid. */
  function TestedCell(g: Grid, k: Key, start: Start, strict: bool): (r: Option<Pos>)
    requires Rectangular(g)
    ensures r.Some? ==> InGrid(g, r.value) && k.Cell?
    ensures strict && r.Some? ==> r.value == Pos(k.y, k.x)
  {
    match k
    case DefaultFactory => None
    case Cell(y, x) =>
      var rowOk := 0 <= y < |g|;
      var colOk := 0 <= x < |g[0]|;
      if x == start.x && y == start.y then None
      else if strict && (!rowOk || !colOk) then None
      else if !strict && !rowOk && !colOk then None
      else if !(0 <= y + |g| && y < |g|) || !(0 <= x + |g[0]| && x < |g[0]|) then None
      else Some(Pos(Wrap(|g|, y), Wrap(|g[0]|, x)))
  }

  /** The loop of part2 over the keys: for each tested cell holding '.',
      run `has_loop` on a copy with '#' there and count the loops. `None`:
      a `has_loop` run ran out of fuel. */
  function Trials(g: Grid, keys: seq<Key>, start: Start, strict: bool, fuel: nat): (r: Option<nat>)
    requires Rectangular(g)
    ensures r.Some? ==> r.value <= |keys|
    ensures r.Some? && DefaultFactory in keys ==> r.value < |keys|
  {
    if keys == [] then Some(0)
    else
      var rest := Trials(g, keys[1..], start, strict, fuel);
      assert DefaultFactory in keys && keys[0] != DefaultFactory ==> DefaultFactory in keys[1..];
      match TestedCell(g, keys[0], start, strict)
      case None => rest
      case Some(q) =>
        if g[q.y][q.x] != '.' then rest
        else
          PutWallFloor(g, q);
          match HasLoop(Put(g, q, '#'), fuel)
          case None => None
          case Some(b) =>
            if rest.None? then None else Some(rest.value + if b then 1 else 0)
  }

  /** `part2` as written: the `and` bounds guard. */
  function Part2(g: Grid, fuel: nat): (r: Option<nat>)
    requires Rectangular(g)
    ensures r.Some? ==> GetVisitedCells(g, fuel).Some? && r.value < |GetVisitedCells(g, fuel).value.keys|
  {
    match GetVisitedCells(g, fuel)
    case None => None
    case Some(d) => Trials(g, d.keys, GetStart(g), false, fuel)
  }

  /** `part2` with the bounds guard skipping a key when either coordinate
      is off the grid. */
  function Part2Fixed(g: Grid, fuel: nat): (r: Option<nat>)
    requires Rectangular(g)
    ensures r.Some? ==> GetVisitedCells(g, fuel).Some? && r.value < |GetVisitedCells(g, fuel).value.keys|
  {
    match GetVisitedCells(g, fuel)
    case None => None
    case Some(d) => Trials(g, d.keys, GetStart(g), true, fuel)
  }

  /** The candidate cells where one more '#' traps the guard: on the grid,
      not the start, and '.' in the original grid. */
  ghost function Obstructions(g: Grid, cands: set<Pos>): set<Pos>
    requires Rectangular(g) && 0 <= GetStart(g).heading <= 3
  {
    set q | q in cands && InGrid(g, q) && q != Pos(GetStart(g).y, GetStart(g).x) && g[q.y][q.x] == '.' &&
      Trapped(AddWall(GridFloor(g), q), StartGuard(g))
  }

  /** Counting over the duplicate-free keys with the corrected guard counts
      exactly the obstructions among the keys' cells, in any key order. */
  lemma {:induction false} TrialsCount(g: Grid, keys: seq<Key>, fuel: nat)
    requires Rectangular(g) && 0 <= GetStart(g).heading <= 3 && NoDuplicates(keys)
    requires Trials(g, keys, GetStart(g), true, fuel).Some?
    ensures Trials(g, keys, GetStart(g), true, fuel).value == |Obstructions(g, CellsOf(keys))|
    decreases |keys|, 1
  {
    if keys != [] {
      TrialCount(g, keys, fuel);
    }
  }

  lemma {:induction false} TrialCount(g: Grid, keys: seq<Key>, fuel: nat)
    requires Rectangular(g) && 0 <= GetStart(g).heading <= 3 && NoDuplicates(keys) && keys != []
    requires Trials(g, keys, GetStart(g), true, fuel).Some?
    ensures Trials(g, keys, GetStart(g), true, fuel).value == |Obstructions(g, CellsOf(keys))|
    decreases |keys|, 0
  {
    var s := GetStart(g);
    var tail := keys[1..];
    assert keys[0] !in tail;
    var rest := Trials(g, tail, s, true, fuel);
    assert rest.Some?;
    TrialsCount(g, tail, fuel);
    match keys[0]
    case DefaultFactory =>
      assert CellsOf(keys) == CellsOf(tail);
    case Cell(_, _) =>
      TrialCellStep(g, keys, fuel);
  }

  /** One cell key: the count grows by one exactly when its cell is an
      obstruction. */
  lemma {:induction false} TrialCellStep(g: Grid, keys: seq<Key>, fuel: nat)
    requires Rectangular(g) && 0 <= GetStart(g).heading <= 3 && NoDuplicates(keys)
    requires keys != [] && keys[0].Cell?
    requires Trials(g, keys, GetStart(g), true, fuel).Some?
    requires Trials(g, keys[1..], GetStart(g), true, fuel).Some?
    requires Trials(g, keys[1..], GetStart(g), true, fuel).value == |Obstructions(g, CellsOf(keys[1..]))|
    ensures Trials(g, keys, GetStart(g), true, fuel).value == |Obstructions(g, CellsOf(keys))|
  {
    var tail := keys[1..];
    var q := Pos(keys[0].y, keys[0].x);
    assert keys[0] !in tail;
    assert CellsOf(keys) == CellsOf(tail) + {q};
    assert q !in CellsOf(tail);
    ObstructionsAdd(g, CellsOf(tail), q);
    TrialStep(g, keys, fuel);
  }

  /** The count of one cell key's trial: one exactly when its cell is an
      obstruction. */
  lemma {:induction false} TrialStep(g: Grid, keys: seq<Key>, fuel: nat)
    requires Rectangular(g) && 0 <= GetStart(g).heading <= 3
    requires keys != [] && keys[0].Cell?
    requires Trials(g, keys, GetStart(g), true, fuel).Some?
    ensures Trials(g, keys[1..], GetStart(g), true, fuel).Some?
    ensures Trials(g, keys, GetStart(g), true, fuel).value ==
      Trials(g, keys[1..], GetStart(g), true, fuel).value +
      if Pos(keys[0].y, keys[0].x) in Obstructions(g, {Pos(keys[0].y, keys[0].x)}) then 1 else 0
  {
    var s := GetStart(g);
    var q := Pos(keys[0].y, keys[0].x);
    var rest := Trials(g, keys[1..], s, true, fuel);
    if TestedCell(g, keys[0], s, true).None? {
      assert !InGrid(g, q) || q == Pos(s.y, s.x);
    } else if g[q.y][q.x] == '.' {
      TrialVerdict(g, q, fuel);
    }
  }

  /** The verdict of one trial: `has_loop` on the copy with '#' at `q`
      finds a loop exactly when `q` is an obstruction. */
  lemma {:induction false} TrialVerdict(g: Grid, q: Pos, fuel: nat)
    requires Rectangular(g) && 0 <= GetStart(g).heading <= 3
    requires InGrid(g, q) && g[q.y][q.x] == '.' && q != Pos(GetStart(g).y, GetStart(g).x)
    requires HasLoop(Put(g, q, '#'), fuel).Some?
    ensures HasLoop(Put(g, q, '#'), fuel).value <==> q in Obstructions(g, {q})
  {
    GetStartIgnoresWall(g, q);
    PutWallFloor(g, q);
    HasLoopSound(Put(g, q, '#'), fuel);
  }

  /** Adding one candidate adds it to the obstructions exactly when it
      qualifies. */
  lemma {:induction false} ObstructionsAdd(g: Grid, cands: set<Pos>, q: Pos)
    requires Rectangular(g) && 0 <= GetStart(g).heading <= 3
    ensures Obstructions(g, cands + {q}) ==
      Obstructions(g, cands) + (if q in Obstructions(g, {q}) then {q} else {})
  {
  }

  /** The corrected part2 counts the cells on the walk's path where one
      more '#' traps the guard. */
  lemma {:induction false} Part2FixedCount(g: Grid, fuel: nat)
    requires Rectangular(g) && 0 <= GetStart(g).heading <= 3 && Part2Fixed(g, fuel).Some?
    ensures Part2Fixed(g, fuel).value == |Obstructions(g, set q | q in Path(g, StartWalker(g), fuel))|
  {
    VisitedCellsPath(g, fuel);
    TrialsCount(g, GetVisitedCells(g, fuel).value.keys, fuel);
  }

  /** The two guards differ only on keys off the grid: when every cell key
      is on the grid, part2 as written and corrected count the same. */
  lemma {:induction false} TrialsAgreeOnGrid(g: Grid, keys: seq<Key>, start: Start, fuel: nat)
    requires Rectangular(g)
    requires forall i :: 0 <= i < |keys| && keys[i].Cell? ==> InGrid(g, Pos(keys[i].y, keys[i].x))
    ensures Trials(g, keys, start, false, fuel) == Trials(g, keys, start, true, fuel)
  {
    if keys != [] {
      TrialsAgreeOnGrid(g, keys[1..], start, fuel);
      assert TestedCell(g, keys[0], start, false) == TestedCell(g, keys[0], start, true);
    }
  }

  lemma {:induction false} Part2AgreesOnGrid(g: Grid, fuel: nat)
    requires Rectangular(g) && GetVisitedCells(g, fuel).Some?
    requires forall q :: q in Path(g, StartWalker(g), fuel) ==> InGrid(g, q)
    ensures Part2(g, fuel) == Part2Fixed(g, fuel)
  {
    var keys := GetVisitedCells(g, fuel).value.keys;
    VisitedCellsPath(g, fuel);
    forall i | 0 <= i < |keys| && keys[i].Cell? ensures InGrid(g, Pos(keys[i].y, keys[i].x)) {
      assert Pos(keys[i].y, keys[i].x) in CellsOf(keys);
    }
    TrialsAgreeOnGrid(g, keys, GetStart(g), fuel);
  }

  /** A guard facing down with '#' below it turns left and steps off the
      grid to `(0, -1)`. That key's row is on the grid, so the `and` guard
      lets it through; `x = -1` then reads the last column, and the trial
      walls `(0, 1)`, a cell the walk never stood on. The corrected guard
      skips the key. */
  lemma {:induction false} AndGuardTestsOffPathCell()
    ensures Rectangular(["v.", "#."]) && GetStart(["v.", "#."]) == Start(2, 0, 0)
    ensures Path(["v.", "#."], StartWalker(["v.", "#."]), 1) == [Pos(0, -1)]
    ensures GetVisitedCells(["v.", "#."], 1).Some?
    ensures GetVisitedCells(["v.", "#."], 1).value.keys == [DefaultFactory, Cell(0, -1)]
    ensures TestedCell(["v.", "#."], Cell(0, -1), Start(2, 0, 0), false) == Some(Pos(0, 1))
    ensures TestedCell(["v.", "#."], Cell(0, -1), Start(2, 0, 0), true) == None
  {
    var g: Grid := ["v.", "#."];
    assert ScanRow(g[0], 0, 0, NotFound) == Start(2, 0, 0);
    assert ScanRow(g[1], 1, 0, Start(2, 0, 0)) == Start(2, 0, 0);
    assert GetStart(g) == Start(2, 0, 0);
    var w := StartWalker(g);
    assert !Halted(g, w);
    assert Advance(g, w) == Walker(Pos(0, -1), 3);
    assert Halted(g, Walker(Pos(0, -1), 3));
  }

  /** A guard alone on a one-cell grid stands on one cell, but `part1`
      answers 0: the start cell is never stored. */
  lemma {:induction false} Part1SkipsStart()
    ensures Rectangular(["^"]) && GetStart(["^"]) == Start(0, 0, 0)
    ensures Part1(["^"], 0) == Some(0)
    ensures Part1Fixed(["^"], 0) == Some(1)
  {
    var g: Grid := ["^"];
    assert ScanRow(g[0], 0, 0, NotFound) == Start(0, 0, 0);
    assert GetStart(g) == Start(0, 0, 0);
    assert Halted(g, StartWalker(g));
  }

  /** Blocked ahead, the walker turns right and steps without looking
      again, onto the '#' at `(1, 1)`. */
  lemma {:induction false} WalkerEntersWall()
    ensures Rectangular(["#.", "^#"]) && GetStart(["#.", "^#"]) == Start(0, 0, 1)
    ensures Path(["#.", "^#"], StartWalker(["#.", "^#"]), 1) == [Pos(1, 1)]
    ensures ["#.", "^#"][1][1] == '#'
  {
    var g: Grid := ["#.", "^#"];
    assert ScanRow(g[0], 0, 0, NotFound) == NotFound;
    assert ScanRow(g[1], 1, 0, NotFound) == Start(0, 0, 1);
    assert GetStart(g) == Start(0, 0, 1);
    var w := StartWalker(g);
    assert !Halted(g, w);
    assert Advance(g, w) == Walker(Pos(1, 1), 1);
    assert Halted(g, Walker(Pos(1, 1), 1));
  }
}

=== FILE: reports.dfy ===
/** Report-safety classification of python/day02.py: a report is a list
    of levels; it is safe when the levels move strictly in one direction
    by 1 to 3 at every step. */
module Reports {
  import opened Basics

  /** One step from `a` to `b` is allowed in the direction `ascending`. */
  predicate StepOk(a: int, b: int, ascending: bool)
  {
    1 <= Gap(a, b) <= 3 && (if ascending then a < b else a > b)
  }

  /** The rule `is_safe` checks: at least two levels, the first two differ,
      and every step goes in the first step's direction by 1 to 3. */
  predicate Safe(record: seq<int>)
  {
    |record| >= 2 && record[0] != record[1] &&
    forall i :: 0 <= i < |record| - 1 ==> StepOk(record[i], record[i + 1], record[0] < record[1])
  }

  /** Strictly increasing by 1 to 3 at every step. */
  predicate Climbs(record: seq<int>)
  {
    forall i :: 0 <= i < |record| - 1 ==> record[i] < record[i + 1] <= record[i] + 3
  }

  /** Strictly decreasing by 1 to 3 at every step. */
  predicate Falls(record: seq<int>)
  {
    forall i :: 0 <= i < |record| - 1 ==> record[i] - 3 <= record[i + 1] < record[i]
  }

  /** A report is safe exactly when it has two levels or more and climbs or
      falls gently all the way. */
  lemma {:induction false} SafeIffGentle(record: seq<int>)
    ensures Safe(record) <==> |record| >= 2 && (Climbs(record) || Falls(record))
  {
    if |record| >= 2 && Climbs(record) {
      assert record[0] < record[1];
    }
    if |record| >= 2 && Falls(record) {
      assert record[0] > record[1];
    }
  }

  /** `is_safe`: rejects short reports and an equal first pair, fixes the
      direction from the first pair, then walks adjacent pairs. */
  method IsSafe(record: seq<int>) returns (safe: bool)
    ensures safe <==> Safe(record)
    ensures |record| < 2 ==> !safe
    ensures |record| >= 2 && record[0] == record[1] ==> !safe
  {
    if |record| < 2 {
      return false;
    }
    if record[0] == record[1] {
      return false;
    }
    var ascending := record[0] < record[1];
    var left, right := 0, 1;
    while right < |record|
      invariant 1 <= right <= |record| && left == right - 1
      invariant forall i :: 0 <= i < right - 1 ==> StepOk(record[i], record[i + 1], ascending)
    {
      if record[left] == record[right] {
        return false;
      }
      if !(1 <= Gap(record[left], record[right]) <= 3) {
        return false;
      }
      if ascending {
        if record[left] > record[right] {
          return false;
        }
      } else {
        if record[left] < record[right] {
          return false;
        }
      }
      left, right := left + 1, right + 1;
    }
    return true;
  }

  /** The report without the level at index `idx`. */
  function RemoveAt(record: seq<int>, idx: nat): (r: seq<int>)
    requires idx < |record|
    ensures |r| == |record| - 1
    ensures forall k :: 0 <= k < |r| ==> r[k] == if k < idx then record[k] else record[k + 1]
  {
    record[..idx] + record[idx + 1..]
  }

  /** Deleting one level, chosen by position, makes the report safe. */
  predicate Repairable(record: seq<int>)
  {
    exists idx :: 0 <= idx < |record| && Safe(RemoveAt(record, idx))
  }

  /** `can_make_safe`: tries each deletion by index in turn. */
  method CanMakeSafe(record: seq<int>) returns (ok: bool)
    ensures ok <==> Repairable(record)
  {
    var idx := 0;
    while idx < |record|
      invariant idx <= |record|
      invariant forall k :: 0 <= k < idx ==> !Safe(RemoveAt(record, k))
    {
      var safe := IsSafe(RemoveAt(record, idx));
      if safe {
        return true;
      }
      idx := idx + 1;
    }
    return false;
  }

  /** A safe report of three levels or more stays safe without its last
      level, so it is also repairable. */
  lemma {:induction false} SafeIsRepairable(record: seq<int>)
    requires Safe(record) && |record| >= 3
    ensures Repairable(record)
  {
    var r := RemoveAt(record, |record| - 1);
    assert r[0] == record[0] && r[1] == record[1];
    forall i | 0 <= i < |r| - 1
      ensures StepOk(r[i], r[i + 1], r[0] < r[1])
    {
      assert r[i] == record[i] && r[i + 1] == record[i + 1];
    }
  }

  /** Number of safe reports, counted from the back. */
  function SafeCount(records: seq<seq<int>>): nat
  {
    if |records| == 0 then 0
    else SafeCount(records[..|records| - 1]) + (if Safe(records[|records| - 1]) then 1 else 0)
  }

  /** Number of reports that are safe or repairable. */
  function TolerantCount(records: seq<seq<int>>): nat
  {
    if |records| == 0 then 0
    else
      var r := records[|records| - 1];
      TolerantCount(records[..|records| - 1]) + (if Safe(r) || Repairable(r) then 1 else 0)
  }

  /** `part1`: the number of safe reports. */
  method Part1(records: seq<seq<int>>) returns (count: nat)
    ensures count == SafeCount(records)
  {
    count := 0;
    var k := 0;
    while k < |records|
      invariant k <= |records|
      invariant count == SafeCount(records[..k])
    {
      assert records[..k + 1][..k] == records[..k];
      var safe := IsSafe(records[k]);
      if safe {
        count := count + 1;
      }
      k := k + 1;
    }
    assert records[..k] == records;
  }

  /** `part2`: the number of reports that are safe, or else can be made
      safe by one deletion. */
  method Part2(records: seq<seq<int>>) returns (count: nat)
    ensures count == TolerantCount(records)
  {
    count := 0;
    var k := 0;
    while k < |records|
      invariant k <= |records|
      invariant count == TolerantCount(records[..k])
    {
      assert records[..k + 1][..k] == records[..k];
      var safe := IsSafe(records[k]);
      if safe {
        count := count + 1;
      } else {
        var ok := CanMakeSafe(records[k]);
        if ok {
          count := count + 1;
        }
      }
      k := k + 1;
    }
    assert records[..k] == records;
  }

  /** Tolerating one bad level never lowers the count, and neither count
      exceeds the number of reports. */
  lemma {:induction false} CountsOrdered(records: seq<seq<int>>)
    ensures SafeCount(records) <= TolerantCount(records) <= |records|
    decreases |records|
  {
    if |records| > 0 {
      CountsOrdered(records[..|records| - 1]);
    }
  }

  /** The sample reports. */
  const Sample: seq<seq<int>> := [[7, 6, 4, 2, 1], [1, 2, 7, 8, 9], [9, 7, 6, 2, 1],
                                  [1, 3, 2, 4, 5], [8, 6, 4, 4, 1], [1, 3, 6, 7, 9]]

  /** Only the first and last sample reports are safe as they stand. */
  lemma {:induction false} SampleSafety()
    ensures Safe(Sample[0]) && Safe(Sample[5])
    ensures !Safe(Sample[1]) && !Safe(Sample[2]) && !Safe(Sample[3]) && !Safe(Sample[4])
  {
    BadStep(Sample[1], 1);
    BadStep(Sample[2], 2);
    BadStep(Sample[3], 1);
    BadStep(Sample[4], 2);
  }

  /** The fourth and fifth sample reports are repaired by deleting their
      second and third level; no deletion repairs the second or third. */
  lemma {:induction false} SampleRepairs()
    ensures Repairable(Sample[3]) && Repairable(Sample[4])
    ensures !Repairable(Sample[1]) && !Repairable(Sample[2])
  {
    assert Safe(RemoveAt(Sample[3], 1));
    assert Safe(RemoveAt(Sample[4], 2));
    forall idx | 0 <= idx < 5
      ensures !Safe(RemoveAt(Sample[1], idx)) && !Safe(RemoveAt(Sample[2], idx))
    {
      BadStep(RemoveAt(Sample[1], idx), if idx <= 1 then 0 else 1);
      BadStep(RemoveAt(Sample[2], idx), if idx <= 2 then 1 else 2);
    }
  }

  /** Two sample reports are safe, and two more are repaired by one
      deletion: the answers 2 and 4. */
  lemma {:induction false} SampleCounts()
    ensures SafeCount(Sample) == 2 && TolerantCount(Sample) == 4
  {
    SampleSafety();
    SampleRepairs();
    var s := Sample;
    assert |s[..1][..0]| == 0;
    assert SafeCount(s[..1]) == 1 && TolerantCount(s[..1]) == 1;
    assert s[..2][..1] == s[..1];
    assert SafeCount(s[..2]) == 1 && TolerantCount(s[..2]) == 1;
    assert s[..3][..2] == s[..2];
    assert SafeCount(s[..3]) == 1 && TolerantCount(s[..3]) == 1;
    assert s[..4][..3] == s[..3];
    assert SafeCount(s[..4]) == 1 && TolerantCount(s[..4]) == 2;
    assert s[..5][..4] == s[..4];
    assert SafeCount(s[..5]) == 1 && TolerantCount(s[..5]) == 3;
    assert s[..6][..5] == s[..5];
    assert s[..6] == s;
  }

  /** A report with one step outside the rule is not safe. */
  lemma {:induction false} BadStep(record: seq<int>, i: nat)
    requires |record| >= 2 && i < |record| - 1
    requires !StepOk(record[i], record[i + 1], record[0] < record[1])
    ensures !Safe(record)
  {
  }
}

=== FILE: stones.dfy ===
/** The stone line of python/day11.py: at every blink each stone changes
    by the first rule that applies to it, and a stone with an even number
    of digits splits into two. */
module Stones {
  import opened Decimal

  /** The number on the stone is written with an even number of digits. */
  predicate EvenDigits(n: nat)
  {
    |Show(n)| % 2 == 0
  }

  /** The front and back halves of the digits of `n`, read as numbers. */
  function Halves(n: nat): (nat, nat)
    requires EvenDigits(n)
  {
    var s := Show(n);
    var h := |s| / 2;
    (Parse(s[..h]), Parse(s[h..]))
  }

  /** The halves are the high and low digits of `n`: `n` is the front half
      shifted left by half the digits, plus the back half. */
  lemma {:induction false} HalvesValue(n: nat)
    requires EvenDigits(n)
    ensures Halves(n).0 * Pow10(|Show(n)| / 2) + Halves(n).1 == n
    ensures Halves(n).1 < Pow10(|Show(n)| / 2)
  {
    var s := Show(n);
    var h := |s| / 2;
    ParseShow(n);
    ParseSplit(s, h);
    ParseBound(s[h..]);
    assert |s| - h == h;
  }

  /** The stones one stone becomes at a blink: 0 becomes 1, an even digit
      count splits the digits in two, and anything else is multiplied by
      2024. */
  function Change(n: nat): (r: seq<nat>)
    ensures 1 <= |r| <= 2
    ensures |r| == 2 <==> EvenDigits(n)
  {
    if n == 0 then [1]
    else if EvenDigits(n) then [Halves(n).0, Halves(n).1]
    else [n * 2024]
  }

  /** The three rules of a blink, in the order they are tried: 0 becomes
      1, a stone with an even number of digits becomes its front and back
      halves, and any other stone is multiplied by 2024. */
  lemma {:induction false} ChangeRules(n: nat)
    ensures n == 0 ==> Change(n) == [1]
    ensures n != 0 && !EvenDigits(n) ==> Change(n) == [n * 2024]
    ensures EvenDigits(n) ==> Change(n)[0] * Pow10(|Show(n)| / 2) + Change(n)[1] == n
    ensures EvenDigits(n) ==> Change(n)[1] < Pow10(|Show(n)| / 2)
  {
    if EvenDigits(n) {
      HalvesValue(n);
    }
  }

  /** One blink of the whole line, stone by stone in order. */
  function Blink(line: seq<nat>): seq<nat>
  {
    if |line| == 0 then [] else Blink(line[..|line| - 1]) + Change(line[|line| - 1])
  }

  /** Number of stones of `line` that split. */
  function SplitCount(line: seq<nat>): nat
  {
    if |line| == 0 then 0
    else SplitCount(line[..|line| - 1]) + if EvenDigits(line[|line| - 1]) then 1 else 0
  }

  /** A blink adds one stone per split, and no stone disappears. */
  lemma {:induction false} BlinkLength(line: seq<nat>)
    ensures |Blink(line)| == |line| + SplitCount(line)
    decreases |line|
  {
    if |line| > 0 {
      BlinkLength(line[..|line| - 1]);
    }
  }

  /** Stones do not affect each other: blinking a line is blinking its
      two parts. */
  lemma {:induction false} BlinkConcat(a: seq<nat>, b: seq<nat>)
    ensures Blink(a + b) == Blink(a) + Blink(b)
    decreases |b|
  {
    if |b| > 0 {
      var n := |b| - 1;
      assert (a + b)[..|a + b| - 1] == a + b[..n];
      BlinkConcat(a, b[..n]);
    } else {
      assert a + b == a;
    }
  }

  /** The blink of one more stone extends the blink of the line. */
  lemma {:induction false} BlinkStep(line: seq<nat>, k: nat)
    requires k < |line|
    ensures Blink(line[..k + 1]) == Blink(line[..k]) + Change(line[k])
  {
    assert line[..k + 1][..k] == line[..k];
  }

  /** `blink`: walks the line with `idx`; a split replaces the stone by its
      two halves and steps over the second, so the new stones are not
      looked at again in the same blink. */
  method BlinkLoop(line: seq<nat>) returns (r: seq<nat>)
    ensures r == Blink(line)
  {
    r := line;
    var idx := 0;
    ghost var k := 0;
    while idx < |r|
      invariant k <= |line|
      invariant r == Blink(line[..k]) + line[k..]
      invariant idx == |Blink(line[..k])| && |r| == idx + |line| - k
      decreases |line| - k
    {
      LoopSplit(line, k, r, idx);
      r, idx := ChangeAt(r, idx);
      Advance(line, k, r, idx);
      k := k + 1;
    }
    assert line[..k] == line;
  }

  /** The loop state cut at `idx`: what is already blinked, the stone
      `idx` stands on, and the stones not yet looked at. */
  lemma {:induction false} LoopSplit(line: seq<nat>, k: nat, r: seq<nat>, idx: nat)
    requires k < |line|
    requires r == Blink(line[..k]) + line[k..] && idx == |Blink(line[..k])|
    ensures idx < |r| && r[idx] == line[k]
    ensures r[..idx] == Blink(line[..k]) && r[idx + 1..] == line[k + 1..]
  {
    assert r[idx..] == line[k..];
  }

  /** The body of the loop of `blink`: the stone at `idx` is changed in
      place, and `idx` moves past what it became. */
  method ChangeAt(line: seq<nat>, idx: nat) returns (r: seq<nat>, next: nat)
    requires idx < |line|
    ensures r == line[..idx] + Change(line[idx]) + line[idx + 1..]
    ensures next == idx + |Change(line[idx])|
  {
    r, next := line, idx;
    var x := r[next];
    if x == 0 {
      r := r[next := 1];
    } else if |Show(x)| % 2 == 0 {
      var h := Halves(x);
      r := r[..next] + [h.0, h.1] + r[next + 1..];
      next := next + 1;
    } else {
      r := r[next := x * 2024];
    }
    next := next + 1;
  }

  /** The loop state after one more stone. */
  lemma {:induction false} Advance(line: seq<nat>, k: nat, r: seq<nat>, idx: nat)
    requires k < |line|
    requires r == Blink(line[..k]) + Change(line[k]) + line[k + 1..]
    requires idx == |Blink(line[..k])| + |Change(line[k])|
    ensures r == Blink(line[..k + 1]) + line[k + 1..]
    ensures idx == |Blink(line[..k + 1])|
  {
    BlinkStep(line, k);
  }

  /** The line after `count` blinks. */
  function Evolve(line: seq<nat>, count: nat): seq<nat>
  {
    if count == 0 then line else Blink(Evolve(line, count - 1))
  }

  /** `part1` (and `part2`, which is the same code): the number of stones
      after `blinkCount` blinks; `range` of a negative count is empty. */
  method Part1(line: seq<nat>, blinkCount: int) returns (count: nat)
    ensures count == |Evolve(line, if blinkCount < 0 then 0 else blinkCount)|
  {
    var n := if blinkCount < 0 then 0 else blinkCount;
    var current := line;
    var i := 0;
    while i < n
      invariant i <= n
      invariant current == Evolve(line, i)
    {
      current := BlinkLoop(current);
      i := i + 1;
    }
    return |current|;
  }

  /** More blinks never leave fewer stones. */
  lemma {:induction false} StonesNeverDecrease(line: seq<nat>, a: nat, b: nat)
    requires a <= b
    ensures |Evolve(line, a)| <= |Evolve(line, b)|
    decreases b
  {
    if a < b {
      var x := Evolve(line, b - 1);
      assert |Evolve(line, a)| <= |x| by {
        StonesNeverDecrease(line, a, b - 1);
      }
      assert |x| <= |Blink(x)| by {
        BlinkLength(x);
      }
    }
  }

  // ---------------------------------------------------------------------
  // The caller's list

  /** Index of the first stone of `line` that splits, `|line|` if none. */
  function FirstSplit(line: seq<nat>): (i: nat)
    ensures i <= |line|
    ensures i < |line| ==> EvenDigits(line[i])
  {
    if |line| == 0 then 0
    else if EvenDigits(line[0]) then 0
    else 1 + FirstSplit(line[1..])
  }

  /** No stone before the first split splits. */
  lemma {:induction false} BeforeFirstSplit(line: seq<nat>, j: nat)
    requires j < FirstSplit(line)
    ensures !EvenDigits(line[j])
    decreases |line|
  {
    if j > 0 {
      BeforeFirstSplit(line[1..], j - 1);
    }
  }

  /** The list object passed to `blink` after it returns. `line[idx] = 1`
      and `line[idx] *= 2024` write into the caller's list until the first
      split rebinds `line` to a new list; the stones from that split on
      are left as they were. */
  function Touched(line: seq<nat>): seq<nat>
  {
    var i := FirstSplit(line);
    Blink(line[..i]) + line[i..]
  }

  /** `blink` as written, with the caller's list: `r` is the list
      returned, `caller` the list passed in as it is left afterwards, and
      `same` tells whether the two are one object (no stone split). */
  method BlinkShared(line: seq<nat>) returns (r: seq<nat>, caller: seq<nat>, same: bool)
    ensures r == Blink(line)
    ensures caller == Touched(line)
    ensures same <==> FirstSplit(line) == |line|
    ensures same ==> caller == r
  {
    EmptyPrefix(line);
    r, caller, same := SharedFrom(line, 0, line, 0, line, true);
  }

  /** The loop of `blink` as written from the state where the first `k`
      stones are blinked and `idx` stands on the next one. */
  method SharedFrom(ghost line: seq<nat>, ghost k: nat, r: seq<nat>, idx: nat, caller: seq<nat>, same: bool)
    returns (r': seq<nat>, caller': seq<nat>, same': bool)
    requires k <= |line|
    requires r == Blink(line[..k]) + line[k..]
    requires idx == |Blink(line[..k])| && |r| == idx + |line| - k
    requires same <==> k <= FirstSplit(line)
    requires same ==> caller == r
    requires !same ==> caller == Touched(line)
    ensures r' == Blink(line) && caller' == Touched(line)
    ensures same' <==> FirstSplit(line) == |line|
    ensures same' ==> caller' == r'
    decreases |line| - k
  {
    if idx >= |r| {
      SharedEnd(line, k, r, idx, caller, same);
      return r, caller, same;
    }
    var r1, idx1, caller1, same1 := SharedChangeAt(line, k, r, idx, caller, same);
    r', caller', same' := SharedFrom(line, k + 1, r1, idx1, caller1, same1);
  }

  /** Before the loop nothing is blinked. */
  lemma {:induction false} EmptyPrefix(line: seq<nat>)
    ensures line == Blink(line[..0]) + line[0..] && 0 == |Blink(line[..0])|
  {
    assert line[..0] == [];
  }

  /** After the loop every stone is blinked; the caller's list is the
      blinked line when nothing split, and `Touched` otherwise. */
  lemma {:induction false} SharedEnd(line: seq<nat>, k: nat, r: seq<nat>, idx: nat, caller: seq<nat>, same: bool)
    requires k <= |line| && idx >= |r|
    requires r == Blink(line[..k]) + line[k..]
    requires idx == |Blink(line[..k])| && |r| == idx + |line| - k
    requires same <==> k <= FirstSplit(line)
    requires same ==> caller == r
    requires !same ==> caller == Touched(line)
    ensures r == Blink(line) && caller == Touched(line)
    ensures same <==> FirstSplit(line) == |line|
    ensures same ==> caller == r
  {
    assert k == |line|;
    assert line[..k] == line;
    if same {
      NoSplitTouched(line);
    }
  }

  /** One pass of the loop of `blink` as written: the stone at `idx`
      changes, and while no stone has split the caller's list changes with
      it; the first split leaves the caller's list as `Touched`. */
  method SharedChangeAt(ghost line: seq<nat>, ghost k: nat, r: seq<nat>, idx: nat, caller: seq<nat>, same: bool)
    returns (r': seq<nat>, idx': nat, caller': seq<nat>, same': bool)
    requires k <= |line| && idx < |r|
    requires r == Blink(line[..k]) + line[k..]
    requires idx == |Blink(line[..k])| && |r| == idx + |line| - k
    requires same <==> k <= FirstSplit(line)
    requires same ==> caller == r
    requires !same ==> caller == Touched(line)
    ensures r' == Blink(line[..k + 1]) + line[k + 1..]
    ensures idx' == |Blink(line[..k + 1])| && |r'| == idx' + |line| - (k + 1)
    ensures same' <==> k + 1 <= FirstSplit(line)
    ensures same' ==> caller' == r'
    ensures !same' ==> caller' == Touched(line)
  {
    LoopSplit(line, k, r, idx);
    same', caller' := same, caller;
    if same {
      SharedStep(line, k, r);
      same' := !EvenDigits(r[idx]);
    }
    r', idx' := ChangeAt(r, idx);
    Advance(line, k, r', idx');
    if same' {
      caller' := r';
    }
  }

  /** Without a split the caller's list is the blinked line. */
  lemma {:induction false} NoSplitTouched(line: seq<nat>)
    requires FirstSplit(line) == |line|
    ensures Touched(line) == Blink(line)
  {
    assert line[..|line|] == line;
  }

  /** While no stone has split, the stone at `k` splits exactly when it
      is the first split, and the list at that point is `Touched`. */
  lemma {:induction false} SharedStep(line: seq<nat>, k: nat, r: seq<nat>)
    requires k < |line| && k <= FirstSplit(line) && r == Blink(line[..k]) + line[k..]
    ensures EvenDigits(line[k]) <==> k == FirstSplit(line)
    ensures k + 1 <= FirstSplit(line) <==> !EvenDigits(line[k])
    ensures EvenDigits(line[k]) ==> r == Touched(line)
  {
    if k < FirstSplit(line) {
      BeforeFirstSplit(line, k);
    }
  }

  /** The caller's list after `part1(line, count)`: each blink that splits
      nothing hands the same list back, so the next blink writes into it
      too; the first blink with a split leaves it as `Touched`. */
  function CallerAfter(line: seq<nat>, count: nat): seq<nat>
    decreases count
  {
    if count == 0 then line
    else if FirstSplit(line) < |line| then Touched(line)
    else CallerAfter(Blink(line), count - 1)
  }

  /** `part1` as written: the count, and the caller's `line` as the call
      leaves it. */
  method Part1Shared(line: seq<nat>, blinkCount: int) returns (count: nat, caller: seq<nat>)
    ensures count == |Evolve(line, if blinkCount < 0 then 0 else blinkCount)|
    ensures caller == CallerAfter(line, if blinkCount < 0 then 0 else blinkCount)
  {
    count, caller := BlinksShared(line, if blinkCount < 0 then 0 else blinkCount);
  }

  /** The loop of `part1` from a line with `left` blinks to go: the count
      at the end, and the list the first of these blinks was given as the
      loop leaves it. A blink without a split hands that list on to the
      next blink, which writes into it again. */
  method BlinksShared(current: seq<nat>, left: nat) returns (count: nat, caller: seq<nat>)
    ensures count == |Evolve(current, left)|
    ensures caller == CallerAfter(current, left)
    decreases left
  {
    if left == 0 {
      return |current|, current;
    }
    var r, c, same := BlinkShared(current);
    var k := left - 1;
    var rest;
    count, rest := BlinksShared(r, k);
    caller := if same then rest else c;
    CountStep(current, k, r, count);
    CallerStep(current, k, r, c, same, rest);
  }

  /** The first blink of `Evolve`: the count after `k + 1` blinks is the
      count of the blinked line after `k` blinks. */
  lemma {:induction false} CountStep(line: seq<nat>, k: nat, r: seq<nat>, n: nat)
    requires r == Blink(line) && n == |Evolve(r, k)|
    ensures n == |Evolve(line, k + 1)|
  {
    EvolveFront(line, k);
  }

  /** The first blink of `CallerAfter`: one with a split ends the writes
      into the list, one without hands it on. */
  lemma {:induction false} CallerStep(line: seq<nat>, k: nat, r: seq<nat>, c: seq<nat>, same: bool, rest: seq<nat>)
    requires r == Blink(line) && c == Touched(line) && (same <==> FirstSplit(line) == |line|)
    requires rest == CallerAfter(r, k)
    ensures (if same then rest else c) == CallerAfter(line, k + 1)
  {
    if same {
      assert CallerAfter(line, k + 1) == CallerAfter(Blink(line), k);
    } else {
      assert CallerAfter(line, k + 1) == Touched(line);
    }
  }

  /** The test driver as written: `part1(line, 25)`, then `part1(line, 6)`
      on the list the first call has written into. */
  method TestDriver(line: seq<nat>) returns (first: nat, second: nat)
    ensures first == |Evolve(line, 25)|
    ensures second == |Evolve(CallerAfter(line, 25), 6)|
  {
    var left, rest;
    first, left := Part1Shared(line, 25);
    second, rest := Part1Shared(left, 6);
  }

  /** The test driver with each call given the line that was read, as the
      answers asserted for the sample presume. */
  method TestDriverFixed(line: seq<nat>) returns (first: nat, second: nat)
    ensures first == |Evolve(line, 25)|
    ensures second == |Evolve(line, 6)|
  {
    first := Part1(line, 25);
    second := Part1(line, 6);
  }

  /** The input driver as written: `part1(line, 25)`, then
      `part2(line, 75)`, the same code, on the list the first call has
      written into. */
  method InputDriver(line: seq<nat>) returns (first: nat, second: nat)
    ensures first == |Evolve(line, 25)|
    ensures second == |Evolve(CallerAfter(line, 25), 75)|
  {
    var left, rest;
    first, left := Part1Shared(line, 25);
    second, rest := Part1Shared(left, 75);
  }

  /** The input driver with each call given the line that was read. */
  method InputDriverFixed(line: seq<nat>) returns (first: nat, second: nat)
    ensures first == |Evolve(line, 25)|
    ensures second == |Evolve(line, 75)|
  {
    first := Part1(line, 25);
    second := Part1(line, 75);
  }

  /** Blinking `count + 1` times is blinking the once-blinked line `count`
      times. */
  lemma {:induction false} EvolveFront(line: seq<nat>, count: nat)
    ensures Evolve(line, count + 1) == Evolve(Blink(line), count)
    decreases count
  {
    if count > 0 {
      var n := count - 1;
      EvolveFront(line, n);
      assert Evolve(line, count + 1) == Blink(Evolve(line, n + 1));
      assert Evolve(Blink(line), count) == Blink(Evolve(Blink(line), n));
    }
  }

  /** On the line `[1]` the first call leaves `[2024]` behind: its first
      blink splits nothing and hands the list back, and the second blink
      writes before it splits. The second call of the test driver then
      counts 16 stones where the line read gives 14. */
  lemma {:induction false} SecondCallSeesBlinkedLine()
    ensures CallerAfter([1], 25) == [2024]
    ensures |Evolve(CallerAfter([1], 25), 6)| == 16
    ensures |Evolve([1], 6)| == 14
  {
    OneDigit(1);
    BlinkOne(1);
    assert CallerAfter([1], 25) == CallerAfter([2024], 24);
    Split2024();
    assert Touched([2024]) == [2024];
    Grow1(1, 2024, 6);
    CountsFromOne();
  }

  /** Blinks of each stone are independent: the count of a line is the
      sum of the counts of its parts. */
  lemma {:induction false} EvolveConcat(a: seq<nat>, b: seq<nat>, count: nat)
    ensures Evolve(a + b, count) == Evolve(a, count) + Evolve(b, count)
    decreases count
  {
    if count > 0 {
      var n := count - 1;
      EvolveConcat(a, b, n);
      ConcatStep(a, b, n);
    }
  }

  /** One more blink keeps a split line split: the blink of a joined line
      is the join of the blinks. */
  lemma {:induction false} ConcatStep(a: seq<nat>, b: seq<nat>, n: nat)
    requires Evolve(a + b, n) == Evolve(a, n) + Evolve(b, n)
    ensures Evolve(a + b, n + 1) == Evolve(a, n + 1) + Evolve(b, n + 1)
  {
    var x, y := Evolve(a, n), Evolve(b, n);
    BlinkConcat(x, y);
  }

  /** A stone that becomes one stone `y` then grows as `y` does. */
  lemma {:induction false} Grow1(x: nat, y: nat, count: nat)
    requires Change(x) == [y]
    ensures |Evolve([x], count + 1)| == |Evolve([y], count)|
  {
    EvolveFront([x], count);
    BlinkOne(x);
  }

  /** A stone that splits into `y` and `z` then grows as both together. */
  lemma {:induction false} Grow2(x: nat, y: nat, z: nat, count: nat)
    requires Change(x) == [y, z]
    ensures |Evolve([x], count + 1)| == |Evolve([y], count)| + |Evolve([z], count)|
  {
    EvolveFront([x], count);
    BlinkOne(x);
    EvolveConcat([y], [z], count);
    assert [y] + [z] == [y, z];
  }

  /** One blink of a stone that does not split leaves one stone. */
  lemma {:induction false} Single(x: nat)
    requires !EvenDigits(x)
    ensures |Evolve([x], 1)| == 1
  {
    BlinkOne(x);
  }

  /** `[1]` has 14 stones after six blinks and 16 after seven: 1 becomes
      2024, which splits into 20 and 24, and then into 2, 0, 2 and 4. */
  lemma {:induction false} CountsFromOne()
    ensures |Evolve([1], 6)| == 14 && |Evolve([1], 7)| == 16
  {
    CountSix();
    CountSeven();
  }

  lemma {:induction false} CountSix()
    ensures |Evolve([1], 6)| == 14
  {
    Digits();
    Grow1(1, 2024, 5);
    Grow2(2024, 20, 24, 4);
    Grow2(20, 2, 0, 3);
    Grow2(24, 2, 4, 3);
    // 2 -> 4048 -> 40 48 -> 4 0 4 8
    Grow1(2, 4048, 2);
    Grow2(4048, 40, 48, 1);
    Grow2(40, 4, 0, 0);
    Grow2(48, 4, 8, 0);
    // 0 -> 1 -> 2024 -> 20 24
    Grow1(0, 1, 2);
    Grow1(1, 2024, 1);
    Grow2(2024, 20, 24, 0);
    // 4 -> 8096 -> 80 96 -> 8 0 9 6
    Grow1(4, 8096, 2);
    Grow2(8096, 80, 96, 1);
    Grow2(80, 8, 0, 0);
    Grow2(96, 9, 6, 0);
  }

  lemma {:induction false} CountSeven()
    ensures |Evolve([1], 7)| == 16
  {
    Digits();
    Grow1(1, 2024, 6);
    Grow2(2024, 20, 24, 5);
    Grow2(20, 2, 0, 4);
    Grow2(24, 2, 4, 4);
    // 2 -> 4048 -> 40 48 -> 4 0 4 8 -> one stone each
    Grow1(2, 4048, 3);
    Grow2(4048, 40, 48, 2);
    Grow2(40, 4, 0, 1);
    Grow2(48, 4, 8, 1);
    // 0 -> 1 -> 2024 -> 20 24 -> 2 0 2 4
    Grow1(0, 1, 3);
    Grow1(1, 2024, 2);
    Grow2(2024, 20, 24, 1);
    Grow2(20, 2, 0, 0);
    Grow2(24, 2, 4, 0);
    // 4 -> 8096 -> 80 96 -> 8 0 9 6 -> one stone each
    Grow1(4, 8096, 3);
    Grow2(8096, 80, 96, 2);
    Grow2(80, 8, 0, 1);
    Grow2(96, 9, 6, 1);
  }

  /** The single steps the counts above are built from. */
  lemma {:induction false} Digits()
    ensures Change(0) == [1] && Change(1) == [2024] && Change(2) == [4048] && Change(4) == [8096]
    ensures Change(2024) == [20, 24] && Change(4048) == [40, 48] && Change(8096) == [80, 96]
    ensures Change(20) == [2, 0] && Change(24) == [2, 4] && Change(40) == [4, 0]
    ensures Change(48) == [4, 8] && Change(80) == [8, 0] && Change(96) == [9, 6]
    ensures |Evolve([0], 1)| == 1 && |Evolve([4], 1)| == 1 && |Evolve([8], 1)| == 1
    ensures |Evolve([9], 1)| == 1 && |Evolve([6], 1)| == 1 && |Evolve([2], 1)| == 1
  {
    OneDigit(1);
    OneDigit(2);
    OneDigit(4);
    Split2024();
    SplitFourDigits(4048, 40, 48);
    SplitFourDigits(8096, 80, 96);
    SplitTwoDigits(20, 2, 0);
    SplitTwoDigits(24, 2, 4);
    SplitTwoDigits(40, 4, 0);
    SplitTwoDigits(48, 4, 8);
    SplitTwoDigits(80, 8, 0);
    SplitTwoDigits(96, 9, 6);
    Single(0);
    Single(4);
    Single(8);
    Single(9);
    Single(6);
    Single(2);
  }

  lemma {:induction false} Split2024()
    ensures Change(2024) == [20, 24]
  {
    SplitFourDigits(2024, 20, 24);
  }

  lemma {:induction false} BlinkOne(a: nat)
    ensures Blink([a]) == Change(a)
  {
    assert [a][..0] == [];
  }

  /** A single non-zero digit is multiplied by 2024. */
  lemma {:induction false} OneDigit(d: nat)
    requires 0 < d < 10
    ensures Change(d) == [d * 2024]
  {
    assert |Show(d)| == 1;
  }

  lemma {:induction false} SplitTwoDigits(n: nat, a: nat, b: nat)
    requires 10 <= n < 100 && a == n / 10 && b == n % 10
    ensures Change(n) == [a, b]
  {
    assert |Show(n)| == 2 by {
      assert n / 10 < 10;
    }
    HalvesValue(n);
    assert Pow10(1) == 10;
    DivModUnique(n, 10, Halves(n).0, Halves(n).1);
  }

  lemma {:induction false} SplitFourDigits(n: nat, a: nat, b: nat)
    requires 1000 <= n < 10000 && a == n / 100 && b == n % 100
    ensures Change(n) == [a, b]
  {
    assert |Show(n)| == 4 by {
      assert |Show(n / 10)| == 3 by {
        assert |Show(n / 10 / 10)| == 2 by {
          assert n / 10 / 10 / 10 < 10;
        }
      }
    }
    HalvesValue(n);
    assert Pow10(2) == 100;
    DivModUnique(n, 100, Halves(n).0, Halves(n).1);
  }

  /** A stone 0 becomes 1; 1 becomes 2024; 2024 splits into 20 and 24;
      and 1000 splits into 10 and 0. */
  lemma {:induction false} ChangeSamples()
    ensures Change(0) == [1] && Change(1) == [2024]
    ensures Change(2024) == [20, 24] && Change(1000) == [10, 0]
  {
    ShowSamples();
    var s, t := Show(2024), Show(1000);
    assert s[..2] == "20" && s[2..] == "24";
    assert t[..2] == "10" && t[2..] == "00";
    ParseSamples();
  }

  /** The digits of the sample stones. */
  lemma {:induction false} ShowSamples()
    ensures Show(1) == "1" && Show(2024) == "2024" && Show(1000) == "1000"
  {
    assert Show(20) == "20" && Show(202) == "202";
    assert Show(10) == "10" && Show(100) == "100";
  }

  /** The halves of the sample stones, read back. */
  lemma {:induction false} ParseSamples()
    ensures Parse("20") == 20 && Parse("24") == 24
    ensures Parse("10") == 10 && Parse("00") == 0
  {
    assert Parse("2") == 2 && Parse("1") == 1 && Parse("0") == 0;
  }
}

=== FILE: trails.dfy ===
/** The trail search of python/day10.py: from a cell of a height map the
    search climbs to orthogonal neighbours exactly one higher and records
    every height-9 cell it arrives at. Recorded in a set this gives the
    score of the start, recorded in a list its rating. */
module Trails {
  import opened Basics
  import opened Decimal

  type Map = seq<seq<int>>

  /** Every row has the length of the first. */
  predicate Rectangular(m: Map)
  {
    forall y :: 0 <= y < |m| ==> |m[y]| == |m[0]|
  }

  /** Every height is a digit, as `parse_map` reads them. */
  predicate DigitHeights(m: Map)
  {
    forall y, x :: 0 <= y < |m| && 0 <= x < |m[y]| ==> 0 <= m[y][x] <= 9
  }

  predicate WellFormed(m: Map)
  {
    Rectangular(m) && DigitHeights(m)
  }

  predicate InMap(m: Map, p: (int, int))
  {
    0 <= p.0 < |m| && 0 <= p.1 < |m[p.0]|
  }

  /** `parse_map`: each character read by `int`; `None` where a
      character is not a digit and `int` raises ValueError. */
  function ParseMap(lines: seq<string>): (r: Option<Map>)
    ensures r.Some? <==> forall y :: 0 <= y < |lines| ==> AllDigits(lines[y])
    ensures r.Some? ==> |r.value| == |lines| && DigitHeights(r.value)
    ensures r.Some? ==> forall y :: 0 <= y < |lines| ==>
      |r.value[y]| == |lines[y]| && forall x :: 0 <= x < |lines[y]| ==> r.value[y][x] == DigitValue(lines[y][x])
  {
    if |lines| == 0 then Some([])
    else
      var line := lines[|lines| - 1];
      match ParseMap(lines[..|lines| - 1])
      case None => None
      case Some(front) =>
        if !AllDigits(line) then None
        else Some(front + [seq(|line|, x requires 0 <= x < |line| => DigitValue(line[x]) as int)])
  }

  /** The neighbour `traverse` looks at in its `i`-th check: up, right,
      down, then left. */
  function Neighbour(y: int, x: int, i: nat): (int, int)
  {
    if i == 0 then (y - 1, x) else if i == 1 then (y, x + 1) else if i == 2 then (y + 1, x) else (y, x - 1)
  }

  /** The bounds test of the `i`-th check; on a rectangular map it holds
      exactly when the neighbour is on the map. */
  predicate Inside(m: Map, y: int, x: int, i: nat)
    requires InMap(m, (y, x))
  {
    if i == 0 then y > 0 else if i == 1 then x < |m[y]| - 1 else if i == 2 then y < |m| - 1 else x > 0
  }

  lemma {:induction false} InsideOnMap(m: Map, y: int, x: int, i: nat)
    requires Rectangular(m) && InMap(m, (y, x)) && i < 4
    ensures Inside(m, y, x, i) <==> InMap(m, Neighbour(y, x, i))
  {
  }

  /** The `i`-th check passes: the neighbour is inside and one higher. */
  predicate Climbs(m: Map, y: int, x: int, i: nat): (b: bool)
    requires WellFormed(m) && InMap(m, (y, x)) && i < 4
    ensures b ==> InMap(m, Neighbour(y, x, i))
  {
    InsideOnMap(m, y, x, i);
    var n := Neighbour(y, x, i);
    Inside(m, y, x, i) && m[n.0][n.1] == m[y][x] + 1
  }

  /** `traverse` with a list: the height-9 cells reached, one entry per
      way of reaching them. The height rises by one at every call, which
      bounds the depth by `9 - m[y][x]`. */
  function Trail(m: Map, y: int, x: int): (r: seq<(int, int)>)
    requires WellFormed(m) && InMap(m, (y, x))
    ensures forall k :: 0 <= k < |r| ==> InMap(m, r[k]) && m[r[k].0][r[k].1] == 9
    decreases 9 - m[y][x], 5
  {
    if m[y][x] == 9 then [(y, x)] else Climb(m, y, x, 4)
  }

  /** The entries the first `k` checks of `traverse` add, in order. */
  function Climb(m: Map, y: int, x: int, k: nat): (r: seq<(int, int)>)
    requires WellFormed(m) && InMap(m, (y, x)) && k <= 4
    ensures forall j :: 0 <= j < |r| ==> InMap(m, r[j]) && m[r[j].0][r[j].1] == 9
    decreases 9 - m[y][x], k
  {
    if k == 0 then []
    else
      var n := Neighbour(y, x, k - 1);
      Climb(m, y, x, k - 1) + if Climbs(m, y, x, k - 1) then Trail(m, n.0, n.1) else []
  }

  /** `get_score`: the number of distinct height-9 cells reached. */
  function Score(m: Map, y: int, x: int): nat
    requires WellFormed(m) && InMap(m, (y, x))
  {
    |set p | p in Trail(m, y, x)|
  }

  /** `get_rating`: the number of entries of the list. */
  function Rating(m: Map, y: int, x: int): nat
    requires WellFormed(m) && InMap(m, (y, x))
  {
    |Trail(m, y, x)|
  }

  /** A cell is never scored higher than rated. */
  lemma {:induction false} ScoreAtMostRating(m: Map, y: int, x: int)
    requires WellFormed(m) && InMap(m, (y, x))
    ensures Score(m, y, x) <= Rating(m, y, x)
  {
    SetCardAtMostLength(Trail(m, y, x));
  }

  /** From a height-9 cell the search records that cell alone. */
  lemma {:induction false} SummitStart(m: Map, y: int, x: int)
    requires WellFormed(m) && InMap(m, (y, x)) && m[y][x] == 9
    ensures Trail(m, y, x) == [(y, x)]
    ensures Score(m, y, x) == 1 && Rating(m, y, x) == 1
  {
    assert (set p | p in [(y, x)]) == {(y, x)};
  }

  // ---------------------------------------------------------------------
  // Hiking trails

  /** `p` and `q` are orthogonal neighbours. */
  predicate Adjacent(p: (int, int), q: (int, int))
  {
    (p.0 == q.0 && (p.1 - q.1 == 1 || q.1 - p.1 == 1)) ||
    (p.1 == q.1 && (p.0 - q.0 == 1 || q.0 - p.0 == 1))
  }

  /** A hiking trail: cells of the map, each an orthogonal neighbour of the
      one before and one higher, ending at height 9. */
  ghost predicate IsHike(m: Map, t: seq<(int, int)>)
  {
    |t| >= 1 &&
    (forall k :: 0 <= k < |t| ==> InMap(m, t[k])) &&
    (forall k :: 0 <= k < |t| - 1 ==> Adjacent(t[k], t[k + 1]) && m[t[k + 1].0][t[k + 1].1] == m[t[k].0][t[k].1] + 1) &&
    m[t[|t| - 1].0][t[|t| - 1].1] == 9
  }

  /** The trails of `s`, each preceded by `p`. */
  function Prefixed(p: (int, int), s: set<seq<(int, int)>>): (r: set<seq<(int, int)>>)
    ensures forall t :: t in r <==> |t| >= 1 && t[0] == p && t[1..] in s
  {
    var r := set u | u in s :: [p] + u;
    assert forall t :: |t| >= 1 && t[0] == p && t[1..] in s ==> t == [p] + t[1..];
    r
  }

  /** Prefixing one cell loses no trail. */
  lemma {:induction false} PrefixedCard(p: (int, int), s: set<seq<(int, int)>>)
    ensures |Prefixed(p, s)| == |s|
    decreases |s|
  {
    if s != {} {
      var u :| u in s;
      var rest := s - {u};
      PrefixedCard(p, rest);
      assert Prefixed(p, s) == Prefixed(p, rest) + {[p] + u};
      assert ([p] + u)[1..] == u;
      assert [p] + u !in Prefixed(p, rest);
    } else {
      assert Prefixed(p, s) == {};
    }
  }

  /** The hiking trails from `(y, x)`, built the way the search runs. */
  ghost function Hikes(m: Map, y: int, x: int): set<seq<(int, int)>>
    requires WellFormed(m) && InMap(m, (y, x))
    decreases 9 - m[y][x], 5
  {
    if m[y][x] == 9 then {[(y, x)]} else HikesVia(m, y, x, 4)
  }

  /** The trails from `(y, x)` through the neighbours of the first `k`
      checks. */
  ghost function HikesVia(m: Map, y: int, x: int, k: nat): set<seq<(int, int)>>
    requires WellFormed(m) && InMap(m, (y, x)) && k <= 4
    decreases 9 - m[y][x], k
  {
    if k == 0 then {}
    else
      var n := Neighbour(y, x, k - 1);
      HikesVia(m, y, x, k - 1) + if Climbs(m, y, x, k - 1) then Prefixed((y, x), Hikes(m, n.0, n.1)) else {}
  }

  /** A trail through the first `k` checks starts at `(y, x)` and goes on
      to the neighbour of one of them. */
  lemma {:induction false} HikesViaShape(m: Map, y: int, x: int, k: nat, t: seq<(int, int)>) returns (i: nat)
    requires WellFormed(m) && InMap(m, (y, x)) && k <= 4 && t in HikesVia(m, y, x, k)
    ensures |t| >= 2 && t[0] == (y, x)
    ensures i < k && Climbs(m, y, x, i) && t[1] == Neighbour(y, x, i)
    ensures t[1..] in Hikes(m, Neighbour(y, x, i).0, Neighbour(y, x, i).1)
    decreases k
  {
    var n := Neighbour(y, x, k - 1);
    if t in HikesVia(m, y, x, k - 1) {
      i := HikesViaShape(m, y, x, k - 1, t);
    } else {
      i := k - 1;
      HikesStart(m, n.0, n.1, t[1..]);
    }
  }

  /** Every trail built for `(y, x)` starts there. */
  lemma {:induction false} HikesStart(m: Map, y: int, x: int, t: seq<(int, int)>)
    requires WellFormed(m) && InMap(m, (y, x)) && t in Hikes(m, y, x)
    ensures |t| >= 1 && t[0] == (y, x)
    decreases 9 - m[y][x], 1
  {
    if m[y][x] != 9 {
      HikesViaStart(m, y, x, 4, t);
    }
  }

  lemma {:induction false} HikesViaStart(m: Map, y: int, x: int, k: nat, t: seq<(int, int)>)
    requires WellFormed(m) && InMap(m, (y, x)) && k <= 4 && t in HikesVia(m, y, x, k)
    ensures |t| >= 1 && t[0] == (y, x)
    decreases 9 - m[y][x], 0, k
  {
    if t in HikesVia(m, y, x, k - 1) {
      HikesViaStart(m, y, x, k - 1, t);
    }
  }

  /** The trails built for `(y, x)` are exactly the hiking trails that
      start at `(y, x)`. */
  lemma {:induction false} HikesAreHikes(m: Map, y: int, x: int, t: seq<(int, int)>)
    requires WellFormed(m) && InMap(m, (y, x))
    ensures t in Hikes(m, y, x) <==> IsHike(m, t) && t[0] == (y, x)
  {
    if t in Hikes(m, y, x) {
      HikesSound(m, y, x, t);
    }
    if IsHike(m, t) && t[0] == (y, x) {
      HikesComplete(m, y, x, t);
    }
  }

  lemma {:induction false} HikesSound(m: Map, y: int, x: int, t: seq<(int, int)>)
    requires WellFormed(m) && InMap(m, (y, x)) && t in Hikes(m, y, x)
    ensures IsHike(m, t) && t[0] == (y, x)
    decreases 9 - m[y][x]
  {
    if m[y][x] != 9 {
      var i := HikesViaShape(m, y, x, 4, t);
      var n := Neighbour(y, x, i);
      InsideOnMap(m, y, x, i);
      HikesSound(m, n.0, n.1, t[1..]);
      assert t == [(y, x)] + t[1..];
      ExtendHike(m, (y, x), t[1..]);
    }
  }

  /** A cell one lower next to the start of a hiking trail extends it. */
  lemma {:induction false} ExtendHike(m: Map, p: (int, int), u: seq<(int, int)>)
    requires IsHike(m, u) && InMap(m, p) && Adjacent(p, u[0])
    requires m[u[0].0][u[0].1] == m[p.0][p.1] + 1
    ensures IsHike(m, [p] + u)
  {
    var t := [p] + u;
    forall k | 0 <= k < |t| - 1
      ensures Adjacent(t[k], t[k + 1]) && m[t[k + 1].0][t[k + 1].1] == m[t[k].0][t[k].1] + 1
    {
      if k > 0 {
        assert t[k] == u[k - 1] && t[k + 1] == u[k];
      }
    }
  }

  /** A hiking trail of two cells or more starts below height 9. */
  lemma {:induction false} HikeClimbs(m: Map, t: seq<(int, int)>)
    requires DigitHeights(m) && IsHike(m, t) && |t| >= 2
    ensures m[t[0].0][t[0].1] < 9
  {
    assert InMap(m, t[1]);
  }

  /** The rest of a hiking trail of two cells or more is a hiking trail. */
  lemma {:induction false} HikeRest(m: Map, t: seq<(int, int)>)
    requires IsHike(m, t) && |t| >= 2
    ensures IsHike(m, t[1..])
  {
    var u := t[1..];
    forall k | 0 <= k < |u| - 1
      ensures Adjacent(u[k], u[k + 1]) && m[u[k + 1].0][u[k + 1].1] == m[u[k].0][u[k].1] + 1
    {
      assert u[k] == t[k + 1] && u[k + 1] == t[k + 2];
    }
  }

  /** An orthogonal neighbour on the map is the neighbour of one of the
      four checks, and passes it when it is one higher. */
  lemma {:induction false} NeighbourIndex(m: Map, y: int, x: int, q: (int, int)) returns (i: nat)
    requires WellFormed(m) && InMap(m, (y, x)) && InMap(m, q) && Adjacent((y, x), q)
    ensures i < 4 && q == Neighbour(y, x, i) && Inside(m, y, x, i)
    ensures m[q.0][q.1] == m[y][x] + 1 ==> Climbs(m, y, x, i)
  {
    i := if q.0 == y - 1 then 0 else if q.1 == x + 1 then 1 else if q.0 == y + 1 then 2 else 3;
    InsideOnMap(m, y, x, i);
  }

  lemma {:induction false} HikesComplete(m: Map, y: int, x: int, t: seq<(int, int)>)
    requires WellFormed(m) && InMap(m, (y, x)) && IsHike(m, t) && t[0] == (y, x)
    ensures t in Hikes(m, y, x)
    decreases 9 - m[y][x]
  {
    if m[y][x] == 9 {
      if |t| > 1 {
        HikeClimbs(m, t);
      }
      assert t == [(y, x)];
    } else {
      assert |t| > 1;
      var q := t[1];
      HikeRest(m, t);
      var i := NeighbourIndex(m, y, x, q);
      HikesComplete(m, q.0, q.1, t[1..]);
      assert t == [(y, x)] + t[1..];
      HikesViaHolds(m, y, x, 4, i, t);
    }
  }

  /** A trail through the neighbour of a passing check is among those the
      checks up to it build. */
  lemma {:induction false} HikesViaHolds(m: Map, y: int, x: int, k: nat, i: nat, t: seq<(int, int)>)
    requires WellFormed(m) && InMap(m, (y, x)) && i < k <= 4 && Climbs(m, y, x, i)
    requires |t| >= 1 && t[0] == (y, x)
    requires t[1..] in Hikes(m, Neighbour(y, x, i).0, Neighbour(y, x, i).1)
    ensures t in HikesVia(m, y, x, k)
    decreases k
  {
    if i < k - 1 {
      HikesViaHolds(m, y, x, k - 1, i, t);
    }
  }

  /** The rating of a cell is the number of hiking trails from it: each
      entry of the list is the end of one trail, and trails through
      different neighbours differ in their second cell. */
  lemma {:induction false} RatingCountsHikes(m: Map, y: int, x: int)
    requires WellFormed(m) && InMap(m, (y, x))
    ensures |Trail(m, y, x)| == |Hikes(m, y, x)|
    decreases 9 - m[y][x], 1
  {
    if m[y][x] != 9 {
      ClimbCountsHikes(m, y, x, 4);
    }
  }

  lemma {:induction false} ClimbCountsHikes(m: Map, y: int, x: int, k: nat)
    requires WellFormed(m) && InMap(m, (y, x)) && k <= 4
    ensures |Climb(m, y, x, k)| == |HikesVia(m, y, x, k)|
    decreases 9 - m[y][x], 0, k
  {
    if k > 0 {
      ClimbCountsHikes(m, y, x, k - 1);
      if Climbs(m, y, x, k - 1) {
        var n := Neighbour(y, x, k - 1);
        RatingCountsHikes(m, n.0, n.1);
        PrefixedCard((y, x), Hikes(m, n.0, n.1));
        ViaDisjoint(m, y, x, k);
        ClimbCountStep(m, y, x, k);
      }
    }
  }

  /** Adding the trails through one more neighbour adds as many list
      entries as trails. */
  lemma {:induction false} ClimbCountStep(m: Map, y: int, x: int, k: nat)
    requires WellFormed(m) && InMap(m, (y, x)) && 0 < k <= 4 && Climbs(m, y, x, k - 1)
    requires |Climb(m, y, x, k - 1)| == |HikesVia(m, y, x, k - 1)|
    requires |Trail(m, Neighbour(y, x, k - 1).0, Neighbour(y, x, k - 1).1)| ==
      |Prefixed((y, x), Hikes(m, Neighbour(y, x, k - 1).0, Neighbour(y, x, k - 1).1))|
    requires HikesVia(m, y, x, k - 1) !! Prefixed((y, x), Hikes(m, Neighbour(y, x, k - 1).0, Neighbour(y, x, k - 1).1))
    ensures |Climb(m, y, x, k)| == |HikesVia(m, y, x, k)|
  {
    var n := Neighbour(y, x, k - 1);
    var front := HikesVia(m, y, x, k - 1);
    var last := Prefixed((y, x), Hikes(m, n.0, n.1));
    assert HikesVia(m, y, x, k) == front + last;
    assert Climb(m, y, x, k) == Climb(m, y, x, k - 1) + Trail(m, n.0, n.1);
  }

  /** The trails through the last of the first `k` checks are new. */
  lemma {:induction false} ViaDisjoint(m: Map, y: int, x: int, k: nat)
    requires WellFormed(m) && InMap(m, (y, x)) && 0 < k <= 4 && Climbs(m, y, x, k - 1)
    ensures HikesVia(m, y, x, k - 1) !! Prefixed((y, x), Hikes(m, Neighbour(y, x, k - 1).0, Neighbour(y, x, k - 1).1))
  {
    var n := Neighbour(y, x, k - 1);
    forall t | t in HikesVia(m, y, x, k - 1) && t in Prefixed((y, x), Hikes(m, n.0, n.1))
      ensures false
    {
      var i := HikesViaShape(m, y, x, k - 1, t);
      HikesStart(m, n.0, n.1, t[1..]);
    }
  }

  /** The search records exactly the ends of the hiking trails from the
      start. */
  lemma {:induction false} TrailEnds(m: Map, y: int, x: int, q: (int, int))
    requires WellFormed(m) && InMap(m, (y, x))
    ensures q in Trail(m, y, x) <==> exists t :: t in Hikes(m, y, x) && EndsAt(t, q)
    decreases 9 - m[y][x], 1
  {
    if m[y][x] == 9 {
      if q == (y, x) {
        assert [(y, x)] in Hikes(m, y, x) && EndsAt([(y, x)], q);
      }
    } else {
      ClimbEnds(m, y, x, 4, q);
    }
  }

  lemma {:induction false} ClimbEnds(m: Map, y: int, x: int, k: nat, q: (int, int))
    requires WellFormed(m) && InMap(m, (y, x)) && k <= 4
    ensures q in Climb(m, y, x, k) <==> exists t :: t in HikesVia(m, y, x, k) && EndsAt(t, q)
    decreases 9 - m[y][x], 0, k
  {
    if k > 0 {
      ClimbEnds(m, y, x, k - 1, q);
      if Climbs(m, y, x, k - 1) {
        var n := Neighbour(y, x, k - 1);
        TrailEnds(m, n.0, n.1, q);
        StepEnds(m, y, x, k, q);
      }
    }
  }

  /** The ends of the trails through a passing check are the ends the
      search records from its neighbour. */
  lemma {:induction false} StepEnds(m: Map, y: int, x: int, k: nat, q: (int, int))
    requires WellFormed(m) && InMap(m, (y, x)) && 0 < k <= 4 && Climbs(m, y, x, k - 1)
    ensures (exists t :: t in Hikes(m, Neighbour(y, x, k - 1).0, Neighbour(y, x, k - 1).1) && EndsAt(t, q)) <==>
      (exists t :: t in Prefixed((y, x), Hikes(m, Neighbour(y, x, k - 1).0, Neighbour(y, x, k - 1).1)) && EndsAt(t, q))
  {
    var n := Neighbour(y, x, k - 1);
    var p := (y, x);
    if exists t :: t in Hikes(m, n.0, n.1) && EndsAt(t, q) {
      var t :| t in Hikes(m, n.0, n.1) && EndsAt(t, q);
      assert ([p] + t)[1..] == t;
      assert EndsAt([p] + t, q);
    }
    if exists t :: t in Prefixed(p, Hikes(m, n.0, n.1)) && EndsAt(t, q) {
      var t :| t in Prefixed(p, Hikes(m, n.0, n.1)) && EndsAt(t, q);
      HikesStart(m, n.0, n.1, t[1..]);
      assert EndsAt(t[1..], q);
    }
  }

  /** `t` is a trail that ends at `q`. */
  predicate EndsAt(t: seq<(int, int)>, q: (int, int))
  {
    |t| >= 1 && t[|t| - 1] == q
  }

  /** `q` is the end of a hiking trail from `(y, x)`. */
  ghost predicate Reachable(m: Map, y: int, x: int, q: (int, int))
  {
    exists t :: IsHike(m, t) && t[0] == (y, x) && EndsAt(t, q)
  }

  /** The score of a cell is the number of height-9 cells that a hiking
      trail from it reaches. */
  lemma {:induction false} ScoreCountsSummits(m: Map, y: int, x: int)
    requires WellFormed(m) && InMap(m, (y, x))
    ensures Score(m, y, x) == |set q | q in Trail(m, y, x) && Reachable(m, y, x, q)|
    ensures forall q :: q in Trail(m, y, x) <==> Reachable(m, y, x, q)
  {
    forall q ensures q in Trail(m, y, x) <==> Reachable(m, y, x, q) {
      TrailEnds(m, y, x, q);
      if q in Trail(m, y, x) {
        var t :| t in Hikes(m, y, x) && EndsAt(t, q);
        HikesAreHikes(m, y, x, t);
      }
      if Reachable(m, y, x, q) {
        var t :| IsHike(m, t) && t[0] == (y, x) && EndsAt(t, q);
        HikesAreHikes(m, y, x, t);
      }
    }
    assert (set p | p in Trail(m, y, x)) == set q | q in Trail(m, y, x) && Reachable(m, y, x, q);
  }

  /** The rating of a cell is the number of hiking trails from it. */
  lemma {:induction false} RatingCountsTrails(m: Map, y: int, x: int)
    requires WellFormed(m) && InMap(m, (y, x))
    ensures Rating(m, y, x) == |Hikes(m, y, x)|
    ensures forall t :: t in Hikes(m, y, x) <==> IsHike(m, t) && t[0] == (y, x)
  {
    RatingCountsHikes(m, y, x);
    forall t ensures t in Hikes(m, y, x) <==> IsHike(m, t) && t[0] == (y, x) {
      HikesAreHikes(m, y, x, t);
    }
  }

  // ---------------------------------------------------------------------
  // Parts

  /** What a cell adds: its rating or score when its height is 0. */
  function CellValue(m: Map, y: int, x: int, rating: bool): nat
    requires WellFormed(m) && InMap(m, (y, x))
  {
    if m[y][x] != 0 then 0 else if rating then Rating(m, y, x) else Score(m, y, x)
  }

  /** The values of the first `n` cells of row `y`. */
  function RowTotal(m: Map, y: int, n: nat, rating: bool): nat
    requires WellFormed(m) && 0 <= y < |m| && n <= |m[y]|
  {
    if n == 0 then 0 else RowTotal(m, y, n - 1, rating) + CellValue(m, y, n - 1, rating)
  }

  /** The values of the first `n` rows. */
  function GridTotal(m: Map, n: nat, rating: bool): nat
    requires WellFormed(m) && n <= |m|
  {
    if n == 0 then 0 else GridTotal(m, n - 1, rating) + RowTotal(m, n - 1, |m[n - 1]|, rating)
  }

  /** `part1`: the scores of the height-0 cells, summed. */
  function Part1(m: Map): nat
    requires WellFormed(m)
  {
    GridTotal(m, |m|, false)
  }

  /** `part2`: the ratings of the height-0 cells, summed. */
  function Part2(m: Map): nat
    requires WellFormed(m)
  {
    GridTotal(m, |m|, true)
  }

  // ---------------------------------------------------------------------
  // The totals as counts

  /** The hiking trails from the height-0 cells among the first `n` cells
      of row `y`. */
  ghost function RowHikes(m: Map, y: int, n: nat): set<seq<(int, int)>>
    requires WellFormed(m) && 0 <= y < |m| && n <= |m[y]|
  {
    if n == 0 then {}
    else RowHikes(m, y, n - 1) + if m[y][n - 1] == 0 then Hikes(m, y, n - 1) else {}
  }

  /** The hiking trails from the height-0 cells of the first `n` rows. */
  ghost function GridHikes(m: Map, n: nat): set<seq<(int, int)>>
    requires WellFormed(m) && n <= |m|
  {
    if n == 0 then {} else GridHikes(m, n - 1) + RowHikes(m, n - 1, |m[n - 1]|)
  }

  lemma {:induction false} RowHikesMembers(m: Map, y: int, n: nat, t: seq<(int, int)>)
    requires WellFormed(m) && 0 <= y < |m| && n <= |m[y]|
    ensures t in RowHikes(m, y, n) <==> IsHike(m, t) && t[0].0 == y && t[0].1 < n && m[y][t[0].1] == 0
    decreases n
  {
    if n > 0 {
      var j := n - 1;
      RowHikesMembers(m, y, j, t);
      RowHikesStep(m, y, j, t);
    }
  }

  /** Cell `j` adds the trails that start there. */
  lemma {:induction false} RowHikesStep(m: Map, y: int, j: nat, t: seq<(int, int)>)
    requires WellFormed(m) && 0 <= y < |m| && j < |m[y]|
    requires t in RowHikes(m, y, j) <==> IsHike(m, t) && t[0].0 == y && t[0].1 < j && m[y][t[0].1] == 0
    ensures t in RowHikes(m, y, j + 1) <==> IsHike(m, t) && t[0].0 == y && t[0].1 < j + 1 && m[y][t[0].1] == 0
  {
    HikesAreHikes(m, y, j, t);
  }

  lemma {:induction false} GridHikesMembers(m: Map, n: nat, t: seq<(int, int)>)
    requires WellFormed(m) && n <= |m|
    ensures t in GridHikes(m, n) <==> IsHike(m, t) && t[0].0 < n && m[t[0].0][t[0].1] == 0
    decreases n
  {
    if n > 0 {
      var j := n - 1;
      GridHikesMembers(m, j, t);
      GridHikesStep(m, j, t);
    }
  }

  /** Row `j` adds the trails that start in it. */
  lemma {:induction false} GridHikesStep(m: Map, j: nat, t: seq<(int, int)>)
    requires WellFormed(m) && j < |m|
    requires t in GridHikes(m, j) <==> IsHike(m, t) && t[0].0 < j && m[t[0].0][t[0].1] == 0
    ensures t in GridHikes(m, j + 1) <==> IsHike(m, t) && t[0].0 < j + 1 && m[t[0].0][t[0].1] == 0
  {
    RowHikesMembers(m, j, |m[j]|, t);
  }

  lemma {:induction false} RowRatings(m: Map, y: int, n: nat)
    requires WellFormed(m) && 0 <= y < |m| && n <= |m[y]|
    ensures RowTotal(m, y, n, true) == |RowHikes(m, y, n)|
    decreases n
  {
    if n > 0 {
      var j := n - 1;
      RowRatings(m, y, j);
      RowHikesSplit(m, y, j);
    }
  }

  /** The trails of one more cell are new ones: the cell's rating adds to
      the count. */
  lemma {:induction false} RowHikesSplit(m: Map, y: int, j: nat)
    requires WellFormed(m) && 0 <= y < |m| && j < |m[y]|
    ensures |RowHikes(m, y, j + 1)| == |RowHikes(m, y, j)| + CellValue(m, y, j, true)
  {
    if m[y][j] == 0 {
      var a, b := RowHikes(m, y, j), Hikes(m, y, j);
      forall t | t in a ensures t !in b {
        RowHikesStart(m, y, j, t);
        if t in b {
          HikesStart(m, y, j, t);
        }
      }
      DisjointCard(a, b);
      RatingCountsHikes(m, y, j);
    }
  }

  lemma {:induction false} GridRatings(m: Map, n: nat)
    requires WellFormed(m) && n <= |m|
    ensures GridTotal(m, n, true) == |GridHikes(m, n)|
    decreases n
  {
    if n > 0 {
      var j := n - 1;
      GridRatings(m, j);
      GridRatingsStep(m, j);
    }
  }

  lemma {:induction false} GridRatingsStep(m: Map, j: nat)
    requires WellFormed(m) && j < |m|
    requires GridTotal(m, j, true) == |GridHikes(m, j)|
    ensures GridTotal(m, j + 1, true) == |GridHikes(m, j + 1)|
  {
    RowRatings(m, j, |m[j]|);
    GridHikesSplit(m, j);
  }

  lemma {:induction false} GridHikesSplit(m: Map, j: nat)
    requires WellFormed(m) && j < |m|
    ensures |GridHikes(m, j + 1)| == |GridHikes(m, j)| + |RowHikes(m, j, |m[j]|)|
  {
    var a, b := GridHikes(m, j), RowHikes(m, j, |m[j]|);
    forall t | t in a ensures t !in b {
      GridHikesStart(m, j, t);
      if t in b {
        RowHikesStart(m, j, |m[j]|, t);
      }
    }
    DisjointCard(a, b);
  }

  /** `part2` is the number of hiking trails that start at height 0. */
  lemma {:induction false} Part2CountsHikes(m: Map)
    requires WellFormed(m)
    ensures Part2(m) == |GridHikes(m, |m|)|
    ensures forall t: seq<(int, int)> :: t in GridHikes(m, |m|) <==> IsHike(m, t) && m[t[0].0][t[0].1] == 0
  {
    GridRatings(m, |m|);
    forall t: seq<(int, int)> ensures t in GridHikes(m, |m|) <==> IsHike(m, t) && m[t[0].0][t[0].1] == 0 {
      GridHikesMembers(m, |m|, t);
    }
  }

  /** The pairs of a start cell and a height-9 cell it reaches, for the
      height-0 cells among the first `n` cells of row `y`. */
  ghost function RowSummits(m: Map, y: int, n: nat): set<((int, int), (int, int))>
    requires WellFormed(m) && 0 <= y < |m| && n <= |m[y]|
  {
    if n == 0 then {}
    else RowSummits(m, y, n - 1) + if m[y][n - 1] == 0 then Paired((y, n - 1), Trail(m, y, n - 1)) else {}
  }

  /** The same pairs for the height-0 cells of the first `n` rows. */
  ghost function GridSummits(m: Map, n: nat): set<((int, int), (int, int))>
    requires WellFormed(m) && n <= |m|
  {
    if n == 0 then {} else GridSummits(m, n - 1) + RowSummits(m, n - 1, |m[n - 1]|)
  }

  /** The entries of `s`, each paired with `p`. */
  function Paired(p: (int, int), s: seq<(int, int)>): (r: set<((int, int), (int, int))>)
    ensures forall u, q :: (u, q) in r <==> u == p && q in s
    ensures |r| == |set q | q in s|
  {
    var elems := set q | q in s;
    var r := set q | q in elems :: (p, q);
    PairedCard(p, elems);
    r
  }

  lemma {:induction false} PairedCard(p: (int, int), s: set<(int, int)>)
    ensures |set q | q in s :: (p, q)| == |s|
    decreases |s|
  {
    if s != {} {
      var u :| u in s;
      var rest := s - {u};
      PairedCard(p, rest);
      assert (set q | q in s :: (p, q)) == (set q | q in rest :: (p, q)) + {(p, u)};
      assert (p, u) !in (set q | q in rest :: (p, q));
    } else {
      assert (set q | q in s :: (p, q)) == {};
    }
  }

  lemma {:induction false} RowSummitsMembers(m: Map, y: int, n: nat, s: (int, int), q: (int, int))
    requires WellFormed(m) && 0 <= y < |m| && n <= |m[y]|
    ensures (s, q) in RowSummits(m, y, n) <==>
      s.0 == y && 0 <= s.1 < n && m[y][s.1] == 0 && Reachable(m, y, s.1, q)
    decreases n
  {
    if n > 0 {
      var j := n - 1;
      RowSummitsMembers(m, y, j, s, q);
      RowSummitsStep(m, y, j, s, q);
    }
  }

  /** Cell `j` adds the pairs of its own trailhead and no other. */
  lemma {:induction false} RowSummitsStep(m: Map, y: int, j: nat, s: (int, int), q: (int, int))
    requires WellFormed(m) && 0 <= y < |m| && j < |m[y]|
    requires (s, q) in RowSummits(m, y, j) <==>
      s.0 == y && 0 <= s.1 < j && m[y][s.1] == 0 && Reachable(m, y, s.1, q)
    ensures (s, q) in RowSummits(m, y, j + 1) <==>
      s.0 == y && 0 <= s.1 < j + 1 && m[y][s.1] == 0 && Reachable(m, y, s.1, q)
  {
    ScoreCountsSummits(m, y, j);
  }

  lemma {:induction false} GridSummitsMembers(m: Map, n: nat, s: (int, int), q: (int, int))
    requires WellFormed(m) && n <= |m|
    ensures (s, q) in GridSummits(m, n) <==>
      0 <= s.0 < n && InMap(m, s) && m[s.0][s.1] == 0 && Reachable(m, s.0, s.1, q)
    decreases n
  {
    if n > 0 {
      var j := n - 1;
      GridSummitsMembers(m, j, s, q);
      GridSummitsStep(m, j, s, q);
    }
  }

  /** Row `j` adds the pairs of its own trailheads. */
  lemma {:induction false} GridSummitsStep(m: Map, j: nat, s: (int, int), q: (int, int))
    requires WellFormed(m) && j < |m|
    requires (s, q) in GridSummits(m, j) <==>
      0 <= s.0 < j && InMap(m, s) && m[s.0][s.1] == 0 && Reachable(m, s.0, s.1, q)
    ensures (s, q) in GridSummits(m, j + 1) <==>
      0 <= s.0 < j + 1 && InMap(m, s) && m[s.0][s.1] == 0 && Reachable(m, s.0, s.1, q)
  {
    RowSummitsMembers(m, j, |m[j]|, s, q);
  }

  lemma {:induction false} RowScores(m: Map, y: int, n: nat)
    requires WellFormed(m) && 0 <= y < |m| && n <= |m[y]|
    ensures RowTotal(m, y, n, false) == |RowSummits(m, y, n)|
    decreases n
  {
    if n > 0 {
      var j := n - 1;
      RowScores(m, y, j);
      RowSummitsSplit(m, y, j);
    }
  }

  /** The pairs of one more cell are new ones: the cell's score adds to
      the count. */
  lemma {:induction false} RowSummitsSplit(m: Map, y: int, j: nat)
    requires WellFormed(m) && 0 <= y < |m| && j < |m[y]|
    ensures |RowSummits(m, y, j + 1)| == |RowSummits(m, y, j)| + CellValue(m, y, j, false)
  {
    if m[y][j] == 0 {
      var a, b := RowSummits(m, y, j), Paired((y, j), Trail(m, y, j));
      forall e | e in a ensures e !in b {
        RowSummitsStart(m, y, j, e);
      }
      DisjointCard(a, b);
    }
  }

  lemma {:induction false} GridScores(m: Map, n: nat)
    requires WellFormed(m) && n <= |m|
    ensures GridTotal(m, n, false) == |GridSummits(m, n)|
    decreases n
  {
    if n > 0 {
      var j := n - 1;
      GridScores(m, j);
      GridScoresStep(m, j);
    }
  }

  lemma {:induction false} GridScoresStep(m: Map, j: nat)
    requires WellFormed(m) && j < |m|
    requires GridTotal(m, j, false) == |GridSummits(m, j)|
    ensures GridTotal(m, j + 1, false) == |GridSummits(m, j + 1)|
  {
    RowScores(m, j, |m[j]|);
    GridSummitsSplit(m, j);
  }

  lemma {:induction false} GridSummitsSplit(m: Map, j: nat)
    requires WellFormed(m) && j < |m|
    ensures |GridSummits(m, j + 1)| == |GridSummits(m, j)| + |RowSummits(m, j, |m[j]|)|
  {
    var a, b := GridSummits(m, j), RowSummits(m, j, |m[j]|);
    forall e | e in a ensures e !in b {
      GridSummitsStart(m, j, e);
      if e in b {
        RowSummitsStart(m, j, |m[j]|, e);
      }
    }
    DisjointCard(a, b);
  }

  /** `part1` is the number of pairs of a height-0 cell and a height-9
      cell some hiking trail leads to from it. */
  lemma {:induction false} Part1CountsSummits(m: Map)
    requires WellFormed(m)
    ensures Part1(m) == |GridSummits(m, |m|)|
    ensures forall s: (int, int), q: (int, int) :: (s, q) in GridSummits(m, |m|) <==>
      InMap(m, s) && m[s.0][s.1] == 0 && Reachable(m, s.0, s.1, q)
  {
    GridScores(m, |m|);
    forall s, q ensures (s, q) in GridSummits(m, |m|) <==>
      InMap(m, s) && m[s.0][s.1] == 0 && Reachable(m, s.0, s.1, q)
    {
      GridSummitsMembers(m, |m|, s, q);
    }
  }

  lemma {:induction false} RowHikesStart(m: Map, y: int, n: nat, t: seq<(int, int)>)
    requires WellFormed(m) && 0 <= y < |m| && n <= |m[y]| && t in RowHikes(m, y, n)
    ensures |t| >= 1 && t[0].0 == y && t[0].1 < n
    decreases n
  {
    if t !in RowHikes(m, y, n - 1) {
      HikesStart(m, y, n - 1, t);
    } else {
      RowHikesStart(m, y, n - 1, t);
    }
  }

  lemma {:induction false} GridHikesStart(m: Map, n: nat, t: seq<(int, int)>)
    requires WellFormed(m) && n <= |m| && t in GridHikes(m, n)
    ensures |t| >= 1 && t[0].0 < n
    decreases n
  {
    if t !in GridHikes(m, n - 1) {
      RowHikesStart(m, n - 1, |m[n - 1]|, t);
    } else {
      GridHikesStart(m, n - 1, t);
    }
  }

  lemma {:induction false} RowSummitsStart(m: Map, y: int, n: nat, e: ((int, int), (int, int)))
    requires WellFormed(m) && 0 <= y < |m| && n <= |m[y]| && e in RowSummits(m, y, n)
    ensures e.0.0 == y && e.0.1 < n
    decreases n
  {
    if e in RowSummits(m, y, n - 1) {
      RowSummitsStart(m, y, n - 1, e);
    }
  }

  lemma {:induction false} GridSummitsStart(m: Map, n: nat, e: ((int, int), (int, int)))
    requires WellFormed(m) && n <= |m| && e in GridSummits(m, n)
    ensures e.0.0 < n
    decreases n
  {
    if e in GridSummits(m, n - 1) {
      GridSummitsStart(m, n - 1, e);
    } else {
      RowSummitsStart(m, n - 1, |m[n - 1]|, e);
    }
  }

  /** Over the first `n` cells of row `y`, the scores add up to no more
      than the ratings. */
  lemma {:induction false} RowOrdered(m: Map, y: int, n: nat)
    requires WellFormed(m) && 0 <= y < |m| && n <= |m[y]|
    ensures RowTotal(m, y, n, false) <= RowTotal(m, y, n, true)
    decreases n
  {
    if n > 0 {
      RowOrdered(m, y, n - 1);
      ScoreAtMostRating(m, y, n - 1);
    }
  }

  lemma {:induction false} GridOrdered(m: Map, n: nat)
    requires WellFormed(m) && n <= |m|
    ensures GridTotal(m, n, false) <= GridTotal(m, n, true)
    decreases n
  {
    if n > 0 {
      GridOrdered(m, n - 1);
      RowOrdered(m, n - 1, |m[n - 1]|);
    }
  }

  /** The total score never exceeds the total rating. */
  lemma {:induction false} PartsOrdered(m: Map)
    requires WellFormed(m)
    ensures Part1(m) <= Part2(m)
  {
    GridOrdered(m, |m|);
  }
}

=== FILE: xmas.dfy ===
/** The letter-grid search of python/day04.py, `part2`: around every 'A'
    that is not on the border, each pattern names a cell that must hold
    'M' and a cell that must hold 'S', and every pattern that matches adds
    one to the count. */
module XMas {
  import opened Basics

  /** Offsets from the 'A': `mx, my` for the 'M', `sx, sy` for the 'S'. */
  datatype Pattern = Pattern(mx: int, my: int, sx: int, sy: int)

  /** The eight patterns of `part2` as written. The fourth, commented as
      bottom-to-top, repeats the second. */
  const Patterns: seq<Pattern> := [
    Pattern(-1, 0, 1, 0), Pattern(1, 0, -1, 0), Pattern(0, -1, 0, 1), Pattern(1, 0, -1, 0),
    Pattern(1, -1, -1, 1), Pattern(-1, -1, 1, 1), Pattern(-1, 1, 1, -1), Pattern(1, 1, -1, -1)]

  /** The patterns with the fourth one reading upwards, as its comment
      says: 'M' below the 'A' and 'S' above it. */
  const IntendedPatterns: seq<Pattern> := [
    Pattern(-1, 0, 1, 0), Pattern(1, 0, -1, 0), Pattern(0, -1, 0, 1), Pattern(0, 1, 0, -1),
    Pattern(1, -1, -1, 1), Pattern(-1, -1, 1, 1), Pattern(-1, 1, 1, -1), Pattern(1, 1, -1, -1)]

  /** Every offset is -1, 0 or 1. */
  predicate Small(p: Pattern)
  {
    -1 <= p.mx <= 1 && -1 <= p.my <= 1 && -1 <= p.sx <= 1 && -1 <= p.sy <= 1
  }

  predicate AllSmall(pats: seq<Pattern>)
  {
    forall k :: 0 <= k < |pats| ==> Small(pats[k])
  }

  /** The 'S' is opposite the 'M', one step away from the 'A'. */
  predicate Straight(p: Pattern)
  {
    p.sx == -p.mx && p.sy == -p.my && (p.mx, p.my) != (0, 0)
  }

  /** Every line has the length of the first. */
  predicate Rectangular(lines: seq<string>)
  {
    forall y :: 0 <= y < |lines| ==> |lines[y]| == |lines[0]|
  }

  /** `lines[y][x]` at non-negative indices; `None` where the source raises
      IndexError. */
  function Read(lines: seq<string>, y: int, x: int): (r: Option<char>)
    requires 0 <= y && 0 <= x
    ensures r.Some? <==> y < |lines| && x < |lines[y]|
    ensures r.Some? ==> r.value == lines[y][x]
  {
    if y < |lines| && x < |lines[y]| then Some(lines[y][x]) else None
  }

  /** The guard of `part2`: an 'A' whose row and column are neither the
      first nor the last of the grid and of its own line. */
  predicate InteriorA(lines: seq<string>, y: nat, x: nat)
    requires y < |lines| && x < |lines[y]|
  {
    lines[y][x] == 'A' && 0 < y < |lines| - 1 && 0 < x < |lines[y]| - 1
  }

  /** One pattern around an interior 'A': the 'S' cell is read only when
      the 'M' cell holds 'M', as Python's `and` does. */
  function PatternHit(lines: seq<string>, y: nat, x: nat, p: Pattern): (r: Option<bool>)
    requires y < |lines| && x < |lines[y]| && InteriorA(lines, y, x) && Small(p)
    ensures r == Some(true) <==>
      Read(lines, y + p.my, x + p.mx) == Some('M') && Read(lines, y + p.sy, x + p.sx) == Some('S')
    ensures r.None? ==> Read(lines, y + p.my, x + p.mx).None? || Read(lines, y + p.sy, x + p.sx).None?
  {
    match Read(lines, y + p.my, x + p.mx)
    case None => None
    case Some(m) =>
      if m != 'M' then Some(false)
      else match Read(lines, y + p.sy, x + p.sx)
        case None => None
        case Some(s) => Some(s == 'S')
  }

  /** The matches of the first `k` patterns of `pats` around an interior
      'A', tried in order; `None` once a read fails. */
  function Hits(lines: seq<string>, y: nat, x: nat, pats: seq<Pattern>, k: nat): (r: Option<nat>)
    requires y < |lines| && x < |lines[y]| && InteriorA(lines, y, x) && AllSmall(pats) && k <= |pats|
    ensures r.Some? ==> r.value <= k
  {
    if k == 0 then Some(0)
    else
      match Hits(lines, y, x, pats, k - 1)
      case None => None
      case Some(n) =>
        match PatternHit(lines, y, x, pats[k - 1])
        case None => None
        case Some(hit) => Some(n + if hit then 1 else 0)
  }

  /** The count one cell adds: its matches when it is an interior 'A',
      nothing otherwise. */
  function AtCell(lines: seq<string>, y: nat, x: nat, pats: seq<Pattern>): (r: Option<nat>)
    requires y < |lines| && x < |lines[y]| && AllSmall(pats)
    ensures r.Some? ==> r.value <= if InteriorA(lines, y, x) then |pats| else 0
    ensures !InteriorA(lines, y, x) ==> r == Some(0)
  {
    if InteriorA(lines, y, x) then Hits(lines, y, x, pats, |pats|) else Some(0)
  }

  /** The counts of the first `n` cells of line `y`. */
  function RowCount(lines: seq<string>, y: nat, n: nat, pats: seq<Pattern>): Option<nat>
    requires y < |lines| && n <= |lines[y]| && AllSmall(pats)
  {
    if n == 0 then Some(0)
    else
      match RowCount(lines, y, n - 1, pats)
      case None => None
      case Some(a) =>
        match AtCell(lines, y, n - 1, pats)
        case None => None
        case Some(b) => Some(a + b)
  }

  /** The counts of the first `m` lines. */
  function GridCount(lines: seq<string>, m: nat, pats: seq<Pattern>): Option<nat>
    requires m <= |lines| && AllSmall(pats)
  {
    if m == 0 then Some(0)
    else
      match GridCount(lines, m - 1, pats)
      case None => None
      case Some(a) =>
        match RowCount(lines, m - 1, |lines[m - 1]|, pats)
        case None => None
        case Some(b) => Some(a + b)
  }

  /** `part2` as written. */
  function Part2(lines: seq<string>): Option<nat>
  {
    assert AllSmall(Patterns);
    GridCount(lines, |lines|, Patterns)
  }

  /** `part2` with the upward pattern in place of the repeated one. */
  function Part2Fixed(lines: seq<string>): Option<nat>
  {
    assert AllSmall(IntendedPatterns);
    GridCount(lines, |lines|, IntendedPatterns)
  }

  /** Number of interior 'A's among the first `n` cells of line `y`. */
  function RowAs(lines: seq<string>, y: nat, n: nat): nat
    requires y < |lines| && n <= |lines[y]|
  {
    if n == 0 then 0 else RowAs(lines, y, n - 1) + if InteriorA(lines, y, n - 1) then 1 else 0
  }

  /** Number of interior 'A's in the first `m` lines. */
  function GridAs(lines: seq<string>, m: nat): nat
    requires m <= |lines|
  {
    if m == 0 then 0 else GridAs(lines, m - 1) + RowAs(lines, m - 1, |lines[m - 1]|)
  }

  /** On a rectangular grid every read around an interior 'A' is in
      bounds, because every offset is -1, 0 or 1. */
  lemma {:induction false} HitsDefined(lines: seq<string>, y: nat, x: nat, pats: seq<Pattern>, k: nat)
    requires Rectangular(lines) && y < |lines| && x < |lines[y]| && InteriorA(lines, y, x) && AllSmall(pats)
    requires k <= |pats|
    ensures Hits(lines, y, x, pats, k).Some?
    decreases k
  {
    if k > 0 {
      HitsDefined(lines, y, x, pats, k - 1);
      var p := pats[k - 1];
      assert Small(p);
      assert |lines[y + p.my]| == |lines[y]| && |lines[y + p.sy]| == |lines[y]|;
    }
  }

  lemma {:induction false} RowDefined(lines: seq<string>, y: nat, n: nat, pats: seq<Pattern>)
    requires Rectangular(lines) && y < |lines| && n <= |lines[y]| && AllSmall(pats)
    ensures RowCount(lines, y, n, pats).Some?
    decreases n
  {
    if n > 0 {
      RowDefined(lines, y, n - 1, pats);
      if InteriorA(lines, y, n - 1) {
        HitsDefined(lines, y, n - 1, pats, |pats|);
      }
    }
  }

  /** On a rectangular grid `part2` raises no IndexError. */
  lemma {:induction false} GridDefined(lines: seq<string>, m: nat, pats: seq<Pattern>)
    requires Rectangular(lines) && m <= |lines| && AllSmall(pats)
    ensures GridCount(lines, m, pats).Some?
    decreases m
  {
    if m > 0 {
      GridDefined(lines, m - 1, pats);
      RowDefined(lines, m - 1, |lines[m - 1]|, pats);
    }
  }

  /** Each interior 'A' adds at most one per pattern. */
  lemma {:induction false} RowBound(lines: seq<string>, y: nat, n: nat, pats: seq<Pattern>)
    requires y < |lines| && n <= |lines[y]| && AllSmall(pats)
    ensures RowCount(lines, y, n, pats).Some? ==> RowCount(lines, y, n, pats).value <= |pats| * RowAs(lines, y, n)
    decreases n
  {
    if n > 0 && RowCount(lines, y, n, pats).Some? {
      RowBound(lines, y, n - 1, pats);
      var a := RowCount(lines, y, n - 1, pats).value;
      var b := AtCell(lines, y, n - 1, pats).value;
      AddBound(a, b, |pats|, RowAs(lines, y, n - 1), if InteriorA(lines, y, n - 1) then 1 else 0);
    }
  }

  /** The count is at most the number of patterns times the number of
      interior 'A's. */
  lemma {:induction false} GridBound(lines: seq<string>, m: nat, pats: seq<Pattern>)
    requires m <= |lines| && AllSmall(pats)
    ensures GridCount(lines, m, pats).Some? ==> GridCount(lines, m, pats).value <= |pats| * GridAs(lines, m)
    decreases m
  {
    if m > 0 && GridCount(lines, m, pats).Some? {
      GridBound(lines, m - 1, pats);
      RowBound(lines, m - 1, |lines[m - 1]|, pats);
      var a := GridCount(lines, m - 1, pats).value;
      var b := RowCount(lines, m - 1, |lines[m - 1]|, pats).value;
      AddBound(a, b, |pats|, GridAs(lines, m - 1), RowAs(lines, m - 1, |lines[m - 1]|));
    }
  }

  /** Bounds by multiples add up. */
  lemma {:induction false} AddBound(x: int, y: int, p: int, a: int, b: int)
    requires x <= p * a && y <= p * b
    ensures x + y <= p * (a + b)
  {
    assert p * (a + b) == p * a + p * b;
  }

  lemma {:induction false} RowWithoutAs(lines: seq<string>, y: nat, n: nat, pats: seq<Pattern>)
    requires y < |lines| && n <= |lines[y]| && AllSmall(pats) && RowAs(lines, y, n) == 0
    ensures RowCount(lines, y, n, pats) == Some(0)
    decreases n
  {
    if n > 0 {
      RowWithoutAs(lines, y, n - 1, pats);
    }
  }

  /** Without an interior 'A' nothing is read around any cell, so the
      count is 0 on any grid, ragged or not. */
  lemma {:induction false} GridWithoutAs(lines: seq<string>, m: nat, pats: seq<Pattern>)
    requires m <= |lines| && AllSmall(pats) && GridAs(lines, m) == 0
    ensures GridCount(lines, m, pats) == Some(0)
    decreases m
  {
    if m > 0 {
      GridWithoutAs(lines, m - 1, pats);
      RowWithoutAs(lines, m - 1, |lines[m - 1]|, pats);
    }
  }

  /** `part2` on a rectangular grid: defined, at most 8 per interior 'A',
      and 0 without one. */
  lemma {:induction false} Part2Bounds(lines: seq<string>)
    ensures Rectangular(lines) ==> Part2(lines).Some?
    ensures Part2(lines).Some? ==> Part2(lines).value <= 8 * GridAs(lines, |lines|)
    ensures GridAs(lines, |lines|) == 0 ==> Part2(lines) == Some(0)
  {
    assert AllSmall(Patterns);
    if Rectangular(lines) {
      GridDefined(lines, |lines|, Patterns);
    }
    GridBound(lines, |lines|, Patterns);
    if GridAs(lines, |lines|) == 0 {
      GridWithoutAs(lines, |lines|, Patterns);
    }
  }

  /** Pattern `p` matches around (y, x): an 'M' at its 'M' offset and an
      'S' at its 'S' offset, both inside the grid. */
  predicate Matches(lines: seq<string>, y: int, x: int, p: Pattern)
  {
    0 <= y + p.my < |lines| && 0 <= x + p.mx < |lines[y + p.my]| && lines[y + p.my][x + p.mx] == 'M' &&
    0 <= y + p.sy < |lines| && 0 <= x + p.sx < |lines[y + p.sy]| && lines[y + p.sy][x + p.sx] == 'S'
  }

  /** The matches `(y, x, j)` of the first `k` patterns around (y, x). */
  ghost function CellMatches(lines: seq<string>, y: nat, x: nat, pats: seq<Pattern>, k: nat): set<(int, int, int)>
    requires k <= |pats|
  {
    if k == 0 then {}
    else CellMatches(lines, y, x, pats, k - 1) + if Matches(lines, y, x, pats[k - 1]) then {(y, x, k - 1)} else {}
  }

  /** The matches around the interior 'A's among the first `n` cells of
      line `y`. */
  ghost function RowMatches(lines: seq<string>, y: nat, n: nat, pats: seq<Pattern>): set<(int, int, int)>
    requires y < |lines| && n <= |lines[y]|
  {
    if n == 0 then {}
    else RowMatches(lines, y, n - 1, pats) + if InteriorA(lines, y, n - 1) then CellMatches(lines, y, n - 1, pats, |pats|) else {}
  }

  /** The matches around the interior 'A's of the first `m` lines. */
  ghost function GridMatches(lines: seq<string>, m: nat, pats: seq<Pattern>): set<(int, int, int)>
    requires m <= |lines|
  {
    if m == 0 then {} else GridMatches(lines, m - 1, pats) + RowMatches(lines, m - 1, |lines[m - 1]|, pats)
  }

  lemma {:induction false} HitsCountMatches(lines: seq<string>, y: nat, x: nat, pats: seq<Pattern>, k: nat)
    requires y < |lines| && x < |lines[y]| && InteriorA(lines, y, x) && AllSmall(pats) && k <= |pats|
    ensures Hits(lines, y, x, pats, k).Some? ==> Hits(lines, y, x, pats, k).value == |CellMatches(lines, y, x, pats, k)|
    decreases k
  {
    if k > 0 {
      var j := k - 1;
      HitsCountMatches(lines, y, x, pats, j);
      HitsCountStep(lines, y, x, pats, j);
    }
  }

  /** One more pattern adds one to the count exactly when it adds a match. */
  lemma {:induction false} HitsCountStep(lines: seq<string>, y: nat, x: nat, pats: seq<Pattern>, j: nat)
    requires y < |lines| && x < |lines[y]| && InteriorA(lines, y, x) && AllSmall(pats) && j < |pats|
    requires Hits(lines, y, x, pats, j).Some? ==> Hits(lines, y, x, pats, j).value == |CellMatches(lines, y, x, pats, j)|
    ensures Hits(lines, y, x, pats, j + 1).Some? ==> Hits(lines, y, x, pats, j + 1).value == |CellMatches(lines, y, x, pats, j + 1)|
  {
    var p := pats[j];
    assert Small(p);
    assert PatternHit(lines, y, x, p) == Some(true) <==> Matches(lines, y, x, p);
    CellMatchesAt(lines, y, x, pats, j, (y, x, j));
    DisjointCard(CellMatches(lines, y, x, pats, j), if Matches(lines, y, x, p) then {(y, x, j)} else {});
  }

  lemma {:induction false} RowCountMatches(lines: seq<string>, y: nat, n: nat, pats: seq<Pattern>)
    requires y < |lines| && n <= |lines[y]| && AllSmall(pats)
    ensures RowCount(lines, y, n, pats).Some? ==> RowCount(lines, y, n, pats).value == |RowMatches(lines, y, n, pats)|
    decreases n
  {
    if n > 0 && RowCount(lines, y, n, pats).Some? {
      RowCountMatches(lines, y, n - 1, pats);
      if InteriorA(lines, y, n - 1) {
        HitsCountMatches(lines, y, n - 1, pats, |pats|);
      }
      RowUnionCard(lines, y, n, pats);
    }
  }

  /** The matches of the first `n` cells of a line are those of the first
      `n - 1` and those around cell `n - 1`, which share none. */
  lemma {:induction false} RowUnionCard(lines: seq<string>, y: nat, n: nat, pats: seq<Pattern>)
    requires y < |lines| && 0 < n <= |lines[y]|
    ensures |RowMatches(lines, y, n, pats)| == |RowMatches(lines, y, n - 1, pats)| +
      if InteriorA(lines, y, n - 1) then |CellMatches(lines, y, n - 1, pats, |pats|)| else 0
  {
    var a, b := RowMatches(lines, y, n - 1, pats),
      if InteriorA(lines, y, n - 1) then CellMatches(lines, y, n - 1, pats, |pats|) else {};
    forall e | e in a ensures e !in b {
      RowMatchesRow(lines, y, n - 1, pats, e);
      CellMatchesAt(lines, y, n - 1, pats, |pats|, e);
    }
    DisjointCard(a, b);
  }

  lemma {:induction false} GridCountMatches(lines: seq<string>, m: nat, pats: seq<Pattern>)
    requires m <= |lines| && AllSmall(pats)
    ensures GridCount(lines, m, pats).Some? ==> GridCount(lines, m, pats).value == |GridMatches(lines, m, pats)|
    decreases m
  {
    if m > 0 && GridCount(lines, m, pats).Some? {
      GridCountMatches(lines, m - 1, pats);
      RowCountMatches(lines, m - 1, |lines[m - 1]|, pats);
      var a := GridCount(lines, m - 1, pats).value;
      var b := RowCount(lines, m - 1, |lines[m - 1]|, pats).value;
      UnionCard(lines, m, pats, a, b);
    }
  }

  /** The matches of the first `m` lines are those of the first `m - 1`
      and those of line `m - 1`, which share none. */
  lemma {:induction false} UnionCard(lines: seq<string>, m: nat, pats: seq<Pattern>, a: nat, b: nat)
    requires 0 < m <= |lines|
    requires a == |GridMatches(lines, m - 1, pats)| && b == |RowMatches(lines, m - 1, |lines[m - 1]|, pats)|
    ensures a + b == |GridMatches(lines, m, pats)|
  {
    var g, r := GridMatches(lines, m - 1, pats), RowMatches(lines, m - 1, |lines[m - 1]|, pats);
    forall e | e in g ensures e !in r {
      GridMatchesRow(lines, m - 1, pats, e);
      if e in r {
        RowMatchesRow(lines, m - 1, |lines[m - 1]|, pats, e);
      }
    }
    DisjointCard(g, r);
  }

  /** The matches of the first `m` lines lie in those lines. */
  lemma {:induction false} GridMatchesRow(lines: seq<string>, m: nat, pats: seq<Pattern>, e: (int, int, int))
    requires m <= |lines|
    ensures e in GridMatches(lines, m, pats) ==> e.0 < m
    decreases m
  {
    if m > 0 {
      GridMatchesRow(lines, m - 1, pats, e);
      if e in RowMatches(lines, m - 1, |lines[m - 1]|, pats) {
        RowMatchesRow(lines, m - 1, |lines[m - 1]|, pats, e);
      }
    }
  }

  /** The matches of line `y` lie in line `y`, left of `n`. */
  lemma {:induction false} RowMatchesRow(lines: seq<string>, y: nat, n: nat, pats: seq<Pattern>, e: (int, int, int))
    requires y < |lines| && n <= |lines[y]|
    ensures e in RowMatches(lines, y, n, pats) ==> e.0 == y && e.1 < n
    decreases n
  {
    if n > 0 {
      RowMatchesRow(lines, y, n - 1, pats, e);
      if e in CellMatches(lines, y, n - 1, pats, |pats|) {
        CellMatchesAt(lines, y, n - 1, pats, |pats|, e);
      }
    }
  }

  /** The matches around (y, x) are at (y, x), with a pattern index below
      `k`. */
  lemma {:induction false} CellMatchesAt(lines: seq<string>, y: nat, x: nat, pats: seq<Pattern>, k: nat, e: (int, int, int))
    requires k <= |pats|
    ensures e in CellMatches(lines, y, x, pats, k) ==> e.0 == y && e.1 == x && e.2 < k
    decreases k
  {
    if k > 0 {
      CellMatchesAt(lines, y, x, pats, k - 1, e);
    }
  }

  lemma {:induction false} CellMatchesMembers(lines: seq<string>, y: nat, x: nat, pats: seq<Pattern>, k: nat)
    requires k <= |pats|
    ensures forall e :: e in CellMatches(lines, y, x, pats, k) <==>
      e.0 == y && e.1 == x && 0 <= e.2 < k && Matches(lines, y, x, pats[e.2])
    decreases k
  {
    if k > 0 {
      CellMatchesMembers(lines, y, x, pats, k - 1);
    }
  }

  lemma {:induction false} RowMatchesMembers(lines: seq<string>, y: nat, n: nat, pats: seq<Pattern>)
    requires y < |lines| && n <= |lines[y]|
    ensures forall e :: e in RowMatches(lines, y, n, pats) <==>
      e.0 == y && 0 <= e.1 < n && InteriorA(lines, y, e.1) && 0 <= e.2 < |pats| && Matches(lines, y, e.1, pats[e.2])
    decreases n
  {
    if n > 0 {
      RowMatchesMembers(lines, y, n - 1, pats);
      CellMatchesMembers(lines, y, n - 1, pats, |pats|);
    }
  }

  lemma {:induction false} GridMatchesMembers(lines: seq<string>, m: nat, pats: seq<Pattern>)
    requires m <= |lines|
    ensures forall e :: e in GridMatches(lines, m, pats) <==>
      0 <= e.0 < m && 0 <= e.1 < |lines[e.0]| && InteriorA(lines, e.0, e.1) &&
      0 <= e.2 < |pats| && Matches(lines, e.0, e.1, pats[e.2])
    decreases m
  {
    if m > 0 {
      GridMatchesMembers(lines, m - 1, pats);
      RowMatchesMembers(lines, m - 1, |lines[m - 1]|, pats);
    }
  }

  /** What `part2` counts, as written and with the intended patterns:
      when no read fails, the number of pairs of an interior 'A' and a
      pattern that matches around it. */
  lemma {:induction false} Part2CountsMatches(lines: seq<string>)
    ensures Part2(lines).Some? ==> Part2(lines).value == |GridMatches(lines, |lines|, Patterns)|
    ensures Part2Fixed(lines).Some? ==> Part2Fixed(lines).value == |GridMatches(lines, |lines|, IntendedPatterns)|
    ensures forall e :: e in GridMatches(lines, |lines|, Patterns) <==>
      0 <= e.0 < |lines| && 0 <= e.1 < |lines[e.0]| && InteriorA(lines, e.0, e.1) &&
      0 <= e.2 < |Patterns| && Matches(lines, e.0, e.1, Patterns[e.2])
    ensures forall e :: e in GridMatches(lines, |lines|, IntendedPatterns) <==>
      0 <= e.0 < |lines| && 0 <= e.1 < |lines[e.0]| && InteriorA(lines, e.0, e.1) &&
      0 <= e.2 < |IntendedPatterns| && Matches(lines, e.0, e.1, IntendedPatterns[e.2])
  {
    assert AllSmall(Patterns) && AllSmall(IntendedPatterns);
    GridCountMatches(lines, |lines|, Patterns);
    GridCountMatches(lines, |lines|, IntendedPatterns);
    GridMatchesMembers(lines, |lines|, Patterns);
    GridMatchesMembers(lines, |lines|, IntendedPatterns);
  }

  /** The patterns as written all read 'M' and 'S' on opposite sides, but
      one appears twice and none reads 'M' below the 'A'. */
  lemma {:induction false} PatternsAsWritten()
    ensures AllSmall(Patterns)
    ensures forall p :: p in Patterns ==> Straight(p)
    ensures Patterns[1] == Patterns[3] && !NoDuplicates(Patterns)
    ensures Pattern(0, 1, 0, -1) !in Patterns
  {
    assert Patterns[1] == Patterns[3];
  }

  /** The intended patterns read every one of the eight directions once. */
  lemma {:induction false} IntendedPatternsCover()
    ensures AllSmall(IntendedPatterns) && NoDuplicates(IntendedPatterns)
    ensures forall p :: p in IntendedPatterns ==> Straight(p)
    ensures forall dx, dy :: -1 <= dx <= 1 && -1 <= dy <= 1 && (dx, dy) != (0, 0) ==>
      Pattern(dx, dy, -dx, -dy) in IntendedPatterns
  {
  }

  /** The running hit counts of `pats` around the centre of a 3 by 3
      grid whose centre is 'A'. */
  lemma {:induction false} CentreHits(g: seq<string>, pats: seq<Pattern>, counts: seq<nat>)
    requires |g| == 3 && |g[0]| == |g[1]| == |g[2]| == 3 && g[1][1] == 'A'
    requires AllSmall(pats) && |pats| == 8 && |counts| == 9 && counts[0] == 0
    requires forall k :: 0 <= k < 8 ==>
      counts[k + 1] == counts[k] + if g[1 + pats[k].my][1 + pats[k].mx] == 'M' &&
                                      g[1 + pats[k].sy][1 + pats[k].sx] == 'S' then 1 else 0
    ensures AtCell(g, 1, 1, pats) == Some(counts[8])
  {
    assert InteriorA(g, 1, 1);
    forall k | 0 <= k <= 8
      ensures Hits(g, 1, 1, pats, k) == Some(counts[k])
    {
      HitsUpTo(g, pats, counts, k);
    }
  }

  lemma {:induction false} HitsUpTo(g: seq<string>, pats: seq<Pattern>, counts: seq<nat>, k: nat)
    requires |g| == 3 && |g[0]| == |g[1]| == |g[2]| == 3 && g[1][1] == 'A'
    requires AllSmall(pats) && |pats| == 8 && |counts| == 9 && counts[0] == 0 && k <= 8
    requires forall k :: 0 <= k < 8 ==>
      counts[k + 1] == counts[k] + if g[1 + pats[k].my][1 + pats[k].mx] == 'M' &&
                                      g[1 + pats[k].sy][1 + pats[k].sx] == 'S' then 1 else 0
    ensures InteriorA(g, 1, 1) && Hits(g, 1, 1, pats, k) == Some(counts[k])
    decreases k
  {
    assert InteriorA(g, 1, 1);
    if k > 0 {
      HitsUpTo(g, pats, counts, k - 1);
      HitAtCentre(g, pats[k - 1]);
    }
  }

  /** Around the centre of a 3x3 grid every read of a small pattern
      succeeds. */
  lemma {:induction false} HitAtCentre(g: seq<string>, p: Pattern)
    requires |g| == 3 && |g[0]| == |g[1]| == |g[2]| == 3 && g[1][1] == 'A' && Small(p)
    ensures InteriorA(g, 1, 1)
    ensures PatternHit(g, 1, 1, p) == Some(g[1 + p.my][1 + p.mx] == 'M' && g[1 + p.sy][1 + p.sx] == 'S')
  {
  }

  /** A 3 by 3 grid whose only 'A' is its centre counts what the centre
      adds. */
  lemma {:induction false} CentreOnly(g: seq<string>, pats: seq<Pattern>, n: nat)
    requires |g| == 3 && |g[0]| == |g[1]| == |g[2]| == 3 && AllSmall(pats)
    requires forall y, x :: 0 <= y < 3 && 0 <= x < 3 && (y, x) != (1, 1) ==> g[y][x] != 'A'
    requires AtCell(g, 1, 1, pats) == Some(n)
    ensures GridCount(g, 3, pats) == Some(n)
  {
    forall y, x | 0 <= y < 3 && 0 <= x < 3 && (y, x) != (1, 1)
      ensures AtCell(g, y, x, pats) == Some(0)
    {
      assert !InteriorA(g, y, x);
    }
    assert RowCount(g, 0, 1, pats) == Some(0);
    assert RowCount(g, 0, 2, pats) == Some(0);
    assert RowCount(g, 0, 3, pats) == Some(0);
    assert RowCount(g, 1, 1, pats) == Some(0);
    assert RowCount(g, 1, 2, pats) == Some(n);
    assert RowCount(g, 1, 3, pats) == Some(n);
    assert RowCount(g, 2, 1, pats) == Some(0);
    assert RowCount(g, 2, 2, pats) == Some(0);
    assert RowCount(g, 2, 3, pats) == Some(0);
    assert GridCount(g, 1, pats) == Some(0);
    assert GridCount(g, 2, pats) == Some(n);
  }

  /** "SAM" read leftwards is counted twice as written. */
  lemma {:induction false} LeftwardCountedTwice()
    ensures Part2(["...", "SAM", "..."]) == Some(2)
  {
    var g := ["...", "SAM", "..."];
    assert AtCell(g, 1, 1, Patterns) == Some(2) by {
      assert AllSmall(Patterns);
      CentreHits(g, Patterns, [0, 0, 1, 1, 2, 2, 2, 2, 2]);
    }
    CentreOnly(g, Patterns, 2);
  }

  /** "SAM" read leftwards is counted once with the intended patterns. */
  lemma {:induction false} LeftwardCountedOnce()
    ensures Part2Fixed(["...", "SAM", "..."]) == Some(1)
  {
    var g := ["...", "SAM", "..."];
    assert AtCell(g, 1, 1, IntendedPatterns) == Some(1) by {
      assert AllSmall(IntendedPatterns);
      CentreHits(g, IntendedPatterns, [0, 0, 1, 1, 1, 1, 1, 1, 1]);
    }
    CentreOnly(g, IntendedPatterns, 1);
  }

  /** "MAS" read upwards is missed as written. */
  lemma {:induction false} UpwardMissed()
    ensures Part2([".S.", ".A.", ".M."]) == Some(0)
  {
    var g := [".S.", ".A.", ".M."];
    assert AtCell(g, 1, 1, Patterns) == Some(0) by {
      assert AllSmall(Patterns);
      CentreHits(g, Patterns, [0, 0, 0, 0, 0, 0, 0, 0, 0]);
    }
    CentreOnly(g, Patterns, 0);
  }

  /** "MAS" read upwards is counted once with the intended patterns. */
  lemma {:induction false} UpwardCounted()
    ensures Part2Fixed([".S.", ".A.", ".M."]) == Some(1)
  {
    var g := [".S.", ".A.", ".M."];
    assert AtCell(g, 1, 1, IntendedPatterns) == Some(1) by {
      assert AllSmall(IntendedPatterns);
      CentreHits(g, IntendedPatterns, [0, 0, 0, 0, 1, 1, 1, 1, 1]);
    }
    CentreOnly(g, IntendedPatterns, 1);
  }
}
